=== FILE: README.md ===
# Blockweave ledger — a Dafny model

This project models the core of a small "blockweave" ledger written in C++.
The ledger hashes with SHA-256 and keeps blocks in a store keyed by hash. It
keeps an append-only hash history, a tip and a FIFO mempool. Around it sit a
REST front end, a key=value configuration file and an outbound peer table.

Every part is modelled as immutable datatypes and pure transition functions:

- `ContentHash` (hash.dfy): `CHash`. It has the 64-zero default, the lowercase
  hex encoding of a 32-byte digest, and equality and ordering.
- `Transactions` (transaction.dfy): the `CTransaction` constructor.
- `Blocks` (block.dfy): `CBlock`. It covers the constructor, `AddTransaction`,
  `SetRecallBlock`, the mining preimage and the acceptance test of `Mine`.
- `Blockweave` (weave.dfy): `CBlockweave`. It covers genesis, recall selection,
  mempool append, `MineBlock` with its drain-at-most-ten rule, `GetBlock`,
  `GetData` and the mining flags.
- `Base64`, `Json`, `Multipart`, `Http` and `Uuid`: the string helpers of the
  REST server (`DecodeBase64`, `ExtractJsonValue`, `ParseMultipartFile`,
  `ParseHttpRequest`, `GenerateUUID`).
- `Rest` (rest.dfy): `HandleGET`/`HandlePOST` routing and the status code that
  `ProcessRequest` picks.
- `Config` (config.dfy): `CConfig`. It covers the defaults, the line grammar of
  `ParseConfigFile` (a file is a `seq<string>` of lines), and the typed getters.
- `Peers` (peer.dfy): the bookkeeping of `CPeerManager`'s outbound table.
- `Text` (text.dfy) and `Wrappers` (wrappers.dfy): the parts of `std::string`
  the source relies on. These are `find`, the `find_first_not_of` /
  `find_last_not_of` trims, `std::to_string` and `<`, with `Option` standing
  for `npos` and for null.

Some inputs are not computed inside the model; they are parameters instead:

- SHA-256 is an uninterpreted function from strings to 32-byte digests.
- The clock is a timestamp argument.
- Every `std::random_device` choice is a parameter:
  - mining nonces are a finite stream of draws;
  - the recall index is an index argument;
  - the UUID digits are 31 draws.
- Socket connects are a success/failure outcome.
- The `/transaction` and `/files` handlers are a `Posted` outcome: a reply and
  the transaction queued, if any.

Each public weave operation is treated as atomic.

## Model

| member | source | states |
|---|---|---|
| ContentHash.Zero | src/hash.cpp:7 | the default hash is a well-formed 64-character hash string made only of '0' |
| ContentHash.ZeroIsHexOfZeroDigest | src/hash.cpp:7 | the default hash is exactly the hex form of the all-zero 32-byte digest |
| ContentHash.Hex | src/hash.cpp:13-17 | the encoding has two characters per byte, high nibble first, each a lowercase hex digit |
| ContentHash.HexRoundTrip | src/hash.cpp:13-17 | reading the text back two digits at a time recovers every digest byte |
| ContentHash.HexInjective | src/hash.cpp:14-16 | distinct digests never encode to the same string |
| ContentHash.Of | src/hash.cpp:9-18 | `CHash(x)` is a 64-digit lowercase hex string that decodes to SHA-256 of x, so it depends on x alone |
| ContentHash.OfEqualIffDigestsEqual | src/hash.cpp:9-22 | two hashes compare equal exactly when their digests are equal |
| ContentHash.LessIsStrictTotalOrder | src/hash.cpp:20-26 | `<` is irreflexive, asymmetric and transitive, and orders any two hashes that are not `==` |
| Text.LexLessTotal | src/hash.cpp:24-26 | lexicographic string order relates any two distinct strings one way or the other |
| Text.LexLessTransitive | src/hash.cpp:24-26 | lexicographic string order is transitive |
| Transactions.NewTx | src/transaction.cpp:5-11 | owner, target, data, reward and time are stored unchanged; the size is the data length; the id decodes to SHA-256 of owner, target and decimal time; no input is refused |
| Transactions.IdIgnoresPayload | src/transaction.cpp:10 | equal owner, target and time give equal ids whatever the data and reward |
| Transactions.IdEqualIff | src/transaction.cpp:10 | two ids are equal exactly when the digests of their preimages are equal |
| Text.DecimalInjective | src/transaction.cpp:10 | distinct timestamps render to distinct decimal strings |
| Text.NatDecimalRoundTrip | src/transaction.cpp:10 | the decimal digits of a natural number read back to that number |
| Blocks.NewBlock | src/core/block.cpp:7-12 | a new block has the given predecessor, height, miner and time, nonce "0", difficulty 1000, no transactions, size 0, and zero recall and hash |
| Blocks.AddTransaction | src/core/block.cpp:14-17 | the transaction lands at the end, the size grows by its data size, and no other field changes |
| Blocks.AddTransactionKeepsSize | src/core/block.cpp:14-17 | the size field stays the sum of the included transactions' data sizes |
| Blocks.AddAll | src/blockcore/blockweave.cpp:51-54 | adding a list in order appends it whole and keeps the size field consistent |
| Blocks.SetRecall | src/core/block.cpp:19-21 | only the recall field changes |
| Blocks.AcceptsHexForm | src/core/block.cpp:39 | for a hex hash, the first four characters are below "0fff" exactly when the first is '0' and the next three are not "fff" |
| Blocks.FirstAccepted | src/core/block.cpp:35-42 | the loop stops at the first draw whose candidate hash is accepted; every earlier draw is rejected |
| Blocks.Mine | src/core/block.cpp:23-43 | only hash and nonce change; the hash is the hash of preimage plus nonce and is accepted; the nonce is the decimal of a draw in [0, 999999] |
| Blocks.MineIgnoresDifficulty | src/core/block.cpp:23-43 | mining never reads the difficulty: changing it changes nothing else in the result |
| Blocks.PreimageDeterminedByContent | src/core/block.cpp:24-29 | the preimage depends only on predecessor, recall, height, time and the transaction ids in order |
| Blockweave.Init | src/blockcore/blockweave.cpp:8-17 | after construction the history is the genesis hash alone; the store holds genesis only; the tip is genesis at height 0 with zero predecessor, miner "genesis" and no transactions; the mempool is empty and both flags are off; all invariants hold |
| Blockweave.SelectRecall | src/blockcore/blockweave.cpp:19-30 | up to height 1 the recall is the genesis hash; above it is an element of the history |
| Blockweave.RecallIsStored | src/blockcore/blockweave.cpp:19-30 | the recall hash always names a stored block |
| Blockweave.AddTransaction | src/blockcore/blockweave.cpp:32-36 | the transaction goes to the mempool tail and nothing else changes |
| Blockweave.AddTransactionKeepsLinked | src/blockcore/blockweave.cpp:32-36 | the mempool grows by one and the weave invariants are kept |
| Blockweave.Drained | src/blockcore/blockweave.cpp:51 | the number of transactions taken is the mempool size capped at ten |
| Blockweave.Commit | src/blockcore/blockweave.cpp:63-65 | the block is stored under its hash, its hash is appended to history, it becomes the tip; other entries and the flags are kept and the drained prefix leaves the mempool |
| Blockweave.CommitKeepsValid | src/blockcore/blockweave.cpp:45-65 | storing a block one above the tip keeps history and store keys equal, genesis first and the tip height equal to the history length minus one |
| Blockweave.CommitKeepsLinked | src/blockcore/blockweave.cpp:45-65 | with a fresh hash, every stored block keeps its history position as height and names its predecessor in history |
| Blockweave.MineBlock | src/blockcore/blockweave.cpp:38-68 | an empty mempool changes nothing; otherwise the new tip follows the old tip one level higher, holds the first min(N, 10) pending transactions, carries the recall hash `SelectRecall` picks for its height, and its hash is the SHA-256 of its own preimage and nonce and is accepted |
| Blockweave.DrainingLaw | src/blockcore/blockweave.cpp:51-55 | the block holds the first min(N, 10) entries in order and the mempool keeps the rest in order; the two together are the old mempool |
| Blockweave.MineBlockKeepsValid | src/blockcore/blockweave.cpp:38-68 | mining keeps the store/history/tip invariants and never shortens the history |
| Blockweave.MineBlockKeepsLinked | src/blockcore/blockweave.cpp:38-68 | if the mined hash is new, mining keeps the height and predecessor linkage of the whole chain |
| Blockweave.GetBlock | src/blockcore/blockweave.cpp:70-77 | a block comes back exactly when its hash is a store key, and it is the stored block |
| Blockweave.GetBlockAfterMine | src/blockcore/blockweave.cpp:63-77 | after mining, the new tip is found by its hash and every other lookup is unchanged |
| Blockweave.DataOf | src/blockcore/blockweave.cpp:79-90 | the payload of the first transaction with the id, or empty when none has it |
| Blockweave.GetData | src/blockcore/blockweave.cpp:79-90 | the nested scan returns the payload of the first match in history order, then transaction order |
| Blockweave.ChainAfterCommit | src/blockcore/blockweave.cpp:63-64 | the transactions of the chain after a commit are the old ones followed by the new block's |
| Blockweave.MinedDataRetrievable | src/blockcore/blockweave.cpp:38-90 | the first drained transaction with a given id, when no mined block holds that id yet, is read back by its id after mining, whatever hash the new block gets |
| Blockweave.CommitFirstPayload | src/blockcore/blockweave.cpp:63-90 | a commit onto a chain without the id leaves a chain whose first payload for the id is the new block's, even if the new hash overwrites a stored block |
| Blockweave.StartMining | src/blockcore/blockweave.cpp:108-112 | mining becomes enabled, the stop flag clears, and nothing else changes |
| Blockweave.StopMining | src/blockcore/blockweave.cpp:114-118 | the stop flag is set, mining becomes disabled, and nothing else changes |
| Blockweave.MiningControl | src/blockcore/blockweave.cpp:108-131 | the last start or stop wins, the flag readers report it, and neither touches the chain or the mempool |
| Blockweave.DemoFirstBlock | src/main.cpp:11-27 | Alice's 25-byte and Bob's 45-byte transactions are mined into block 1 in order, with size 70, the genesis hash as recall and an empty mempool |
| Blockweave.DemoSecondBlock | src/main.cpp:29-34 | one more transaction mined under a new hash becomes block 2 on top of block 1 and keeps the first transaction's payload first for its id |
| Blockweave.DemoRun | src/main.cpp:11-43 | after both blocks, block 2 holds the 31-byte third transaction and reading the first transaction's id gives back "Hello, permanent storage!" |
| Base64.AlphabetTable | src/rest/rest_api.cpp:69-76 | the alphabet has 64 characters and character and sextet value are mutually inverse |
| Base64.PrefixLength | src/rest/rest_api.cpp:87 | decoding consumes the longest run of alphabet characters before the first '=' or foreign character |
| Base64.Decode | src/rest/rest_api.cpp:79-125 | with k characters consumed, the output has 3*(k/4) bytes, plus k%4-1 when k%4 is not 0 |
| Base64.DecodeStopsAtPrefix | src/rest/rest_api.cpp:87 | anything after the first '=' or foreign character does not affect the output |
| Base64.PadIrrelevant | src/rest/rest_api.cpp:106-121 | the value put in the empty slots of the last group never reaches an emitted byte |
| Base64.RoundTrip | src/rest/rest_api.cpp:79-125 | decoding the standard padded encoding of any byte string gives that byte string back |
| Json.ExtractJsonValue | src/rest/rest_api.cpp:23-66 | an absent quoted key gives ""; a result holding a '"' contains no ',', '}' or newline |
| Json.NoColonAfterKey | src/rest/rest_api.cpp:31-35 | when no ':' follows the first occurrence of the quoted key, the result is "" |
| Json.ExtractQuoted | src/rest/rest_api.cpp:23-49 | a quoted value after the first occurrence of the key is returned up to the next '"', with no escape handling |
| Json.ExtractUnterminated | src/rest/rest_api.cpp:43-65 | a quoted value with no closing '"' gives "" |
| Json.ExtractBare | src/rest/rest_api.cpp:50-62 | an unquoted value runs up to the first ',', '}' or newline and loses its trailing blanks |
| Json.ExtractFromObject | src/rest/rest_api.cpp:23-49 | a value written as a one-member JSON object comes back |
| Multipart.TrimNewlines | src/rest/rest_api.cpp:176-180 | the data end moves back over trailing CR and LF characters only, never past the data start |
| Multipart.DataStartSpec | src/rest/rest_api.cpp:158-168 | the data starts after the first CRLF blank line, else after the first LF blank line, else there is none |
| Multipart.ParseMultipartFile | src/rest/rest_api.cpp:128-188 | success holds exactly when the data is non-empty, and the file name never contains '"' |
| Multipart.ParseMultipartFileSpec | src/rest/rest_api.cpp:128-188 | without the marker nothing is found; on success the data is a slice of the body ending in a non-newline and followed by the marker |
| Multipart.NoDisposition | src/rest/rest_api.cpp:142-146 | no `Content-Disposition:` after the first marker: failure with no name and no data |
| Multipart.NoBlankLine | src/rest/rest_api.cpp:158-165 | no CRLF or LF blank line after the disposition: failure with no data |
| Multipart.NoClosingMarker | src/rest/rest_api.cpp:170-174 | no marker after the data start: failure with no data |
| Multipart.ParsedFromDataStart | src/rest/rest_api.cpp:170-187 | the data is exactly the bytes from the data start to the next marker less the line breaks before it, and success means that stretch is non-empty |
| Multipart.UploadRoundTrip | src/rest/rest_api.cpp:128-188 | for a well-formed single-file upload, parsing gives back the file name and the content |
| Http.GetLine | src/rest/rest_api.cpp:448-454 | a line is read exactly when input remains; it is the text before the first newline, and the rest follows it |
| Http.RequestLineOf | src/rest/rest_api.cpp:448-451 | the rendered line `verb path HTTP/1.1` followed by a carriage return gives back the verb and path of a well-formed request, and holds no line feed |
| Http.RequestLineOfWords | src/rest/rest_api.cpp:448-451 | verb and path are the first two whitespace-separated words of the first line, whatever white space comes before, between and after them |
| Http.ValueTrimAsWritten | src/rest/rest_api.cpp:469-470 | the trailing erase drops the last non-blank character too, and fails on a blank value |
| Http.HeadersEnd | src/rest/rest_api.cpp:454 | the header loop stops at an empty line or a line holding only "\r" and leaves everything after it for the body |
| Http.HeaderLineCaptured | src/rest/rest_api.cpp:456-478 | a header line ending in a carriage return whose name trims and lowercases to content-type sets the content type to its trimmed value |
| Http.HeaderLineCapturedBare | src/rest/rest_api.cpp:456-478 | the same for a header line with no trailing carriage return (a bare line feed ended it) |
| Http.HeaderLineIgnored | src/rest/rest_api.cpp:456-478 | any other header line ending in a carriage return leaves the content type as it was |
| Http.HeaderLineIgnoredBare | src/rest/rest_api.cpp:456-478 | the same for any other header line with no trailing carriage return |
| Http.ContentTypeAnyCase | src/rest/rest_api.cpp:467-476 | every name that lowercases to "content-type" (any letter case, e.g. "CONTENT-TYPE") is recognised as the content-type header |
| Http.CanonicalContentTypeName | src/rest/rest_api.cpp:467-476 | the canonical spelling "Content-Type" is recognised |
| Http.BodyWhole | src/rest/rest_api.cpp:483-485 | the body is the rest of the input verbatim |
| Http.ParseOfRender | src/rest/rest_api.cpp:439-488 | parsing a rendered request gives its verb, path and body, with the header value passed through the value trim |
| Http.FixedRoundTrip | src/rest/rest_api.cpp:439-488 | with the intended value trim, parsing a rendered request gives the request back |
| Http.AsWrittenDropsLastChar | src/rest/rest_api.cpp:470 | as written, a non-blank content type comes back without its last character, and a blank one throws |
| Http.TextPlainLosesLastChar | src/rest/rest_api.cpp:470 | "Content-Type: text/plain" is read as "text/plai" |
| Http.BlankValueThrows | src/rest/rest_api.cpp:469-470 | a header with a blank value makes the parse fail |
| Uuid.GenerateUuid | src/rest/rest_api.cpp:191-220 | 36 characters, '-' at 8, 13, 18 and 23, '4' at 14, one of 8/9/a/b at 19, lowercase hex digits elsewhere, each draw at its place |
| Uuid.ParseGenerated | src/rest/rest_api.cpp:191-220 | the draws can be read back from the identifier |
| Uuid.GenerateParsed | src/rest/rest_api.cpp:191-220 | every string of the version-4 shape is produced by exactly one draw sequence |
| Rest.RouteGet | src/rest/rest_api.cpp:741-762 | "/chain" matches exactly; a "/block/" or "/data/" prefix passes on the suffix after it; anything else is not found |
| Rest.RoutePost | src/rest/rest_api.cpp:764-784 | only the four exact POST paths match; anything else is not found |
| Rest.RouteGetInverse | src/rest/rest_api.cpp:741-762 | each GET endpoint is reached from its own path, and a matched path is the path of its endpoint |
| Rest.RoutePostInverse | src/rest/rest_api.cpp:764-784 | each POST endpoint is reached from its own path, and a matched path is the path of its endpoint |
| Rest.ProcessRequest | src/rest/rest_api.cpp:505-534 | the status is 200, 404 or 405; it is 405 exactly for verbs other than GET and POST, and then the weave is untouched |
| Rest.NotFoundIs404 | src/rest/rest_api.cpp:513-516 | the not-found reply gets 404 |
| Rest.NotImplementedIs200 | src/rest/rest_api.cpp:549-557 | the not-implemented stubs carry "error" but still get 200 |
| Rest.ChainIs200 | src/rest/rest_api.cpp:536-547 | the chain summary gets 200 |
| Rest.MiningStartedIs200 | src/rest/rest_api.cpp:729-732 | the mining-started reply gets 200 |
| Rest.MiningStoppedIs200 | src/rest/rest_api.cpp:734-737 | the mining-stopped reply gets 200 |
| Rest.GetStatus | src/rest/rest_api.cpp:741-762 | a GET reply gets 404 exactly when no route matched |
| Rest.PostStatus | src/rest/rest_api.cpp:764-784 | unmatched POST paths get 404, the mining routes 200, and the upload routes answer with their handler's reply |
| Rest.QueueEffect | src/rest/rest_api.cpp:594-595 | a successful upload handler appends its transaction to the mempool, keeps the invariants and touches nothing else |
| Rest.PostEffect | src/rest/rest_api.cpp:764-784 | a POST handler changes at most the mining flags and appends at most the posted transaction; an unmatched path changes nothing |
| Rest.PostKeepsLinked | src/rest/rest_api.cpp:764-784 | no POST handler breaks the weave invariants |
| Rest.StatusTable | src/rest/rest_api.cpp:505-534 | the full status table over verb and route |
| Rest.ProcessKeepsChain | src/rest/rest_api.cpp:505-534 | a request changes only the mining flags and appends at most the posted transaction; non-POST and unmatched requests change nothing; the weave invariants survive |
| Config.DefaultsKeys | src/cli/config.cpp:17-25 | the defaults hold exactly the seven keys |
| Config.DefaultPortsRead | src/cli/config.cpp:17-25 | the default ports read back as 28443 and 28333 |
| Config.DefaultStringsRead | src/cli/config.cpp:17-25 | the default data dir, log dir, log level and miner address read back, and daemon reads false |
| Config.ParseLine | src/cli/config.cpp:46-69 | a line is blank exactly when it is all blanks, a comment exactly when its trimmed form starts with '#', invalid exactly when it is neither and has no '='; an assignment splits at the first '=' into trimmed key and value |
| Config.Classify | src/cli/config.cpp:51-69 | on a trimmed line: empty, then a leading '#', then the absence of '=' decide blank, comment and invalid, in that order |
| Config.ParseLineRoundTrip | src/cli/config.cpp:46-69 | a key=value line padded with blanks parses to that key and value, even when the value contains '=' |
| Config.ApplyLastWriteWins | src/cli/config.cpp:71 | the last line assigning a key decides its value |
| Config.ApplyLeavesOthers | src/cli/config.cpp:71 | a key no line assigns keeps its prior value, or stays absent |
| Config.ParseConfigFile | src/cli/config.cpp:32-77 | an unopenable file reports failure and changes nothing; otherwise every prior key survives |
| Config.NewConfig | src/cli/config.cpp:12-15 | the defaults are always present, and are all there is without a file |
| Config.GetValue | src/cli/config.cpp:79-85 | the stored value when the key is present, else the default |
| Config.SetValue | src/cli/config.cpp:108-110 | the key then reads back the new value and every other key reads as before |
| Config.StoiReadsDecimal | src/cli/config.cpp:93 | leading blanks, a decimal int and a non-digit suffix read back as that int |
| Config.GetIntValue | src/cli/config.cpp:87-97 | an empty or absent value or one stoi rejects gives the default; otherwise the parsed int |
| Config.GetIntValueOfDecimal | src/cli/config.cpp:87-97 | a stored decimal rendering reads back as its number |
| Config.GetBoolValue | src/cli/config.cpp:99-106 | empty or absent gives the default; otherwise true exactly when the lowercased value is "true", "1" or "yes" |
| Config.GetBoolIgnoresCase | src/cli/config.cpp:104-105 | the boolean reading ignores case |
| Text.TrimEmptyIff | src/cli/config.cpp:47-53 | a trimmed line is empty exactly when it was all blanks |
| Text.TrimBounds | src/cli/config.cpp:66-69 | trimming removes blanks from the two ends only |
| Peers.ConnectToPeer | src/peer/peer.cpp:333-381 | a failed connect changes nothing; a success appends one connected, active entry |
| Peers.AddPeer | src/peer/peer.cpp:413-432 | the call succeeds exactly when the table has fewer than 8 entries, holds no entry with the same address and port, and the connect succeeds; on failure the table is unchanged |
| Peers.AddPeerKeepsTableOk | src/peer/peer.cpp:413-432 | used one call at a time, the table stays at most 8 entries with no duplicate address and port |
| Peers.DisconnectPeer | src/peer/peer.cpp:383-398 | the one entry becomes inactive, disconnected and socketless; every other entry is unchanged |
| Peers.DisconnectKeepsTableOk | src/peer/peer.cpp:383-398 | disconnecting keeps the table invariant |
| Peers.Cleanup | src/peer/peer.cpp:400-411 | exactly the disconnected entries go, and the rest stay |
| Peers.CleanupAppend | src/peer/peer.cpp:400-411 | cleanup works entry by entry, so it keeps the table order |
| Peers.CleanupIdempotent | src/peer/peer.cpp:400-411 | a table of connected entries is untouched, so cleaning twice equals cleaning once |
| Peers.CleanupKeepsTableOk | src/peer/peer.cpp:400-411 | cleanup keeps the table invariant |
| Peers.GetConnectedPeers | src/peer/peer.cpp:439-450 | one "address:port" per connected entry, in table order |
| Peers.ListingIgnoresCleanup | src/peer/peer.cpp:400-450 | the listing is the same before and after cleanup |
| Peers.ListingAfterAddPeer | src/peer/peer.cpp:413-450 | a successful add extends the listing by the new "address:port" |
| Peers.EndpointInjective | src/peer/peer.cpp:445 | for addresses without ':', distinct address/port pairs give distinct listing entries |
| Peers.Stop | src/peer/peer.cpp:113-158 | stopping a stopped manager changes nothing; stopping a running one empties the table and sets the stop flag |
| Peers.StopClears | src/peer/peer.cpp:150-158 | after stopping, the count and the listing are empty; stopping twice is stopping once |

## Left out

- SHA-256 is an uninterpreted function. OpenSSL is a foreign call.
- Clocks, `std::random_device` and `std::mt19937` are parameters. The model
  does not capture their distribution.
- Blocks.Mine: the loop's termination is not modelled. Its precondition asks
  that the finite draw stream contain an accepted draw. The loop itself runs
  until one comes.
- Locks, atomics, threads and the request queue are not modelled. Each weave
  operation is treated as atomic. `AddPeer`'s check-then-connect race is
  therefore not modelled.
- Sockets, the listener and worker loops, `Start` and `SendHttpResponse` are
  plumbing and are left out. So are the daemon drivers.
- The insides of the `/transaction` and `/files` handlers are left out:
  - they parse the fee with `std::stod`, which is floating point;
  - they create directories and write files;
  - they read the clock for the new transaction.
  Rest.ProcessRequest receives their outcome as the `Posted` parameter.
- The file name a `/files` upload stores under comes from `GenerateUUID`. That
  function's output shape is modelled; the file write is not.
- Logging, `PrintChain` and `CBlock::ToString` only format text.
- src/rest_api.cpp (the legacy server) is not part of this model. Its parsing
  is a weaker copy of the modelled one.
- src/utils/config.cpp is the same text as src/cli/config.cpp, so one model
  covers both.
- Opening the config file is left out. A file is `Some(lines)`, and `None` if
  it cannot be opened.
- The wallet's key generation, main.cpp's printing, and the Python
  functional tests are left out. A wallet's `CreateTransaction` is `NewTx`
  with the wallet address as owner.
- Characters: a Dafny `char` stands for one C++ `char`. Payloads become
  bytes through `ByteOf`, which keeps the code modulo 256. Strings with
  characters above 255 have no counterpart in the source. Multi-byte UTF-8
  text is not modelled as such.
- Integers are unbounded. Block heights, timestamps and size sums are not
  wrapped at 64 bits. The model of `std::stoi` does keep the 32-bit range:
  out-of-range values give the default.
- Multipart.ParseMultipartFile: the source skips exactly 10 characters after
  the filename key. The model uses the key's own length. The two agree for
  the only key the source uses, `filename="`, which is 10 characters long.
- Blockweave.MineBlockKeepsLinked: it needs the mined hash to be new.
  SHA-256 collision freedom is not something the model can state, so it is a
  hypothesis of the lemma.
- Blockweave.MinedDataRetrievable: it promises the payload only for the first
  drained transaction with its id, and only when no block mined earlier
  holds that id. When ids repeat, `GetData` returns the payload mined first.
- Blockweave.DemoRun: it assumes the second block's hash is new. If that
  hash overwrote genesis or block 1, a third transaction sharing the first
  one's id could be found first.
- Blockweave.GetData: it requires every history hash to be in the store.
  Otherwise `operator[]` would insert a null block and dereference it.
  `Valid` guarantees the requirement.

## Findings

| source | as written | input that shows it | evidently intended | confidence | as-written member | corrected member |
|---|---|---|---|---|---|---|
| src/rest/rest_api.cpp:470 | the trailing trim of a header value is `erase(find_last_not_of(" \t"))` without `+ 1`, so it also erases the last non-blank character | `POST /files HTTP/1.1\r\nContent-Type: text/plain\r\n\r\n` gives content type `text/plai` | `erase(find_last_not_of(" \t") + 1)`, as for the name at line 468, so the trimmed value is kept whole | high; not executed | Http.TextPlainLosesLastChar | Http.FixedRoundTrip |
| src/rest/rest_api.cpp:469-470 | a blank header value is emptied at line 469. Then `erase(npos)` on the empty string throws `std::out_of_range`, which nothing catches on the listener thread (line 412) | `GET /chain HTTP/1.1\r\nContent-Type: \r\n\r\n` | a blank value is accepted as the empty string | high; not executed | Http.BlankValueThrows | Http.FixedRoundTrip |

=== FILE: base64.dfy ===
/**
  `DecodeBase64` of the REST server: the alphabet of section 4 of RFC 4648,
  decoding only the longest run of alphabet characters at the front of the
  input (it stops at the first '=' or foreign character), four characters
  to three bytes, and a short final group giving one byte fewer than its
  characters. An RFC 4648 encoder is defined alongside as the decoder's
  inverse.
*/
module Base64 {
  import opened Text

  /** `base64_chars`, written as the three literals of its initializer. */
  const Upper: string := "ABCDEFGHIJKLMNOPQRSTUVWXYZ"
  const Lower: string := "abcdefghijklmnopqrstuvwxyz"
  const DigitsAndSigns: string := "0123456789+/"
  const Alphabet: string := Upper + Lower + DigitsAndSigns

  /** A six-bit value: an index into the alphabet. */
  type sextet = x: int | 0 <= x < 64

  /**
    `base64_chars.find('\0')` is `npos`; stored into an `unsigned char` it
    becomes 255. This is what the zero-filled slots of a short final group
    hold when the bytes are assembled.
  */
  const NposByte: byte := 255

  /** `IsBase64`: `isalnum` in the "C" locale, or '+' or '/'. */
  predicate IsBase64(c: char) {
    'A' <= c <= 'Z' || 'a' <= c <= 'z' || '0' <= c <= '9' || c == '+' || c == '/'
  }

  /** The alphabet character of a sextet. */
  function SextetChar(v: sextet): (c: char)
    ensures IsBase64(c)
  {
    if v < 26 then ('A' as int + v) as char
    else if v < 52 then ('a' as int + v - 26) as char
    else if v < 62 then ('0' as int + v - 52) as char
    else if v == 62 then '+'
    else '/'
  }

  /** `base64_chars.find(c)` for an alphabet character. */
  function SextetOf(c: char): (v: sextet)
    requires IsBase64(c)
    ensures SextetChar(v) == c
  {
    if 'A' <= c <= 'Z' then c as int - 'A' as int
    else if 'a' <= c <= 'z' then c as int - 'a' as int + 26
    else if '0' <= c <= '9' then c as int - '0' as int + 52
    else if c == '+' then 62
    else 63
  }

  lemma UpperAt(i: int)
    requires 0 <= i < 26
    ensures Upper[i] as int == 'A' as int + i
  {
  }

  lemma LowerAt(i: int)
    requires 0 <= i < 26
    ensures Lower[i] as int == 'a' as int + i
  {
  }

  lemma DigitsAndSignsAt(i: int)
    requires 0 <= i < 12
    ensures i < 10 ==> DigitsAndSigns[i] as int == '0' as int + i
    ensures DigitsAndSigns[10] == '+' && DigitsAndSigns[11] == '/'
  {
  }

  /** Character and index are inverse, and the literal table agrees with both. */
  lemma AlphabetTable(v: sextet)
    ensures SextetOf(SextetChar(v)) == v
    ensures |Alphabet| == 64 && Alphabet[v] == SextetChar(v)
  {
    if v < 26 {
      UpperAt(v);
      assert Alphabet[v] == Upper[v];
    } else if v < 52 {
      LowerAt(v - 26);
      assert Alphabet[v] == Lower[v - 26];
    } else {
      DigitsAndSignsAt(v - 52);
      assert Alphabet[v] == DigitsAndSigns[v - 52];
    }
  }

  /**
    The number of characters the decoding loop consumes: it runs while the
    next character is not '=' and satisfies `IsBase64`.
  */
  function PrefixLength(s: string): (k: nat)
    ensures k <= |s|
    ensures forall i :: 0 <= i < k ==> IsBase64(s[i])
    ensures k < |s| ==> s[k] == '=' || !IsBase64(s[k])
  {
    if s == [] || s[0] == '=' || !IsBase64(s[0]) then 0 else 1 + PrefixLength(s[1..])
  }

  /** The indices of a run of alphabet characters. */
  function Sextets(s: string): (r: seq<sextet>)
    requires forall i :: 0 <= i < |s| ==> IsBase64(s[i])
    ensures |r| == |s|
    ensures forall i :: 0 <= i < |s| ==> r[i] == SextetOf(s[i])
  {
    seq(|s|, i requires 0 <= i < |s| => SextetOf(s[i]))
  }

  /**
    `char_array_3` from `char_array_4`, with the shifts and masks written
    as arithmetic and the `unsigned char` truncation made explicit.
  */
  function Unpack(a0: byte, a1: byte, a2: byte, a3: byte): (r: seq<byte>)
    ensures |r| == 3
  {
    [(a0 * 4 + (a1 / 16) % 4) % 256,
     ((a1 % 16) * 16 + (a2 / 4) % 16) % 256,
     ((a2 % 4) * 64 + a3) % 256]
  }

  /** Bytes from k sextets: three per full group, one fewer than the rest. */
  function DecodedLength(k: nat): nat {
    3 * (k / 4) + (if k % 4 == 0 then 0 else k % 4 - 1)
  }

  /**
    The bytes of a run of sextets: three per full group of four; a final
    group of n (1 to 3) sextets is filled up with `pad` and gives n - 1 bytes.
  */
  function DecodeSextets(xs: seq<sextet>, pad: byte): (r: seq<byte>)
    ensures |r| == DecodedLength(|xs|)
  {
    if |xs| >= 4 then Unpack(xs[0], xs[1], xs[2], xs[3]) + DecodeSextets(xs[4..], pad)
    else if |xs| == 0 then []
    else
      var q := Unpack(xs[0], if |xs| > 1 then xs[1] else pad, if |xs| > 2 then xs[2] else pad, pad);
      q[..|xs| - 1]
  }

  /** `DecodeBase64`. */
  function Decode(s: string): (r: seq<byte>)
    ensures |r| == DecodedLength(PrefixLength(s))
  {
    var k := PrefixLength(s);
    DecodeSextets(Sextets(s[..k]), NposByte)
  }

  /** The filler of a short final group never reaches an emitted byte. */
  lemma {:induction false} PadIrrelevant(xs: seq<sextet>, p: byte, q: byte)
    ensures DecodeSextets(xs, p) == DecodeSextets(xs, q)
  {
    if |xs| >= 4 {
      PadIrrelevant(xs[4..], p, q);
    }
  }

  /** Characters after the consumed run do not matter. */
  lemma DecodeStopsAtPrefix(s: string, rest: string, t: string)
    requires PrefixLength(s) < |s| && t == s + rest
    ensures Decode(t) == Decode(s)
  {
    SamePrefix(s, rest, t);
    var k := PrefixLength(s);
    assert t[..k] == s[..k];
  }

  /** Appending after the stop character leaves the length of the consumed run as it is. */
  lemma {:induction false} SamePrefix(s: string, rest: string, t: string)
    requires PrefixLength(s) < |s| && t == s + rest
    ensures PrefixLength(t) == PrefixLength(s)
    decreases |s|
  {
    assert t[0] == s[0];
    if s[0] != '=' && IsBase64(s[0]) {
      assert t[1..] == s[1..] + rest;
      SamePrefix(s[1..], rest, t[1..]);
    }
  }

  /** A run of alphabet characters followed by a stop character is consumed exactly. */
  lemma {:induction false} PrefixLengthOfRun(run: string, rest: string, t: string)
    requires forall i :: 0 <= i < |run| ==> IsBase64(run[i])
    requires rest == [] || rest[0] == '=' || !IsBase64(rest[0])
    requires t == run + rest
    ensures PrefixLength(t) == |run|
    decreases |run|
  {
    if run != [] {
      assert t[0] == run[0];
      assert t[1..] == run[1..] + rest;
      PrefixLengthOfRun(run[1..], rest, t[1..]);
    } else {
      assert t == rest;
    }
  }

  // ---------------------------------------------------------------------------
  // The RFC 4648 section 4 encoder
  // ---------------------------------------------------------------------------

  /** Three bytes as four sextets, six bits each, most significant first. */
  function Group(b0: byte, b1: byte, b2: byte): (r: seq<sextet>)
    ensures |r| == 4
  {
    [b0 / 4, (b0 % 4) * 16 + b1 / 16, (b1 % 16) * 4 + b2 / 64, b2 % 64]
  }

  /** Sextets from n bytes: four per full group, one more than the rest. */
  function EncodedLength(n: nat): nat {
    4 * (n / 3) + (if n % 3 == 0 then 0 else n % 3 + 1)
  }

  /**
    The sextets of a byte string, before '=' padding: a final group of one
    or two bytes is filled with zero bits and cut after two or three sextets.
  */
  function EncodeSextets(b: seq<byte>): (r: seq<sextet>)
    ensures |r| == EncodedLength(|b|)
  {
    if |b| >= 3 then Group(b[0], b[1], b[2]) + EncodeSextets(b[3..])
    else if |b| == 2 then Group(b[0], b[1], 0)[..3]
    else if |b| == 1 then Group(b[0], 0, 0)[..2]
    else []
  }

  /** The alphabet characters of a run of sextets. */
  function Chars(xs: seq<sextet>): (r: string)
    ensures |r| == |xs|
    ensures forall i :: 0 <= i < |xs| ==> r[i] == SextetChar(xs[i])
  {
    seq(|xs|, i requires 0 <= i < |xs| => SextetChar(xs[i]))
  }

  /** Padding completes the last group of four. */
  lemma PaddedLength(n: nat)
    ensures EncodedLength(n) + (if n % 3 == 1 then 2 else if n % 3 == 2 then 1 else 0) == 4 * ((n + 2) / 3)
  {
    var q, r := n / 3, n % 3;
    assert n == 3 * q + r;
    if r == 0 {
      assert (n + 2) / 3 == q;
    } else {
      assert (n + 2) / 3 == q + 1;
    }
  }

  /** The padded encoding: a multiple of four characters. */
  function Encode(b: seq<byte>): (r: string)
    ensures |r| % 4 == 0
    ensures |r| == 4 * ((|b| + 2) / 3)
  {
    PaddedLength(|b|);
    Chars(EncodeSextets(b)) + (if |b| % 3 == 1 then "==" else if |b| % 3 == 2 then "=" else "")
  }

  lemma FirstByteRoundTrip(b0: byte, b1: byte)
    ensures (b0 / 4 * 4 + (((b0 % 4) * 16 + b1 / 16) / 16) % 4) % 256 == b0
  {
    assert ((b0 % 4) * 16 + b1 / 16) / 16 == b0 % 4;
  }

  lemma SecondByteRoundTrip(b0: byte, b1: byte, b2: byte)
    ensures ((((b0 % 4) * 16 + b1 / 16) % 16) * 16 + (((b1 % 16) * 4 + b2 / 64) / 4) % 16) % 256 == b1
  {
    assert ((b0 % 4) * 16 + b1 / 16) % 16 == b1 / 16;
    assert ((b1 % 16) * 4 + b2 / 64) / 4 == b1 % 16;
  }

  lemma ThirdByteRoundTrip(b1: byte, b2: byte)
    ensures ((((b1 % 16) * 4 + b2 / 64) % 4) * 64 + b2 % 64) % 256 == b2
  {
    assert ((b1 % 16) * 4 + b2 / 64) % 4 == b2 / 64;
  }

  /** Packing three bytes into four sextets and unpacking them gives the bytes back. */
  lemma GroupRoundTrip(b0: byte, b1: byte, b2: byte)
    ensures var g := Group(b0, b1, b2); Unpack(g[0], g[1], g[2], g[3]) == [b0, b1, b2]
  {
    FirstByteRoundTrip(b0, b1);
    SecondByteRoundTrip(b0, b1, b2);
    ThirdByteRoundTrip(b1, b2);
  }

  /** The first byte depends on the first two sextets only, the second on the first three. */
  lemma UnpackPrefixes(a0: byte, a1: byte, a2: byte, a3: byte, x: byte, y: byte)
    ensures Unpack(a0, a1, a2, a3)[..2] == Unpack(a0, a1, a2, x)[..2]
    ensures Unpack(a0, a1, a2, a3)[..1] == Unpack(a0, a1, x, y)[..1]
  {
  }

  lemma FirstThree(b: seq<byte>)
    requires |b| >= 3
    ensures b == [b[0], b[1], b[2]] + b[3..]
  {
  }

  /** The decoder undoes the encoder on sextets, whatever fills a short group. */
  lemma {:induction false} SextetsRoundTrip(b: seq<byte>, pad: byte)
    ensures DecodeSextets(EncodeSextets(b), pad) == b
  {
    if |b| >= 3 {
      var xs := EncodeSextets(b);
      var g := Group(b[0], b[1], b[2]);
      assert xs[..4] == g && xs[4..] == EncodeSextets(b[3..]);
      assert DecodeSextets(xs, pad) == Unpack(g[0], g[1], g[2], g[3]) + DecodeSextets(xs[4..], pad);
      GroupRoundTrip(b[0], b[1], b[2]);
      SextetsRoundTrip(b[3..], pad);
      FirstThree(b);
    } else if |b| == 2 {
      var g := Group(b[0], b[1], 0);
      GroupRoundTrip(b[0], b[1], 0);
      UnpackPrefixes(g[0], g[1], g[2], g[3], pad, pad);
    } else if |b| == 1 {
      var g := Group(b[0], 0, 0);
      GroupRoundTrip(b[0], 0, 0);
      UnpackPrefixes(g[0], g[1], g[2], g[3], pad, pad);
    }
  }

  /** Decoding the padded encoding of any byte string returns that byte string. */
  lemma RoundTrip(b: seq<byte>)
    ensures Decode(Encode(b)) == b
  {
    var xs := EncodeSextets(b);
    var run := Chars(xs);
    var pad := if |b| % 3 == 1 then "==" else if |b| % 3 == 2 then "=" else "";
    var e := Encode(b);
    assert e == run + pad;
    PrefixLengthOfRun(run, pad, e);
    assert e[..|run|] == run;
    assert Sextets(run) == xs by {
      forall i | 0 <= i < |xs|
        ensures Sextets(run)[i] == xs[i]
      {
        AlphabetTable(xs[i]);
      }
    }
    SextetsRoundTrip(b, NposByte);
  }

  /** The encoding consists of alphabet characters followed by at most two '='. */
  lemma EncodeShape(b: seq<byte>)
    ensures var e := Encode(b);
      var k := |EncodeSextets(b)|;
      && k <= |e| <= k + 2
      && (forall i :: 0 <= i < k ==> IsBase64(e[i]))
      && (forall i :: k <= i < |e| ==> e[i] == '=')
  {
  }
}

=== FILE: block.dfy ===
/**
  `CBlock`: a block references its predecessor and a recall block, carries
  transactions, and is sealed by a toy proof of work.
  The mining loop draws nonces from `std::mt19937` until a candidate hash
  passes the gate; the draws are the parameter `draws`, and the loop is
  modelled by its exit condition: the first accepted draw decides.
*/
module Blocks {
  import opened Wrappers
  import opened Text
  import opened ContentHash
  import opened Transactions

  /** `m_n_difficulty`'s initial value: stored, never consulted by `Mine`. */
  const Difficulty: nat := 1000

  /** Upper end of `uniform_int_distribution<> dis(0, 999999)`. */
  const MaxNonce: nat := 999999

  /** The literal the first four hash characters are compared against. */
  const Threshold: string := "0fff"

  datatype Block = Block(
    hash: Hash,
    previous: Hash,
    recall: Hash,
    height: int,
    timestamp: i64,
    txs: seq<Tx>,
    miner: string,
    difficulty: nat,
    cumulativeSize: nat,
    nonce: string)

  /** Sum of the payload sizes, folded in transaction order. */
  function SumSizes(txs: seq<Tx>): nat {
    if txs == [] then 0 else SumSizes(txs[..|txs| - 1]) + txs[|txs| - 1].dataSize
  }

  /** `m_n_cumulative_data_size` is the size of this block's own transactions. */
  predicate SizeConsistent(b: Block) {
    b.cumulativeSize == SumSizes(b.txs)
  }

  /** The constructor; `now` is the clock reading. */
  function NewBlock(previous: Hash, height: int, miner: string, now: i64): (b: Block)
    ensures b.previous == previous && b.height == height && b.miner == miner && b.timestamp == now
    ensures b.nonce == "0" && b.difficulty == Difficulty
    ensures b.txs == [] && b.cumulativeSize == 0 && SizeConsistent(b)
    ensures b.recall == Zero() && b.hash == Zero()
  {
    Block(Zero(), previous, Zero(), height, now, [], miner, Difficulty, 0, "0")
  }

  /** `AddTransaction`: append and add the payload size. */
  function AddTransaction(b: Block, tx: Tx): (r: Block)
    ensures r.txs == b.txs + [tx] && r.txs[|b.txs|] == tx
    ensures r.cumulativeSize - b.cumulativeSize == tx.dataSize
    ensures r.(txs := b.txs, cumulativeSize := b.cumulativeSize) == b
  {
    b.(txs := b.txs + [tx], cumulativeSize := b.cumulativeSize + tx.dataSize)
  }

  /** Adding a transaction keeps the size field equal to the sum over the included transactions. */
  lemma AddTransactionKeepsSize(b: Block, tx: Tx)
    ensures SizeConsistent(b) ==> SizeConsistent(AddTransaction(b, tx))
  {
    var r := AddTransaction(b, tx);
    assert r.txs[..|r.txs| - 1] == b.txs;
  }

  /** `AddTransaction` applied to each of `txs` in order. */
  function AddAll(b: Block, txs: seq<Tx>): (r: Block)
    ensures r == b.(txs := b.txs + txs, cumulativeSize := b.cumulativeSize + SumSizes(txs))
    ensures SizeConsistent(b) ==> SizeConsistent(r)
  {
    if txs == [] then b
    else
      var prefix := AddAll(b, txs[..|txs| - 1]);
      AddTransactionKeepsSize(prefix, txs[|txs| - 1]);
      assert b.txs + txs == (b.txs + txs[..|txs| - 1]) + [txs[|txs| - 1]];
      AddTransaction(prefix, txs[|txs| - 1])
  }

  /** `SetRecallBlock`: changes the recall field only. */
  function SetRecall(b: Block, recall: Hash): (r: Block)
    ensures r.recall == recall
    ensures r.(recall := b.recall) == b
  {
    b.(recall := recall)
  }

  /** The transaction ids concatenated in transaction order. */
  function Ids(txs: seq<Tx>): string {
    if txs == [] then "" else Ids(txs[..|txs| - 1]) + txs[|txs| - 1].id.data
  }

  /** The string `Mine` hashes before appending a nonce. */
  function Preimage(b: Block): string {
    b.previous.data + b.recall.data + Decimal(b.height) + Decimal(b.timestamp) + Ids(b.txs)
  }

  /** The proof-of-work gate: `hash.substr(0, 4) < "0fff"` as strings. */
  predicate Accepts(h: Hash) {
    LexLess(h.data[..if |h.data| < 4 then |h.data| else 4], Threshold)
  }

  /**
    On well-formed hashes the string comparison is the same as: the first
    character is '0' and the next three are not all 'f'.
  */
  lemma AcceptsHexForm(h: Hash)
    requires IsHashString(h.data)
    ensures Accepts(h) <==> h.data[0] == '0' && h.data[1..4] != "fff"
  {
    var p := h.data[..4];
    var t := Threshold;
    assert h.data[..if |h.data| < 4 then |h.data| else 4] == p;
    assert IsHexDigit(p[0]) && IsHexDigit(p[1]) && IsHexDigit(p[2]) && IsHexDigit(p[3]);
    assert h.data[1..4] == p[1..];
    assert t[1..] == "fff" && t[1..][1..] == "ff" && t[1..][1..][1..] == "f";
    if p[0] != '0' {
      assert !LexLess(p, t);
    } else if p[1] != 'f' {
      assert p[1..][0] != t[1..][0];
      assert LexLess(p, t);
    } else if p[2] != 'f' {
      assert p[1..][1..][0] != t[1..][1..][0];
      assert LexLess(p, t);
    } else if p[3] != 'f' {
      assert p[1..][1..][1..][0] != t[1..][1..][1..][0];
      assert LexLess(p[1..][1..][1..], t[1..][1..][1..]);
      assert LexLess(p[1..][1..], t[1..][1..]);
      assert LexLess(p, t);
    } else {
      assert p[1..] == "fff";
      assert p[1..][1..][1..][1..] == [] && t[1..][1..][1..][1..] == [];
      assert !LexLess(p[1..][1..][1..], t[1..][1..][1..]);
      assert !LexLess(p[1..][1..], t[1..][1..]);
      assert !LexLess(p, t);
    }
  }

  /** The hash of the preimage followed by the decimal nonce. */
  function Candidate(pre: string, sha: Sha256, n: int): Hash {
    Of(sha, pre + Decimal(n))
  }

  /** Every draw lies in the distribution's range. */
  predicate ValidDraws(draws: seq<int>) {
    forall i :: 0 <= i < |draws| ==> 0 <= draws[i] <= MaxNonce
  }

  /** Index of the first `true` at or after `from`. */
  function FirstTrue(oks: seq<bool>, from: nat): (r: Option<nat>)
    ensures r.Some? ==> from <= r.value < |oks| && oks[r.value]
    ensures r.Some? ==> forall j :: from <= j < r.value ==> !oks[j]
    ensures r.None? ==> forall j :: from <= j < |oks| ==> !oks[j]
    decreases |oks| - from
  {
    if from >= |oks| then None
    else if oks[from] then Some(from)
    else FirstTrue(oks, from + 1)
  }

  /** Whether the gate accepts the candidate of each draw. */
  function Verdicts(pre: string, sha: Sha256, draws: seq<int>): (v: seq<bool>)
    ensures |v| == |draws|
    ensures forall i :: 0 <= i < |draws| ==> v[i] == Accepts(Candidate(pre, sha, draws[i]))
  {
    seq(|draws|, i requires 0 <= i < |draws| => Accepts(Candidate(pre, sha, draws[i])))
  }

  /** Index of the first draw whose candidate passes the gate. */
  function FirstAccepted(pre: string, sha: Sha256, draws: seq<int>): (r: Option<nat>)
    ensures r.Some? ==> r.value < |draws| && Accepts(Candidate(pre, sha, draws[r.value]))
    ensures r.Some? ==> forall j :: 0 <= j < r.value ==> !Accepts(Candidate(pre, sha, draws[j]))
    ensures r.None? ==> forall j :: 0 <= j < |draws| ==> !Accepts(Candidate(pre, sha, draws[j]))
  {
    FirstTrue(Verdicts(pre, sha, draws), 0)
  }

  /** The mining loop leaves within these draws. */
  predicate Finishes(b: Block, sha: Sha256, draws: seq<int>) {
    FirstAccepted(Preimage(b), sha, draws).Some?
  }

  /**
    `Mine`: sets the hash and the nonce from the first accepted draw and
    touches nothing else; in particular the difficulty is never read.
  */
  function Mine(b: Block, sha: Sha256, draws: seq<int>): (r: Block)
    requires ValidDraws(draws) && Finishes(b, sha, draws)
    ensures r == b.(hash := r.hash, nonce := r.nonce)
    ensures Accepts(r.hash) && IsHashString(r.hash.data)
    ensures r.hash.data[0] == '0' && r.hash.data[1..4] != "fff"
    ensures r.hash == Of(sha, Preimage(b) + r.nonce)
    ensures exists k ::
      && 0 <= k < |draws|
      && r.nonce == Decimal(draws[k])
      && (forall j :: 0 <= j < k ==> !Accepts(Candidate(Preimage(b), sha, draws[j])))
    ensures exists n :: 0 <= n <= MaxNonce && r.nonce == Decimal(n)
  {
    var k := FirstAccepted(Preimage(b), sha, draws).value;
    var h := Candidate(Preimage(b), sha, draws[k]);
    AcceptsHexForm(h);
    b.(hash := h, nonce := Decimal(draws[k]))
  }

  /** Mining does not look at the difficulty field. */
  lemma MineIgnoresDifficulty(b: Block, sha: Sha256, draws: seq<int>, d: nat)
    requires ValidDraws(draws) && Finishes(b, sha, draws)
    ensures Finishes(b.(difficulty := d), sha, draws)
    ensures Mine(b.(difficulty := d), sha, draws) == Mine(b, sha, draws).(difficulty := d)
  {
    assert Preimage(b.(difficulty := d)) == Preimage(b);
  }

  /** The preimage is fixed by previous, recall, height, time and the ordered ids. */
  lemma {:induction false} PreimageDeterminedByContent(a: Block, b: Block)
    requires a.previous == b.previous && a.recall == b.recall && a.height == b.height
    requires a.timestamp == b.timestamp
    requires |a.txs| == |b.txs| && forall i :: 0 <= i < |a.txs| ==> a.txs[i].id == b.txs[i].id
    ensures Preimage(a) == Preimage(b)
  {
    IdsDeterminedByIds(a.txs, b.txs);
  }

  lemma {:induction false} IdsDeterminedByIds(x: seq<Tx>, y: seq<Tx>)
    requires |x| == |y| && forall i :: 0 <= i < |x| ==> x[i].id == y[i].id
    ensures Ids(x) == Ids(y)
  {
    if x != [] {
      IdsDeterminedByIds(x[..|x| - 1], y[..|y| - 1]);
    }
  }
}

=== FILE: config.dfy ===
/**
  `CConfig`: a string-to-string map loaded from `key=value` lines over a
  fixed set of defaults, with typed getters. Opening the file is I/O: the
  file is the parameter `file`, `None` when it cannot be opened and
  otherwise the lines `std::getline` yields.
*/
module Config {
  import opened Wrappers
  import opened Text

  /** `REST_API_PORT`. */
  const RestApiPort: int := 28443
  /** `P2P_PORT`. */
  const P2PPort: int := 28333
  /** `LOG_DIR`. */
  const LogDir: string := "./log"
  /** `LOG_LEVEL`. */
  const LogLevel: string := "INFO"

  /** Characters trimmed from both ends of a whole line. */
  const LineBlanks: string := " \t\r\n"
  /** Characters trimmed from both ends of a key and of a value. */
  const FieldBlanks: string := " \t"

  const Int32Min: int := -0x8000_0000
  const Int32Max: int := 0x7fff_ffff

  type int32 = x: int | Int32Min <= x <= Int32Max

  type Values = map<string, string>

  /** `LoadDefaults`: the seven keys and their values. */
  function Defaults(): Values {
    map[
      "miner_address" := "",
      "rest_api_port" := Decimal(RestApiPort),
      "p2p_port" := Decimal(P2PPort),
      "data_dir" := "./data",
      "log_dir" := LogDir,
      "log_level" := LogLevel,
      "daemon" := "false"]
  }

  /** What one line of the file does. */
  datatype LineEffect =
    | Blank                          // nothing but blanks
    | Comment                        // first non-blank character is '#'
    | Invalid                        // no '=': logged and skipped
    | Assign(key: string, value: string)

  predicate AllIn(s: string, chars: string) {
    forall k :: 0 <= k < |s| ==> s[k] in chars
  }

  /** The per-line logic of `ParseConfigFile`. */
  function ParseLine(line: string): (e: LineEffect)
    ensures e.Blank? <==> AllIn(line, LineBlanks)
    ensures e.Assign? ==> '=' in line && '=' !in e.key
    ensures e.Assign? ==> e.key == [] || (e.key[0] !in FieldBlanks && e.key[|e.key| - 1] !in FieldBlanks)
    ensures e.Assign? ==> e.value == [] || (e.value[0] !in FieldBlanks && e.value[|e.value| - 1] !in FieldBlanks)
    ensures e.Invalid? ==> '=' !in line
    ensures var t := Trim(line, LineBlanks); e.Comment? <==> t != [] && t[0] == '#'
    ensures var t := Trim(line, LineBlanks); e.Invalid? <==> t != [] && t[0] != '#' && '=' !in line
  {
    TrimEmptyIff(line, LineBlanks);
    TrimKeepsOthers(line, LineBlanks, '=');
    Classify(Trim(line, LineBlanks))
  }

  /** What a line does once its blanks are trimmed. */
  function Classify(t: string): (e: LineEffect)
    ensures e.Blank? <==> t == []
    ensures e.Comment? <==> t != [] && t[0] == '#'
    ensures e.Assign? ==> '=' in t && '=' !in e.key
    ensures e.Assign? ==> e.key == [] || (e.key[0] !in FieldBlanks && e.key[|e.key| - 1] !in FieldBlanks)
    ensures e.Assign? ==> e.value == [] || (e.value[0] !in FieldBlanks && e.value[|e.value| - 1] !in FieldBlanks)
    ensures e.Invalid? <==> t != [] && t[0] != '#' && '=' !in t
  {
    FindCharIs(t, '=', 0);
    if t == [] then Blank
    else if t[0] == '#' then Comment
    else match Find(t, "=", 0)
      case None => Invalid
      case Some(p) =>
        SplitAtFirst(t, '=', p);
        Assign(Trim(t[..p], FieldBlanks), Trim(t[p + 1..], FieldBlanks))
  }

  /** Splitting at the first occurrence of `c` leaves no `c` in the part before it, nor after trimming. */
  lemma SplitAtFirst(t: string, c: char, p: nat)
    requires p < |t| && t[p] == c && c !in FieldBlanks
    requires forall k :: 0 <= k < p ==> t[k] != c
    ensures c !in Trim(t[..p], FieldBlanks)
  {
    TrimKeepsOthers(t[..p], FieldBlanks, c);
  }

  /** The effect of each line, in file order. */
  function Effects(lines: seq<string>): (r: seq<LineEffect>)
    ensures |r| == |lines|
    ensures forall i :: 0 <= i < |lines| ==> r[i] == ParseLine(lines[i])
  {
    seq(|lines|, i requires 0 <= i < |lines| => ParseLine(lines[i]))
  }

  /** `m_config_values[str_key] = str_value` for an assignment; other effects change nothing. */
  function Store(m: Values, e: LineEffect): (r: Values)
    ensures e.Assign? ==> r == m[e.key := e.value]
    ensures !e.Assign? ==> r == m
  {
    match e
    case Assign(k, v) => m[k := v]
    case _ => m
  }

  /** The effect sets this key. */
  predicate Sets(e: LineEffect, key: string) {
    e.Assign? && e.key == key
  }

  /** The effects applied in order. */
  function ApplyEffects(m: Values, es: seq<LineEffect>): Values {
    if es == [] then m else Store(ApplyEffects(m, es[..|es| - 1]), es[|es| - 1])
  }

  /** The body of `ParseConfigFile`'s loop over all lines. */
  function Apply(m: Values, lines: seq<string>): Values {
    ApplyEffects(m, Effects(lines))
  }

  /** Last write wins: a key ends with the value of the last effect that sets it. */
  lemma {:induction false} EffectsLastWriteWins(m: Values, es: seq<LineEffect>, key: string, i: nat)
    requires i < |es| && Sets(es[i], key)
    requires forall j :: i < j < |es| ==> !Sets(es[j], key)
    ensures key in ApplyEffects(m, es) && ApplyEffects(m, es)[key] == es[i].value
  {
    var init := es[..|es| - 1];
    if i < |es| - 1 {
      assert init[i] == es[i];
      assert forall j :: i < j < |init| ==> init[j] == es[j];
      EffectsLastWriteWins(m, init, key, i);
    }
  }

  /** A key no effect sets keeps whatever it had, or stays absent. */
  lemma {:induction false} EffectsLeaveOthers(m: Values, es: seq<LineEffect>, key: string)
    requires forall j :: 0 <= j < |es| ==> !Sets(es[j], key)
    ensures key in ApplyEffects(m, es) <==> key in m
    ensures key in m ==> ApplyEffects(m, es)[key] == m[key]
  {
    if es != [] {
      var init := es[..|es| - 1];
      assert forall j :: 0 <= j < |init| ==> init[j] == es[j];
      EffectsLeaveOthers(m, init, key);
    }
  }

  /** The line assigns to this key. */
  predicate AssignsTo(line: string, key: string) {
    Sets(ParseLine(line), key)
  }

  /**
    Last write wins over the lines of a file: a key some line assigns ends
    with the value of the last such line.
  */
  lemma ApplyLastWriteWins(m: Values, lines: seq<string>, key: string, i: nat)
    requires i < |lines| && AssignsTo(lines[i], key)
    requires forall j :: i < j < |lines| ==> !AssignsTo(lines[j], key)
    ensures key in Apply(m, lines) && Apply(m, lines)[key] == ParseLine(lines[i]).value
  {
    EffectsLastWriteWins(m, Effects(lines), key, i);
  }

  /** A key no line assigns keeps whatever it had, or stays absent. */
  lemma ApplyLeavesOthers(m: Values, lines: seq<string>, key: string)
    requires forall j :: 0 <= j < |lines| ==> !AssignsTo(lines[j], key)
    ensures key in Apply(m, lines) <==> key in m
    ensures key in m ==> Apply(m, lines)[key] == m[key]
  {
    EffectsLeaveOthers(m, Effects(lines), key);
  }

  /** Applying effects only adds keys. */
  lemma {:induction false} EffectsKeepKeys(m: Values, es: seq<LineEffect>)
    ensures m.Keys <= ApplyEffects(m, es).Keys
  {
    if es != [] {
      EffectsKeepKeys(m, es[..|es| - 1]);
    }
  }

  /** `ParseConfigFile`: false and nothing changed when the file cannot be opened. */
  function ParseConfigFile(m: Values, file: Option<seq<string>>): (r: (bool, Values))
    ensures file.None? ==> r == (false, m)
    ensures file.Some? ==> r.0 && m.Keys <= r.1.Keys
  {
    match file
    case None => (false, m)
    case Some(lines) =>
      EffectsKeepKeys(m, Effects(lines));
      (true, Apply(m, lines))
  }

  /** `CConfig(path)`: defaults, then the file if it opens. */
  function NewConfig(file: Option<seq<string>>): (r: Values)
    ensures Defaults().Keys <= r.Keys
    ensures file.None? ==> r == Defaults()
  {
    ParseConfigFile(Defaults(), file).1
  }

  /** `GetValue`. */
  function GetValue(m: Values, key: string, default: string): (r: string)
    ensures key in m ==> r == m[key]
    ensures key !in m ==> r == default
  {
    if key in m then m[key] else default
  }

  /** `SetValue`. */
  function SetValue(m: Values, key: string, value: string): (r: Values)
    ensures forall d :: GetValue(r, key, d) == value
    ensures forall k, d :: k != key ==> GetValue(r, k, d) == GetValue(m, k, d)
  {
    m[key := value]
  }

  /** Number of leading characters of `s` that satisfy `IsSpace`. */
  function SpaceRun(s: string): (n: nat)
    ensures n <= |s|
    ensures forall k :: 0 <= k < n ==> IsSpace(s[k])
    ensures n == |s| || !IsSpace(s[n])
  {
    if s == [] || !IsSpace(s[0]) then 0 else 1 + SpaceRun(s[1..])
  }

  /** Number of leading decimal digits of `s`. */
  function DigitRun(s: string): (n: nat)
    ensures n <= |s|
    ensures forall k :: 0 <= k < n ==> IsDigit(s[k])
    ensures n == |s| || !IsDigit(s[n])
  {
    if s == [] || !IsDigit(s[0]) then 0 else 1 + DigitRun(s[1..])
  }

  lemma {:induction false} SpaceRunOf(t: string, pre: string, rest: string)
    requires forall k :: 0 <= k < |pre| ==> IsSpace(pre[k])
    requires rest == [] || !IsSpace(rest[0])
    requires t == pre + rest
    ensures SpaceRun(t) == |pre|
    decreases |pre|
  {
    if pre != [] {
      assert t[0] == pre[0];
      assert t[1..] == pre[1..] + rest;
      SpaceRunOf(t[1..], pre[1..], rest);
    } else {
      assert t == rest;
    }
  }

  lemma {:induction false} DigitRunOf(t: string, digits: string, rest: string)
    requires forall k :: 0 <= k < |digits| ==> IsDigit(digits[k])
    requires rest == [] || !IsDigit(rest[0])
    requires t == digits + rest
    ensures DigitRun(t) == |digits|
    decreases |digits|
  {
    if digits != [] {
      assert t[0] == digits[0];
      assert t[1..] == digits[1..] + rest;
      DigitRunOf(t[1..], digits[1..], rest);
    } else {
      assert t == rest;
    }
  }

  /**
    `std::stoi`: skip leading white space, take an optional sign and the
    longest run of digits, ignore the rest; no digit is `invalid_argument`
    and a value outside `int` is `out_of_range` (both `None`).
  */
  function Stoi(s: string): (r: Option<int32>)
    ensures (forall k :: 0 <= k < |s| ==> !IsDigit(s[k])) ==> r.None?
  {
    var body := s[SpaceRun(s)..];
    var signed := |body| > 0 && (body[0] == '+' || body[0] == '-');
    var digits := if signed then body[1..] else body;
    var d := DigitRun(digits);
    if d == 0 then None
    else
      assert digits[0] == s[|s| - |digits|];
      var magnitude: int := DigitsValue(digits[..d]);
      var n := if signed && body[0] == '-' then -magnitude else magnitude;
      if Int32Min <= n <= Int32Max then Some(n) else None
  }

  /** Round trip: `stoi` reads back what `to_string` wrote, after any blanks and before any non-digit. */
  lemma StoiReadsDecimal(pre: string, n: int32, suffix: string)
    requires forall k :: 0 <= k < |pre| ==> IsSpace(pre[k])
    requires suffix == [] || !IsDigit(suffix[0])
    ensures Stoi(pre + Decimal(n) + suffix) == Some(n)
  {
    var s := pre + Decimal(n) + suffix;
    var magnitude: nat := if n < 0 then -(n as int) else n;
    var digs := NatDecimal(magnitude);
    DecimalAfterBlanks(s, pre, n, suffix);
    DigitsBeforeSuffix(digs + suffix, magnitude, suffix);
    StoiOf(s, |pre|, n < 0, digs + suffix, |digs|, magnitude);
  }

  /** A rendered number and what follows it: an optional '-' and then the digits. */
  lemma SignAndDigits(n: int, suffix: string)
    ensures Decimal(n) + suffix
      == (if n < 0 then "-" + (NatDecimal(-n) + suffix) else NatDecimal(n) + suffix)
  {
    if n < 0 {
      assert "-" + NatDecimal(-n) + suffix == "-" + (NatDecimal(-n) + suffix);
    }
  }

  /** Where the sign and the digits of a rendered number sit after leading blanks. */
  lemma DecimalAfterBlanks(s: string, pre: string, n: int, suffix: string)
    requires forall k :: 0 <= k < |pre| ==> IsSpace(pre[k])
    requires s == pre + Decimal(n) + suffix
    ensures SpaceRun(s) == |pre|
    ensures s[|pre|..] == (if n < 0 then "-" + (NatDecimal(-n) + suffix) else NatDecimal(n) + suffix)
  {
    var rest := Decimal(n) + suffix;
    assert s == pre + rest;
    assert rest[0] == Decimal(n)[0];
    SpaceRunOf(s, pre, rest);
    assert s[|pre|..] == rest;
    SignAndDigits(n, suffix);
  }

  /** The digit run of a rendered number followed by a non-digit reads back as the number. */
  lemma DigitsBeforeSuffix(t: string, magnitude: nat, suffix: string)
    requires suffix == [] || !IsDigit(suffix[0])
    requires t == NatDecimal(magnitude) + suffix
    ensures DigitRun(t) == |NatDecimal(magnitude)|
    ensures DigitsValue(t[..|NatDecimal(magnitude)|]) == magnitude
  {
    var digs := NatDecimal(magnitude);
    DigitRunOf(t, digs, suffix);
    assert t[..|digs|] == digs;
    NatDecimalRoundTrip(magnitude);
  }

  /** `Stoi` spelled out once its white space, sign and digit run are known. */
  lemma StoiOf(s: string, spaces: nat, negative: bool, digits: string, d: nat, magnitude: nat)
    requires spaces == SpaceRun(s)
    requires negative ==> s[spaces..] == "-" + digits
    requires !negative ==> s[spaces..] == digits && (digits == [] || digits[0] != '+')
    requires 0 < d == DigitRun(digits) && magnitude == DigitsValue(digits[..d])
    requires Int32Min <= (if negative then -(magnitude as int) else magnitude) <= Int32Max
    ensures Stoi(s) == Some(if negative then -(magnitude as int) else magnitude)
  {
    if negative {
      assert s[spaces..][1..] == digits;
    }
  }

  /** `GetIntValue`: the parsed value, or the default for an absent, empty or unparsable value. */
  function GetIntValue(m: Values, key: string, default: int32): (r: int32)
    ensures key !in m || m[key] == [] ==> r == default
    ensures key in m && m[key] != [] && Stoi(m[key]).Some? ==> r == Stoi(m[key]).value
    ensures key in m && Stoi(m[key]).None? ==> r == default
  {
    var v := GetValue(m, key, "");
    if v == [] then default
    else match Stoi(v)
      case None => default
      case Some(n) => n
  }

  /** `GetBoolValue`: the default for an absent or empty value, else "true", "1" or "yes" in any case. */
  function GetBoolValue(m: Values, key: string, default: bool): (r: bool)
    ensures key !in m || m[key] == [] ==> r == default
    ensures key in m && m[key] != [] ==>
      (r <==> LowerString(m[key]) == "true" || LowerString(m[key]) == "1" || LowerString(m[key]) == "yes")
  {
    var v := GetValue(m, key, "");
    if v == [] then default
    else
      var l := LowerString(v);
      l == "true" || l == "1" || l == "yes"
  }

  /** Lowercasing twice is lowercasing once. */
  lemma LowerStringIdempotent(s: string)
    ensures LowerString(LowerString(s)) == LowerString(s)
  {
  }

  /** `GetBoolValue` ignores letter case: a value and its lowercase form read the same. */
  lemma GetBoolIgnoresCase(m: Values, key: string, v: string, default: bool)
    ensures GetBoolValue(m[key := v], key, default) == GetBoolValue(m[key := LowerString(v)], key, default)
  {
    LowerStringIdempotent(v);
  }

  /** The defaults are exactly these seven keys. */
  lemma DefaultsKeys()
    ensures Defaults().Keys == {"miner_address", "rest_api_port", "p2p_port", "data_dir", "log_dir", "log_level", "daemon"}
  {
  }

  /** A stored `to_string` rendering reads back through `GetIntValue` as its number. */
  lemma GetIntValueOfDecimal(m: Values, key: string, n: int32, d: int32)
    requires key in m && m[key] == Decimal(n)
    ensures GetIntValue(m, key, d) == n
  {
    StoiReadsDecimal([], n, []);
    assert [] + Decimal(n) + [] == Decimal(n);
  }

  /** The port defaults read back through `GetIntValue` as the settings they came from. */
  lemma DefaultPortsRead(d: int32)
    ensures GetIntValue(Defaults(), "rest_api_port", d) == RestApiPort
    ensures GetIntValue(Defaults(), "p2p_port", d) == P2PPort
  {
    GetIntValueOfDecimal(Defaults(), "rest_api_port", RestApiPort, d);
    GetIntValueOfDecimal(Defaults(), "p2p_port", P2PPort, d);
  }

  /** The other defaults as the getters read them; daemon mode is off. */
  lemma DefaultStringsRead(b: bool, s: string)
    ensures GetValue(Defaults(), "data_dir", s) == "./data"
    ensures GetValue(Defaults(), "log_dir", s) == LogDir
    ensures GetValue(Defaults(), "log_level", s) == LogLevel
    ensures GetValue(Defaults(), "miner_address", s) == ""
    ensures !GetBoolValue(Defaults(), "daemon", b)
  {
    assert LowerString("false") == "false";
  }

  /** A well-formed `key=value` line, with any blanks around it and around `=`, parses back to that pair. */
  lemma ParseLineRoundTrip(line: string, key: string, value: string, a: string, b: string, c: string, d: string)
    requires key != [] && key[0] != '#' && key[0] !in LineBlanks && key[|key| - 1] !in FieldBlanks
    requires '=' !in key
    requires value == [] || (value[0] !in FieldBlanks && value[|value| - 1] !in LineBlanks)
    requires AllIn(a, LineBlanks) && AllIn(b, FieldBlanks) && AllIn(c, FieldBlanks) && AllIn(d, LineBlanks)
    requires value != [] || c == []
    requires line == a + key + b + "=" + c + value + d
    ensures ParseLine(line) == Assign(key, value)
  {
    var left := key + b;
    var right := c + value;
    LineCoreTrimmed(line, key, value, a, b, c, d, left, right);
    LeftPart(key, b, left);
    ParseLineOfSplit(line, left, right);
    FieldsTrimmed(key, value, b, c, left, right);
  }

  /** Trimming the two sides of '=' leaves the key and the value. */
  lemma FieldsTrimmed(key: string, value: string, b: string, c: string, left: string, right: string)
    requires key != [] && key[0] !in LineBlanks && key[|key| - 1] !in FieldBlanks
    requires value == [] || (value[0] !in FieldBlanks && value[|value| - 1] !in LineBlanks)
    requires AllIn(b, FieldBlanks) && AllIn(c, FieldBlanks)
    requires left == key + b && right == c + value
    ensures Trim(left, FieldBlanks) == key && Trim(right, FieldBlanks) == value
  {
    assert key[0] !in FieldBlanks;
    assert value != [] ==> value[|value| - 1] !in FieldBlanks;
    assert left == [] + key + b by {
      assert [] + key == key;
    }
    assert right == c + value + [];
    TrimBoth(left, [], key, b, FieldBlanks);
    TrimBoth(right, c, value, [], FieldBlanks);
  }

  /** The key and its trailing blanks hold no '=' and do not open a comment. */
  lemma LeftPart(key: string, b: string, left: string)
    requires key != [] && key[0] != '#' && '=' !in key && AllIn(b, FieldBlanks)
    requires left == key + b
    ensures '=' !in left && (left == [] || left[0] != '#')
  {
    assert left[0] == key[0];
    assert forall k :: |key| <= k < |left| ==> left[k] == b[k - |key|];
  }

  /** The whole-line trim of a well-formed line leaves `key`, blanks, '=', blanks and `value`. */
  lemma LineCoreTrimmed(line: string, key: string, value: string, a: string, b: string, c: string, d: string,
                        left: string, right: string)
    requires key != [] && key[0] != '#' && key[0] !in LineBlanks
    requires value == [] || value[|value| - 1] !in LineBlanks
    requires value != [] || c == []
    requires AllIn(a, LineBlanks) && AllIn(d, LineBlanks)
    requires line == a + key + b + "=" + c + value + d && left == key + b && right == c + value
    ensures Trim(line, LineBlanks) == left + "=" + right
  {
    var core := left + "=" + right;
    assert core[|core| - 1] !in LineBlanks by {
      if value == [] {
        assert core == key + b + "=";
      } else {
        assert core[|core| - 1] == value[|value| - 1];
      }
    }
    assert core[0] == key[0];
    assert line == a + core + d;
    TrimBoth(line, a, core, d, LineBlanks);
  }

  /** A line whose trimmed form is `left`, '=', `right` with no '=' in `left` and no leading '#' assigns. */
  lemma ParseLineOfSplit(line: string, left: string, right: string)
    requires Trim(line, LineBlanks) == left + "=" + right
    requires '=' !in left && (left == [] || left[0] != '#')
    ensures ParseLine(line) == Assign(Trim(left, FieldBlanks), Trim(right, FieldBlanks))
  {
    ClassifyOfSplit(left + "=" + right, left, right);
  }

  lemma ClassifyOfSplit(t: string, left: string, right: string)
    requires t == left + "=" + right
    requires '=' !in left && (left == [] || left[0] != '#')
    ensures Classify(t) == Assign(Trim(left, FieldBlanks), Trim(right, FieldBlanks))
  {
    var p := |left|;
    assert t[p] == '=';
    assert forall k :: 0 <= k < p ==> t[k] == left[k];
    FindCharAt(t, '=', 0, p);
    assert t[..p] == left;
    assert t[p + 1..] == right;
    assert t[0] != '#';
  }

  /** Blanks of `chars` around a core that starts and ends with other characters are trimmed away exactly. */
  lemma TrimBoth(s: string, pre: string, core: string, post: string, chars: string)
    requires AllIn(pre, chars) && AllIn(post, chars)
    requires core == [] || (core[0] !in chars && core[|core| - 1] !in chars)
    requires s == pre + core + post
    ensures Trim(s, chars) == core
  {
    assert s == pre + (core + post);
    if core == [] {
      assert core + post == post;
      TrimLeftOf(pre + post, [], chars);
      assert pre + post + [] == pre + post;
    } else {
      assert (core + post)[0] == core[0];
      TrimLeftOf(pre, core + post, chars);
      TrimRightOf(core, post, chars);
    }
  }

}

=== FILE: hash.dfy ===
/**
  `CHash`: a content hash is the lowercase hexadecimal rendering of a
  32-byte SHA-256 digest, compared as a plain string.
  SHA-256 itself (OpenSSL's `SHA256`) is not part of this model: it is an
  arbitrary function from strings to 32-byte digests, passed to every
  operation that hashes.
*/
module ContentHash {
  import opened Text

  /** `SHA256_DIGEST_LENGTH`. */
  const DigestLength: nat := 32

  /** Number of characters in an encoded hash: two per digest byte. */
  const HashLength: nat := 64

  type Digest = d: seq<byte> | |d| == 32 witness seq(32, _ => 0)

  /** SHA-256, left uninterpreted. */
  type Sha256 = string -> Digest

  /** `CHash`, whose only field is the string `m_str_data`. */
  datatype Hash = Hash(data: string)

  /** A lowercase hexadecimal digit, the only kind `std::hex` emits. */
  predicate IsHexDigit(c: char) {
    '0' <= c <= '9' || 'a' <= c <= 'f'
  }

  /** A well-formed encoding: 64 lowercase hexadecimal digits. */
  predicate IsHashString(s: string) {
    |s| == HashLength && forall i :: 0 <= i < |s| ==> IsHexDigit(s[i])
  }

  /** `CHash()`: the zero value, 64 '0' characters. */
  function Zero(): (h: Hash)
    ensures IsHashString(h.data)
    ensures forall i :: 0 <= i < |h.data| ==> h.data[i] == '0'
  {
    Hash(seq(HashLength, _ => '0'))
  }

  function HexDigit(n: int): (c: char)
    requires 0 <= n < 16
    ensures IsHexDigit(c)
  {
    if n < 10 then ('0' as int + n) as char else ('a' as int + n - 10) as char
  }

  function HexValue(c: char): (n: int)
    requires IsHexDigit(c)
    ensures 0 <= n < 16
    ensures HexDigit(n) == c
  {
    if c <= '9' then c as int - '0' as int else c as int - 'a' as int + 10
  }

  /**
    The `std::hex << std::setw(2) << std::setfill('0')` loop: two characters
    per byte, high nibble first, zero-padded.
  */
  function Hex(d: seq<byte>): (r: string)
    ensures |r| == 2 * |d|
    ensures forall i :: 0 <= i < |r| ==> IsHexDigit(r[i])
    ensures forall i :: 0 <= i < |d| ==> r[2 * i] == HexDigit(d[i] / 16) && r[2 * i + 1] == HexDigit(d[i] % 16)
  {
    if d == [] then []
    else
      var rest := Hex(d[1..]);
      var r := [HexDigit(d[0] / 16), HexDigit(d[0] % 16)] + rest;
      assert forall i :: 1 <= i < |d| ==> r[2 * i] == HexDigit(d[i] / 16) && r[2 * i + 1] == HexDigit(d[i] % 16) by {
        forall i | 1 <= i < |d|
          ensures r[2 * i] == HexDigit(d[i] / 16) && r[2 * i + 1] == HexDigit(d[i] % 16)
        {
          var j := i - 1;
          assert d[1..][j] == d[i];
          assert r[2 * i] == rest[2 * j];
          assert r[2 * i + 1] == rest[2 * j + 1];
        }
      }
      r
  }

  /** Reads a hexadecimal string back two characters at a time. */
  function UnHex(s: string): (d: seq<byte>)
    requires |s| % 2 == 0
    requires forall i :: 0 <= i < |s| ==> IsHexDigit(s[i])
    ensures |d| * 2 == |s|
  {
    seq(|s| / 2, i requires 0 <= i < |s| / 2 => HexValue(s[2 * i]) * 16 + HexValue(s[2 * i + 1]))
  }

  lemma HexValueOfDigit(n: int)
    requires 0 <= n < 16
    ensures HexValue(HexDigit(n)) == n
  {
  }

  /** The two digits of a byte read back as that byte. */
  lemma NibblesRoundTrip(x: byte, hi: char, lo: char)
    requires hi == HexDigit(x / 16) && lo == HexDigit(x % 16)
    ensures HexValue(hi) * 16 + HexValue(lo) == x
  {
    HexValueOfDigit(x / 16);
    HexValueOfDigit(x % 16);
  }

  /** Hex encoding loses nothing: decoding the characters pairwise recovers the digest. */
  lemma HexRoundTrip(d: seq<byte>)
    ensures UnHex(Hex(d)) == d
  {
    var h := Hex(d);
    var e := UnHex(h);
    assert |h| / 2 == |d|;
    forall i | 0 <= i < |d|
      ensures e[i] == d[i]
    {
      assert e[i] == HexValue(h[2 * i]) * 16 + HexValue(h[2 * i + 1]);
      NibblesRoundTrip(d[i], h[2 * i], h[2 * i + 1]);
    }
  }

  /** Hex encoding is injective. */
  lemma HexInjective(a: seq<byte>, b: seq<byte>)
    requires Hex(a) == Hex(b)
    ensures a == b
  {
    HexRoundTrip(a);
    HexRoundTrip(b);
  }

  /** The zero hash is the encoding of the all-zero digest. */
  lemma ZeroIsHexOfZeroDigest()
    ensures Zero().data == Hex(seq(DigestLength, _ => 0))
  {
    var z: seq<byte> := seq(DigestLength, _ => 0);
    var h := Hex(z);
    forall k | 0 <= k < HashLength
      ensures h[k] == '0'
    {
      var i := k / 2;
      assert z[i] == 0;
      assert HexDigit(0) == '0';
      if k == 2 * i {
        assert h[2 * i] == HexDigit(z[i] / 16);
      } else {
        assert h[2 * i + 1] == HexDigit(z[i] % 16);
      }
    }
  }

  /** `CHash(input)`: the hex encoding of SHA-256 of the input. */
  function Of(sha: Sha256, input: string): (h: Hash)
    ensures IsHashString(h.data)
    ensures UnHex(h.data) == sha(input)
  {
    HexRoundTrip(sha(input));
    Hash(Hex(sha(input)))
  }

  /** Two inputs hash equal exactly when their digests are equal. */
  lemma OfEqualIffDigestsEqual(sha: Sha256, x: string, y: string)
    ensures Of(sha, x) == Of(sha, y) <==> sha(x) == sha(y)
  {
    if Of(sha, x) == Of(sha, y) {
      HexInjective(sha(x), sha(y));
    }
  }

  /** `operator<`: lexicographic order of the encoded strings. */
  predicate Less(a: Hash, b: Hash) {
    LexLess(a.data, b.data)
  }

  /** `<` is a strict total order whose equality is `operator==` (string equality). */
  lemma LessIsStrictTotalOrder(a: Hash, b: Hash, c: Hash)
    ensures !Less(a, a)
    ensures Less(a, b) ==> !Less(b, a)
    ensures Less(a, b) && Less(b, c) ==> Less(a, c)
    ensures a.data != b.data ==> Less(a, b) || Less(b, a)
  {
    LexLessIrreflexive(a.data);
    if Less(a, b) {
      LexLessAsymmetric(a.data, b.data);
      if Less(b, c) {
        LexLessTransitive(a.data, b.data, c.data);
      }
    }
    if a.data != b.data {
      LexLessTotal(a.data, b.data);
    }
  }
}

=== FILE: http.dfy ===
/**
  `CRestApiServer::ParseHttpRequest`: the request line, the header block and
  the body of a raw HTTP/1.1 request (cf. section 3 of RFC 9112), read with
  `std::getline` and `>>` from an `std::istringstream`. Only a
  `Content-Type` header is captured. The client socket is not modelled.

  The source trims a header value with `erase(find_last_not_of(" \t"))`,
  without the `+ 1` it uses for the header name: the last character of every
  value is lost, and a blank value makes `erase(npos)` throw
  `std::out_of_range`, which nothing catches on the listener thread. The
  parse is therefore written once over a value-trimming function:
  `ParseHttpRequest` uses the trim as written (a throw is `None`),
  `ParseHttpRequestFixed` the evident intent.
*/
module Http {
  import opened Wrappers
  import opened Text

  /** `CHttpRequest` without its socket. */
  datatype Request = Request(verb: string, path: string, contentType: string, body: string)

  /** How a header value is trimmed; `None` is a thrown exception. */
  type ValueTrim = string -> Option<string>

  /** The characters the header code trims. */
  const Blanks: string := " \t"

  // ---------------------------------------------------------------------------
  // Reading from the stream
  // ---------------------------------------------------------------------------

  /** The index of the first `c` in `s`, or `|s|` when there is none. */
  function IndexOf(s: string, c: char): (i: nat)
    ensures i <= |s|
    ensures forall k :: 0 <= k < i ==> s[k] != c
    ensures i < |s| ==> s[i] == c
  {
    if s == [] then 0
    else if s[0] == c then 0
    else 1 + IndexOf(s[1..], c)
  }

  /**
    `std::getline(stream, line, delim)` on the unread input `s`: it fails
    on exhausted input; otherwise the line runs up to the delimiter, which
    is consumed, or to the end of the input.
  */
  function GetLine(s: string, delim: char): (r: Option<(string, string)>)
    ensures r.None? <==> s == []
    ensures r.Some? ==> delim !in r.value.0 && |r.value.1| < |s|
    ensures r.Some? ==> s == r.value.0 + [delim] + r.value.1 || (s == r.value.0 && r.value.1 == [])
  {
    if s == [] then None
    else
      var i := IndexOf(s, delim);
      if i < |s| then
        assert s == s[..i] + [delim] + s[i + 1..];
        Some((s[..i], s[i + 1..]))
      else
        assert s[..i] == s;
        Some((s, []))
  }

  /** A line without the delimiter, followed by the delimiter, is read back whole. */
  lemma GetLineOf(line: string, delim: char, rest: string, t: string)
    requires delim !in line && t == line + [delim] + rest
    ensures GetLine(t, delim) == Some((line, rest))
  {
    assert forall k :: 0 <= k < |line| ==> t[k] == line[k];
    assert t[|line|] == delim;
    assert t[..|line|] == line && t[|line| + 1..] == rest;
  }

  /** The length of the leading run of `IsSpace` characters. */
  function SpaceRun(s: string): (n: nat)
    ensures n <= |s|
    ensures forall k :: 0 <= k < n ==> IsSpace(s[k])
    ensures n < |s| ==> !IsSpace(s[n])
  {
    if s == [] || !IsSpace(s[0]) then 0 else 1 + SpaceRun(s[1..])
  }

  /** The length of the leading run of non-`IsSpace` characters. */
  function WordRun(s: string): (n: nat)
    ensures n <= |s|
    ensures forall k :: 0 <= k < n ==> !IsSpace(s[k])
    ensures n < |s| ==> IsSpace(s[n])
  {
    if s == [] || IsSpace(s[0]) then 0 else 1 + WordRun(s[1..])
  }

  /**
    `stream >> word`: skip white space, then take the longest run without
    any; on exhausted input the word stays empty.
  */
  function ReadWord(s: string): (r: (string, string))
    ensures forall k :: 0 <= k < |r.0| ==> !IsSpace(r.0[k])
    ensures r.0 == [] ==> r.1 == []
    ensures |r.1| <= |s|
  {
    var t := s[SpaceRun(s)..];
    var n := WordRun(t);
    (t[..n], t[n..])
  }

  /** A word without white space, after some, is read whole and the rest is left. */
  lemma ReadWordOf(pre: string, w: string, rest: string, t: string)
    requires forall k :: 0 <= k < |pre| ==> IsSpace(pre[k])
    requires w != [] && forall k :: 0 <= k < |w| ==> !IsSpace(w[k])
    requires rest == [] || IsSpace(rest[0])
    requires t == pre + w + rest
    ensures ReadWord(t) == (w, rest)
  {
    SpaceRunOf(pre, w + rest, t);
    assert t[|pre|..] == w + rest;
    WordRunOf(w, rest, w + rest);
    assert (w + rest)[..|w|] == w && (w + rest)[|w|..] == rest;
  }

  lemma {:induction false} SpaceRunOf(pre: string, rest: string, t: string)
    requires forall k :: 0 <= k < |pre| ==> IsSpace(pre[k])
    requires rest != [] && !IsSpace(rest[0])
    requires t == pre + rest
    ensures SpaceRun(t) == |pre|
    decreases |pre|
  {
    if pre == [] {
      assert t[0] == rest[0];
    } else {
      assert t[1..] == pre[1..] + rest;
      SpaceRunOf(pre[1..], rest, t[1..]);
    }
  }

  lemma {:induction false} WordRunOf(w: string, rest: string, t: string)
    requires forall k :: 0 <= k < |w| ==> !IsSpace(w[k])
    requires rest == [] || IsSpace(rest[0])
    requires t == w + rest
    ensures WordRun(t) == |w|
    decreases |w|
  {
    if w == [] {
      assert t == rest;
    } else {
      assert t[0] == w[0];
      assert t[1..] == w[1..] + rest;
      WordRunOf(w[1..], rest, t[1..]);
    }
  }

  /** `line_stream >> method >> path`: the verb and the path. */
  function RequestLine(line: string): (r: (string, string))
    ensures forall k :: 0 <= k < |r.0| ==> !IsSpace(r.0[k])
    ensures forall k :: 0 <= k < |r.1| ==> !IsSpace(r.1[k])
    ensures r.0 == [] ==> r.1 == []
  {
    var (verb, rest) := ReadWord(line);
    var (path, _) := ReadWord(rest);
    (verb, path)
  }

  // ---------------------------------------------------------------------------
  // Headers
  // ---------------------------------------------------------------------------

  /** `str_header_value.erase(str_header_value.find_last_not_of(" \t"))`, after the leading trim. */
  function ValueTrimAsWritten(raw: string): (r: Option<string>)
    ensures r.None? <==> Trim(raw, Blanks) == []
    ensures r.Some? ==> r.value + [Trim(raw, Blanks)[|Trim(raw, Blanks)| - 1]] == Trim(raw, Blanks)
  {
    var v := TrimLeft(raw, Blanks);
    match FindLastNotOf(v, Blanks)
    case None => None
    case Some(i) => Some(v[..i])
  }

  /** The trim the header-name code applies, with the `+ 1`: both ends, never a throw. */
  function ValueTrimFixed(raw: string): (r: Option<string>)
    ensures r.Some? && r.value == Trim(raw, Blanks)
  {
    Some(Trim(raw, Blanks))
  }

  /** The line without one trailing carriage return, as `pop_back` leaves it. */
  function DropCr(line: string): (r: string)
    ensures line != [] && line[|line| - 1] == '\r' ==> line == r + "\r"
    ensures !(line != [] && line[|line| - 1] == '\r') ==> r == line
  {
    if line != [] && line[|line| - 1] == '\r' then line[..|line| - 1] else line
  }

  /**
    One header line: split at the first ':', trim the name and value, and
    take the value when the lower-cased name is `content-type`. A line
    without ':' is skipped. The result is the new content type, `None` when
    the value trim throws.
  */
  function HeaderLine(line: string, contentType: string, trim: ValueTrim): (r: Option<string>)
  {
    var l := DropCr(line);
    match Find(l, [':'], 0)
    case None => Some(contentType)
    case Some(c) =>
      var name := Trim(l[..c], Blanks);
      match trim(l[c + 1..])
      case None => None
      case Some(value) => if LowerString(name) == "content-type" then Some(value) else Some(contentType)
  }

  /**
    The header loop: read lines until the input is exhausted or a line is
    empty or a lone carriage return. The result is the captured content
    type and the input left after the loop, `None` when a header throws.
  */
  function Headers(s: string, contentType: string, trim: ValueTrim): (r: Option<(string, string)>)
    ensures r.Some? ==> |r.value.1| <= |s|
    decreases |s|
  {
    match GetLine(s, '\n')
    case None => Some((contentType, s))
    case Some((line, rest)) =>
      if line == "\r" || line == [] then Some((contentType, rest))
      else
        match HeaderLine(line, contentType, trim)
        case None => None
        case Some(ct) => Headers(rest, ct, trim)
  }

  /** `std::getline(iss, remaining, '\0')`: everything left, up to a NUL. */
  function Body(s: string): (r: string)
    ensures r == s[..IndexOf(s, '\0')] && '\0' !in r
  {
    s[..IndexOf(s, '\0')]
  }

  /** The parse, over a value trim. */
  function Parse(raw: string, trim: ValueTrim): (r: Option<Request>)
  {
    var (verb, path, rest) :=
      match GetLine(raw, '\n')
      case None => ([], [], [])
      case Some((line, rest)) => var (m, p) := RequestLine(line); (m, p, rest);
    match Headers(rest, [], trim)
    case None => None
    case Some((ct, left)) => Some(Request(verb, path, ct, Body(left)))
  }

  /** `ParseHttpRequest` as written; `None` when it throws. */
  function ParseHttpRequest(raw: string): (r: Option<Request>)
  {
    Parse(raw, ValueTrimAsWritten)
  }

  /** `ParseHttpRequest` with the value trimmed like the name. */
  function ParseHttpRequestFixed(raw: string): (r: Option<Request>)
  {
    Parse(raw, ValueTrimFixed)
  }

  // ---------------------------------------------------------------------------
  // Properties
  // ---------------------------------------------------------------------------

  /** A `name: value` header line ending in a carriage return, as a client sends it. */
  function HeaderText(name: string, value: string): string {
    name + ":" + value + "\r"
  }

  /**
    A header whose trimmed, lower-cased name is `content-type` sets the
    content type to its trimmed value (or throws when the trim does).
  */
  lemma HeaderLineCaptured(name: string, value: string, contentType: string, trim: ValueTrim)
    requires ':' !in name && LowerString(Trim(name, Blanks)) == "content-type"
    ensures HeaderLine(HeaderText(name, value), contentType, trim) == trim(value)
  {
    var line := HeaderText(name, value);
    var l := name + ":" + value;
    assert DropCr(line) == l by {
      assert line == l + "\r";
      assert line[..|line| - 1] == l;
    }
    FirstCharAfter(name, ':', value, l);
  }

  /** Any other header leaves the content type as it was, unless its value trim throws. */
  lemma HeaderLineIgnored(name: string, value: string, contentType: string, trim: ValueTrim)
    requires ':' !in name && LowerString(Trim(name, Blanks)) != "content-type"
    ensures HeaderLine(HeaderText(name, value), contentType, trim)
         == (if trim(value).None? then None else Some(contentType))
  {
    var line := HeaderText(name, value);
    var l := name + ":" + value;
    assert DropCr(line) == l by {
      assert line == l + "\r";
      assert line[..|line| - 1] == l;
    }
    FirstCharAfter(name, ':', value, l);
  }

  /**
    A header line without a trailing carriage return (a bare line feed ended
    it) is read the same way: the content type header sets the trimmed value.
  */
  lemma HeaderLineCapturedBare(name: string, value: string, contentType: string, trim: ValueTrim)
    requires ':' !in name && LowerString(Trim(name, Blanks)) == "content-type"
    requires value == [] || value[|value| - 1] != '\r'
    ensures HeaderLine(name + ":" + value, contentType, trim) == trim(value)
  {
    var l := name + ":" + value;
    assert l[|l| - 1] != '\r' by {
      if value != [] { assert l[|l| - 1] == value[|value| - 1]; }
    }
    FirstCharAfter(name, ':', value, l);
  }

  /** Any other header line without a trailing carriage return is ignored likewise. */
  lemma HeaderLineIgnoredBare(name: string, value: string, contentType: string, trim: ValueTrim)
    requires ':' !in name && LowerString(Trim(name, Blanks)) != "content-type"
    requires value == [] || value[|value| - 1] != '\r'
    ensures HeaderLine(name + ":" + value, contentType, trim)
         == (if trim(value).None? then None else Some(contentType))
  {
    var l := name + ":" + value;
    assert l[|l| - 1] != '\r' by {
      if value != [] { assert l[|l| - 1] == value[|value| - 1]; }
    }
    FirstCharAfter(name, ':', value, l);
  }

  /** The header loop reads one header line and goes on with the rest. */
  lemma HeadersStep(line: string, rest: string, t: string, contentType: string, trim: ValueTrim)
    requires '\n' !in line && line != [] && line != "\r"
    requires t == line + "\n" + rest
    ensures Headers(t, contentType, trim)
         == match HeaderLine(line, contentType, trim)
            case None => None
            case Some(ct) => Headers(rest, ct, trim)
  {
    GetLineOf(line, '\n', rest, t);
  }

  /**
    An empty line or a lone carriage return ends the header loop; the body
    follows.
  */
  lemma HeadersEnd(rest: string, t: string, contentType: string, trim: ValueTrim)
    requires t == "\n" + rest || t == "\r\n" + rest
    ensures Headers(t, contentType, trim) == Some((contentType, rest))
  {
    if t == "\n" + rest {
      GetLineOf([], '\n', rest, t);
    } else {
      GetLineOf("\r", '\n', rest, t);
    }
  }

  /** `Content-Type` has no ':'. */
  lemma ContentTypeNoColon()
    ensures ':' !in "Content-Type"
  {
    var n := "Content-Type";
    assert forall k :: 0 <= k < |n| ==> n[k] != ':';
  }

  /** `Content-Type` has no blanks to trim. */
  lemma ContentTypeTrimmed()
    ensures Trim("Content-Type", Blanks) == "Content-Type"
  {
    var n := "Content-Type";
    assert n[0] == 'C' && n[11] == 'e';
    TrimLeftOf([], n, Blanks);
    assert [] + n == n;
    TrimRightOf(n, [], Blanks);
    assert n + [] == n;
  }

  /** `Content-Type` lower-cases to `content-type`. */
  lemma ContentTypeLower()
    ensures LowerString("Content-Type") == "content-type"
  {
    var n := "Content-Type";
    var m := LowerString(n);
    assert m[0] == 'c' && m[8] == 't';
  }

  /** A header name the source recognises as the content type. */
  predicate ContentTypeName(name: string) {
    ':' !in name && '\n' !in name && LowerString(Trim(name, Blanks)) == "content-type"
  }

  /** Every letter-case spelling of `Content-Type` is one. */
  lemma ContentTypeAnyCase(n: string)
    requires LowerString(n) == "content-type"
    ensures ContentTypeName(n)
  {
    var m := LowerString(n);
    assert |n| == 12;
    assert forall k :: 0 <= k < |n| ==> ToLower(n[k]) == m[k];
    assert forall k :: 0 <= k < |n| ==> n[k] != ':' && n[k] != '\n' && n[k] !in Blanks;
    TrimLeftOf([], n, Blanks);
    assert [] + n == n;
    TrimRightOf(n, [], Blanks);
    assert n + [] == n;
  }

  /** The canonical spelling is one. */
  lemma CanonicalContentTypeName()
    ensures ContentTypeName("Content-Type")
  {
    ContentTypeLower();
    ContentTypeAnyCase("Content-Type");
  }

  /** A request a client can send in the form `Render` writes. */
  predicate WellFormed(q: Request) {
    && q.verb != [] && (forall k :: 0 <= k < |q.verb| ==> !IsSpace(q.verb[k]))
    && q.path != [] && (forall k :: 0 <= k < |q.path| ==> !IsSpace(q.path[k]))
    && '\n' !in q.contentType
    && (q.contentType == [] || (q.contentType[0] !in Blanks && q.contentType[|q.contentType| - 1] !in Blanks))
    && '\0' !in q.body
  }

  /** The request line, one `Content-Type` header, a blank line and the body. */
  function Render(q: Request, name: string): string {
    RequestLineText(q) + "\n" + HeaderText(name, " " + q.contentType) + "\n" + "\r\n" + q.body
  }

  function RequestLineText(q: Request): string {
    q.verb + " " + q.path + " HTTP/1.1\r"
  }

  /** The request line of a well-formed request gives back its verb and path. */
  lemma RequestLineOf(q: Request)
    requires WellFormed(q)
    ensures '\n' !in RequestLineText(q)
    ensures RequestLine(RequestLineText(q)) == (q.verb, q.path)
  {
    RequestLineWords(q, RequestLineText(q), " " + q.path + " HTTP/1.1\r");
    RequestLineNoNewline(q, RequestLineText(q));
  }

  /**
    `>> method >> path` on any first line: leading white space is skipped,
    the verb is the first word, any run of white space separates it from
    the path, and the path ends at the next white space or the line's end.
  */
  lemma RequestLineOfWords(pre: string, verb: string, sep: string, path: string, post: string, line: string)
    requires forall k :: 0 <= k < |pre| ==> IsSpace(pre[k])
    requires verb != [] && forall k :: 0 <= k < |verb| ==> !IsSpace(verb[k])
    requires sep != [] && forall k :: 0 <= k < |sep| ==> IsSpace(sep[k])
    requires path != [] && forall k :: 0 <= k < |path| ==> !IsSpace(path[k])
    requires post == [] || IsSpace(post[0])
    requires line == pre + verb + sep + path + post
    ensures RequestLine(line) == (verb, path)
  {
    var tail := sep + path + post;
    assert line == pre + verb + tail;
    assert tail[0] == sep[0];
    ReadWordOf(pre, verb, tail, line);
    ReadWordOf(sep, path, post, tail);
  }

  lemma RequestLineWords(q: Request, line: string, tail: string)
    requires WellFormed(q) && line == RequestLineText(q) && tail == " " + q.path + " HTTP/1.1\r"
    ensures RequestLine(line) == (q.verb, q.path)
  {
    assert line == [] + q.verb + tail;
    ReadWordOf([], q.verb, tail, line);
    ReadWordOf(" ", q.path, " HTTP/1.1\r", tail);
  }

  lemma RequestLineNoNewline(q: Request, line: string)
    requires WellFormed(q) && line == RequestLineText(q)
    ensures '\n' !in line
  {
    forall k | 0 <= k < |line|
      ensures line[k] != '\n'
    {
      if k < |q.verb| {
        assert line[k] == q.verb[k];
      } else if k > |q.verb| && k <= |q.verb| + |q.path| {
        assert line[k] == q.path[k - |q.verb| - 1];
      }
    }
  }

  /** A header line without line feeds in its parts has none. */
  lemma HeaderTextNoNewline(name: string, value: string, l: string)
    requires '\n' !in name && '\n' !in value && l == HeaderText(name, value)
    ensures '\n' !in l && l != [] && l != "\r"
  {
    assert l[|name|] == ':';
    forall k | 0 <= k < |l|
      ensures l[k] != '\n'
    {
      if k < |name| {
        assert l[k] == name[k];
      } else if |name| < k <= |name| + |value| {
        assert l[k] == value[k - |name| - 1];
      }
    }
  }

  /** The body is everything after the blank line when it holds no NUL. */
  lemma BodyWhole(b: string)
    requires '\0' !in b
    ensures Body(b) == b
  {
    assert IndexOf(b, '\0') == |b|;
  }

  /**
    Parsing a rendered request gives back its verb, path and body, and as
    content type whatever the value trim makes of `" " + contentType`.
  */
  lemma ParseOfRender(q: Request, name: string, trim: ValueTrim)
    requires WellFormed(q) && ContentTypeName(name)
    ensures Parse(Render(q, name), trim)
         == match trim(" " + q.contentType)
            case None => None
            case Some(v) => Some(q.(contentType := v))
  {
    var raw := Render(q, name);
    var l1 := RequestLineText(q);
    var l2 := HeaderText(name, " " + q.contentType);
    var after := "\r\n" + q.body;
    var rest := l2 + "\n" + after;
    assert raw == l1 + "\n" + rest;
    RequestLineOf(q);
    GetLineOf(l1, '\n', rest, raw);
    HeaderTextNoNewline(name, " " + q.contentType, l2);
    HeadersStep(l2, after, rest, [], trim);
    HeaderLineCaptured(name, " " + q.contentType, [], trim);
    HeadersEnd(q.body, after, trim(" " + q.contentType).GetOr([]), trim);
    BodyWhole(q.body);
  }

  /** One blank before a value with no blank at either end is all a trim removes. */
  lemma TrimAfterBlank(v: string)
    requires v == [] || (v[0] !in Blanks && v[|v| - 1] !in Blanks)
    ensures Trim(" " + v, Blanks) == v
  {
    TrimLeftOf(" ", v, Blanks);
    TrimRightOf(v, [], Blanks);
    assert v + [] == v;
  }

  /** The value trim as written, on such a value: the last character goes, an empty value throws. */
  lemma AsWrittenValue(v: string)
    requires v == [] || (v[0] !in Blanks && v[|v| - 1] !in Blanks)
    ensures ValueTrimAsWritten(" " + v) == if v == [] then None else Some(v[..|v| - 1])
  {
    TrimAfterBlank(v);
    var r := ValueTrimAsWritten(" " + v);
    if r.Some? {
      assert r.value + [v[|v| - 1]] == v;
      assert v[..|v| - 1] == r.value;
    }
  }

  /** The fixed trim gives a well-formed request back unchanged. */
  lemma FixedRoundTrip(q: Request, name: string)
    requires WellFormed(q) && ContentTypeName(name)
    ensures ParseHttpRequestFixed(Render(q, name)) == Some(q)
  {
    ParseOfRender(q, name, ValueTrimFixed);
    TrimAfterBlank(q.contentType);
  }

  /** As written, the content type loses its last character, and an empty one throws. */
  lemma AsWrittenDropsLastChar(q: Request, name: string)
    requires WellFormed(q) && ContentTypeName(name)
    ensures q.contentType == [] ==> ParseHttpRequest(Render(q, name)) == None
    ensures q.contentType != [] ==>
      ParseHttpRequest(Render(q, name)) == Some(q.(contentType := q.contentType[..|q.contentType| - 1]))
  {
    ParseOfRender(q, name, ValueTrimAsWritten);
    AsWrittenValue(q.contentType);
  }

  /** The verbs and paths used below contain no white space. */
  lemma WordsWithoutSpaces(verb: string, path: string)
    requires verb == "POST" || verb == "GET"
    requires path == "/files" || path == "/chain"
    ensures verb != [] && forall k :: 0 <= k < |verb| ==> !IsSpace(verb[k])
    ensures path != [] && forall k :: 0 <= k < |path| ==> !IsSpace(path[k])
  {
  }

  /** `Content-Type: text/plain` is read as `text/plai`. */
  lemma TextPlainLosesLastChar()
    ensures ParseHttpRequest(Render(Request("POST", "/files", "text/plain", ""), "Content-Type"))
         == Some(Request("POST", "/files", "text/plai", ""))
  {
    var q := Request("POST", "/files", "text/plain", "");
    WordsWithoutSpaces("POST", "/files");
    var ct := q.contentType;
    assert ct[0] == 't' && ct[9] == 'n';
    assert ct[..9] == "text/plai";
    CanonicalContentTypeName();
    AsWrittenDropsLastChar(q, "Content-Type");
  }

  /** A header with nothing after the colon throws. */
  lemma BlankValueThrows()
    ensures ParseHttpRequest(Render(Request("GET", "/chain", "", ""), "Content-Type")) == None
  {
    var q := Request("GET", "/chain", "", "");
    WordsWithoutSpaces("GET", "/chain");
    CanonicalContentTypeName();
    AsWrittenDropsLastChar(q, "Content-Type");
  }
}

=== FILE: json.dfy ===
/**
  `ExtractJsonValue`: the REST server's naive JSON field lookup. It finds
  the first occurrence of the quoted key anywhere in the text, then the
  first ':' from there, skips `isspace` characters, and reads either a
  quoted value up to the next '"' (no escapes) or a bare value up to the
  next ',', '}' or newline, trimmed at the end. Every failure gives "".
*/
module Json {
  import opened Wrappers
  import opened Text

  /** The characters trimmed from the end of a bare value. */
  const ValueBlanks: string := " \t\r\n"

  /** The characters that end a bare value. */
  const BareStops: string := ",}\n"

  /** The quoted key the lookup searches for. */
  function Needle(key: string): string {
    "\"" + key + "\""
  }

  /** First index at or after `i` that is not `isspace`, or the end. */
  function SkipSpaces(s: string, i: nat): (j: nat)
    requires i <= |s|
    ensures i <= j <= |s|
    ensures forall k :: i <= k < j ==> IsSpace(s[k])
    ensures j == |s| || !IsSpace(s[j])
    decreases |s| - i
  {
    if i < |s| && IsSpace(s[i]) then SkipSpaces(s, i + 1) else i
  }

  /** First index at or after `i` holding one of `BareStops`, or the end. */
  function ScanBare(s: string, i: nat): (j: nat)
    requires i <= |s|
    ensures i <= j <= |s|
    ensures forall k :: i <= k < j ==> s[k] !in BareStops
    ensures j == |s| || s[j] in BareStops
    decreases |s| - i
  {
    if i < |s| && s[i] !in BareStops then ScanBare(s, i + 1) else i
  }

  /**
    Where the value begins: after the first quoted key, the first ':' from
    there, and the `isspace` characters that follow it.
  */
  function ValueStart(json: string, key: string): (r: Option<nat>)
    ensures r.Some? ==> r.value <= |json| && Contains(json, Needle(key))
  {
    match Find(json, Needle(key), 0)
    case None => None
    case Some(keyPos) =>
      match Find(json, [':'], keyPos)
      case None => None
      case Some(colon) =>
        assert colon < |json| by { MatchesAtChar(json, ':', colon); }
        Some(SkipSpaces(json, colon + 1))
  }

  /** A quoted value: up to the next '"' after the opening one, or "" when there is none. */
  function ReadQuoted(json: string, from: nat): (r: string)
    requires from <= |json|
    ensures '"' !in r
  {
    match Find(json, ['"'], from)
    case None => ""
    case Some(end) =>
      FindCharIs(json, '"', from);
      json[from..end]
  }

  /**
    A bare value: up to the next ',', '}' or newline, then cut after the last
    character that is not blank; a run with no such character is kept whole.
  */
  function ReadBare(json: string, start: nat): (r: string)
    requires start <= |json|
    ensures forall k :: 0 <= k < |r| ==> r[k] !in BareStops
  {
    var raw := json[start..ScanBare(json, start)];
    match FindLastNotOf(raw, ValueBlanks)
    case None => raw
    case Some(n) => raw[..n + 1]
  }

  /**
    `ExtractJsonValue(json, key)`. Reading `json[start]` at `start == |json|`
    yields the terminating NUL, which is not '"', so that case takes the
    bare branch and gives "".
    What it returns for a present key is stated by `NoColonAfterKey`,
    `ExtractQuoted`, `ExtractUnterminated`, `ExtractBare` and
    `ExtractFromObject` below.
  */
  function ExtractJsonValue(json: string, key: string): (r: string)
    ensures !Contains(json, Needle(key)) ==> r == ""
    ensures '"' !in r || forall k :: 0 <= k < |r| ==> r[k] !in BareStops
  {
    match ValueStart(json, key)
    case None => ""
    case Some(start) =>
      if start < |json| && json[start] == '"' then ReadQuoted(json, start + 1)
      else ReadBare(json, start)
  }

  /** A key whose first occurrence is followed by no ':' anywhere after it gives "". */
  lemma NoColonAfterKey(json: string, key: string, p: nat)
    requires Find(json, Needle(key), 0) == Some(p)
    requires forall j :: p <= j < |json| ==> json[j] != ':'
    ensures ExtractJsonValue(json, key) == ""
  {
    var f := Find(json, [':'], p);
    if f.Some? {
      MatchesAtChar(json, ':', f.value);
    }
  }

  /** A quote-free prefix cannot hide an earlier occurrence of the quoted key. */
  lemma FirstAtWithoutQuotes(s: string, pre: string, key: string)
    requires s == pre + Needle(key) && '"' !in pre
    ensures Find(s, Needle(key), 0) == Some(|pre|)
  {
    var n := Needle(key);
    assert forall k :: 0 <= k < |pre| ==> s[k] == pre[k];
    assert n[0] == '"';
    NoMatchWithoutHead(s, n, 0, |pre|);
    assert s[|pre|..|pre| + |n|] == n;
    FindIs(s, n, 0, |pre|);
  }

  lemma {:induction false} SkipSpacesOf(s: string, i: nat, j: nat)
    requires i <= j < |s|
    requires forall k :: i <= k < j ==> IsSpace(s[k])
    requires !IsSpace(s[j])
    ensures SkipSpaces(s, i) == j
    decreases j - i
  {
    if i < j {
      SkipSpacesOf(s, i + 1, j);
    }
  }

  lemma {:induction false} ScanBareOf(s: string, i: nat, j: nat)
    requires i <= j <= |s|
    requires forall k :: i <= k < j ==> s[k] !in BareStops
    requires j == |s| || s[j] in BareStops
    ensures ScanBare(s, i) == j
    decreases j - i
  {
    if i < j {
      ScanBareOf(s, i + 1, j);
    }
  }

  /** With a colon-free key, the colon searched from the key is the one right after it. */
  lemma LocateColon(json: string, key: string, p: nat, c: nat)
    requires ':' !in key
    requires c == p + |Needle(key)| < |json|
    requires json[p..c] == Needle(key) && json[c] == ':'
    ensures Find(json, [':'], p) == Some(c)
  {
    var n := Needle(key);
    forall k | p <= k < c
      ensures json[k] != ':'
    {
      assert json[k] == n[k - p];
      if 0 < k - p < |n| - 1 {
        assert n[k - p] == key[k - p - 1];
      }
    }
    FindCharAt(json, ':', p, c);
  }

  /** A character-free run up to a character: the character search stops right after it. */
  lemma LocateChar(json: string, c: char, i: nat, run: string)
    requires i + |run| < |json| && json[i..i + |run|] == run && json[i + |run|] == c
    requires c !in run
    ensures Find(json, [c], i) == Some(i + |run|)
  {
    assert forall k :: i <= k < i + |run| ==> json[k] == run[k - i];
    FindCharAt(json, c, i, i + |run|);
  }

  /** The gap after the colon is skipped. */
  lemma SkipGap(json: string, i: nat, gap: string, g: nat)
    requires forall k :: 0 <= k < |gap| ==> IsSpace(gap[k])
    requires g == i + |gap| < |json| && json[i..g] == gap && !IsSpace(json[g])
    ensures SkipSpaces(json, i) == g
  {
    assert forall k :: i <= k < g ==> json[k] == gap[k - i];
    SkipSpacesOf(json, i, g);
  }

  /** Where the pieces of `pre "key": gap rest` sit. */
  lemma Layout(json: string, pre: string, key: string, gap: string, rest: string) returns (p: nat, c: nat, g: nat)
    requires json == pre + Needle(key) + ":" + gap + rest
    ensures p == |pre| && c == p + |Needle(key)| && g == c + 1 + |gap| && g <= |json|
    ensures json[..c] == pre + Needle(key)
    ensures json[p..c] == Needle(key)
    ensures json[c] == ':'
    ensures json[c + 1..g] == gap
    ensures json[g..] == rest
  {
    p := |pre|;
    c := p + |Needle(key)|;
    g := c + 1 + |gap|;
  }

  /** The first match in a prefix of the text is the first match in the text. */
  lemma KeyInJson(json: string, head: string, key: string, p: nat, c: nat)
    requires c <= |json| && json[..c] == head
    requires Find(head, Needle(key), 0) == Some(p) && p + |Needle(key)| == c
    ensures Find(json, Needle(key), 0) == Some(p)
  {
    FindInLonger(json, Needle(key), 0, p, c);
  }

  /** The three searches of `ValueStart`, once their results are known. */
  lemma ValueStartIs(json: string, key: string, p: nat, c: nat, st: nat)
    requires Find(json, Needle(key), 0) == Some(p)
    requires Find(json, [':'], p) == Some(c) && c < |json|
    requires SkipSpaces(json, c + 1) == st
    ensures ValueStart(json, key) == Some(st)
  {
  }

  /** The key, its colon and the gap, located in the text they were assembled into. */
  lemma LocateValue(json: string, pre: string, key: string, gap: string, rest: string) returns (st: nat)
    requires json == pre + Needle(key) + ":" + gap + rest
    requires Find(pre + Needle(key), Needle(key), 0) == Some(|pre|)
    requires ':' !in key
    requires forall k :: 0 <= k < |gap| ==> IsSpace(gap[k])
    requires rest != [] && !IsSpace(rest[0])
    ensures st < |json| && json[st..] == rest
    ensures ValueStart(json, key) == Some(st)
  {
    var p, c;
    p, c, st := Layout(json, pre, key, gap, rest);
    assert json[st] == rest[0];
    KeyInJson(json, pre + Needle(key), key, p, c);
    LocateColon(json, key, p, c);
    SkipGap(json, c + 1, gap, st);
    ValueStartIs(json, key, p, c, st);
  }

  /** Once the value start is located, a quoted value is read by `ReadQuoted`. */
  lemma QuotedBranch(json: string, key: string, st: nat)
    requires ValueStart(json, key) == Some(st) && st < |json| && json[st] == '"'
    ensures ExtractJsonValue(json, key) == ReadQuoted(json, st + 1)
  {
  }

  /** Once the value start is located, a value not opening with '"' is read by `ReadBare`. */
  lemma BareBranch(json: string, key: string, st: nat)
    requires ValueStart(json, key) == Some(st) && st < |json| && json[st] != '"'
    ensures ExtractJsonValue(json, key) == ReadBare(json, st)
  {
  }

  /** Where the quotes and the value of a suffix `"value"post` sit. */
  lemma QuotedPlaces(json: string, st: nat, value: string, post: string)
    requires st <= |json| && json[st..] == "\"" + value + "\"" + post
    ensures st + 1 + |value| < |json|
    ensures json[st] == '"' && json[st + 1 + |value|] == '"'
    ensures json[st + 1..st + 1 + |value|] == value
  {
    var t := value + ("\"" + post);
    assert "\"" + value + "\"" + post == "\"" + t;
    SuffixSplit(json, st, "\"", t);
    assert json[st] == json[st..st + 1][0];
    SuffixSplit(json, st + 1, value, "\"" + post);
    assert json[st + 1 + |value|] == json[st + 1 + |value|..][0];
  }

  /** The closing quote of a quote-free value is the first quote after the opening one. */
  lemma QuotedAt(json: string, st: nat, value: string)
    requires st + 1 + |value| < |json| && json[st + 1 + |value|] == '"'
    requires json[st + 1..st + 1 + |value|] == value && '"' !in value
    ensures Find(json, ['"'], st + 1) == Some(st + 1 + |value|)
  {
    LocateChar(json, '"', st + 1, value);
  }

  /** The positions of the opening and closing quotes of `pre "key": gap "value" post`. */
  lemma QuotedPositions(json: string, pre: string, key: string, gap: string, value: string, post: string) returns (st: nat)
    requires json == pre + Needle(key) + ":" + gap + "\"" + value + "\"" + post
    requires Find(pre + Needle(key), Needle(key), 0) == Some(|pre|)
    requires ':' !in key && '"' !in value
    requires forall k :: 0 <= k < |gap| ==> IsSpace(gap[k])
    ensures ValueStart(json, key) == Some(st) && st < |json| && json[st] == '"'
    ensures Find(json, ['"'], st + 1) == Some(st + 1 + |value|)
    ensures json[st + 1..st + 1 + |value|] == value
  {
    var rest := "\"" + value + "\"" + post;
    AssociateQuoted(pre + Needle(key) + ":" + gap, value, post);
    st := LocateValue(json, pre, key, gap, rest);
    QuotedPlaces(json, st, value, post);
    QuotedAt(json, st, value);
  }

  /** A quoted value is returned verbatim. */
  lemma ExtractQuoted(json: string, pre: string, key: string, gap: string, value: string, post: string)
    requires json == pre + Needle(key) + ":" + gap + "\"" + value + "\"" + post
    requires Find(pre + Needle(key), Needle(key), 0) == Some(|pre|)
    requires ':' !in key && '"' !in value
    requires forall k :: 0 <= k < |gap| ==> IsSpace(gap[k])
    ensures ExtractJsonValue(json, key) == value
  {
    var st := QuotedPositions(json, pre, key, gap, value, post);
    QuotedBranch(json, key, st);
  }

  lemma AssociateQuoted(head: string, value: string, post: string)
    ensures head + "\"" + value + "\"" + post == head + ("\"" + value + "\"" + post)
  {
  }

  lemma AssociateBare(head: string, value: string, trail: string, post: string)
    ensures head + value + trail + post == head + (value + trail + post)
  {
  }

  /** A suffix `"value` with no closing quote. */
  lemma UnterminatedAt(json: string, st: nat, value: string)
    requires st <= |json| && json[st..] == "\"" + value
    requires '"' !in value
    ensures st < |json| && json[st] == '"'
    ensures Find(json, ['"'], st + 1) == None
  {
    var rest := "\"" + value;
    SliceOfSuffix(json, st, rest);
    assert forall k :: st + 1 <= k < |json| ==> json[k] != '"' by {
      assert forall i :: 1 <= i < |rest| ==> rest[i] == value[i - 1];
    }
    FindCharIs(json, '"', st + 1);
  }

  /** The position of the opening quote of `pre "key": gap "value` and the missing closing one. */
  lemma UnterminatedPositions(json: string, pre: string, key: string, gap: string, value: string) returns (st: nat)
    requires json == pre + Needle(key) + ":" + gap + "\"" + value
    requires Find(pre + Needle(key), Needle(key), 0) == Some(|pre|)
    requires ':' !in key && '"' !in value
    requires forall k :: 0 <= k < |gap| ==> IsSpace(gap[k])
    ensures ValueStart(json, key) == Some(st) && st < |json| && json[st] == '"'
    ensures Find(json, ['"'], st + 1) == None
  {
    var rest := "\"" + value;
    assert json == pre + Needle(key) + ":" + gap + rest;
    st := LocateValue(json, pre, key, gap, rest);
    UnterminatedAt(json, st, value);
  }

  /** A quoted value without its closing quote gives "". */
  lemma ExtractUnterminated(json: string, pre: string, key: string, gap: string, value: string)
    requires json == pre + Needle(key) + ":" + gap + "\"" + value
    requires Find(pre + Needle(key), Needle(key), 0) == Some(|pre|)
    requires ':' !in key && '"' !in value
    requires forall k :: 0 <= k < |gap| ==> IsSpace(gap[k])
    ensures ExtractJsonValue(json, key) == ""
  {
    var st := UnterminatedPositions(json, pre, key, gap, value);
    QuotedBranch(json, key, st);
  }

  /** Where a bare value and its trailing blanks sit, and where the scan for its end stops. */
  lemma BarePositions(json: string, pre: string, key: string, gap: string, value: string, trail: string, post: string) returns (st: nat, e: nat)
    requires json == pre + Needle(key) + ":" + gap + value + trail + post
    requires Find(pre + Needle(key), Needle(key), 0) == Some(|pre|)
    requires ':' !in key
    requires forall k :: 0 <= k < |gap| ==> IsSpace(gap[k])
    requires value != [] && !IsSpace(value[0]) && value[0] != '"'
    requires forall k :: 0 <= k < |value| ==> value[k] !in BareStops
    requires forall k :: 0 <= k < |trail| ==> trail[k] !in BareStops
    requires post == [] || post[0] in BareStops
    ensures ValueStart(json, key) == Some(st) && st < |json| && json[st] != '"'
    ensures st <= e <= |json| && ScanBare(json, st) == e && json[st..e] == value + trail
  {
    var rest := value + trail + post;
    assert rest[0] == value[0];
    AssociateBare(pre + Needle(key) + ":" + gap, value, trail, post);
    st := LocateValue(json, pre, key, gap, rest);
    assert json[st] != '"' by {
      SliceOfSuffix(json, st, rest);
    }
    BareRun(value, trail, post);
    e := st + |value| + |trail|;
    ScanBareSuffix(json, st, rest, |value| + |trail|);
  }

  /** The bare run `value + trail` stops where `post` begins. */
  lemma BareRun(value: string, trail: string, post: string)
    requires forall k :: 0 <= k < |value| ==> value[k] !in BareStops
    requires forall k :: 0 <= k < |trail| ==> trail[k] !in BareStops
    requires post == [] || post[0] in BareStops
    ensures var rest := value + trail + post; var n := |value| + |trail|;
      && n <= |rest| && rest[..n] == value + trail
      && (forall k :: 0 <= k < n ==> rest[k] !in BareStops)
      && (n == |rest| || rest[n] in BareStops)
  {
    var rest := value + trail + post;
    var n := |value| + |trail|;
    forall k | 0 <= k < n
      ensures rest[k] !in BareStops
    {
      if k < |value| {
        assert rest[k] == value[k];
      } else {
        assert rest[k] == trail[k - |value|];
      }
    }
  }

  /** A run of `n` non-stop characters at `st`, read off the suffix starting there. */
  lemma ScanBareSuffix(json: string, st: nat, rest: string, n: nat)
    requires st <= |json| && json[st..] == rest && n <= |rest|
    requires forall k :: 0 <= k < n ==> rest[k] !in BareStops
    requires n == |rest| || rest[n] in BareStops
    ensures ScanBare(json, st) == st + n && json[st..st + n] == rest[..n]
  {
    SliceOfSuffix(json, st, rest);
    assert json[st..st + n] == rest[0..n];
    ScanBareOf(json, st, st + n);
  }

  /** `ReadBare` trims the run that `ScanBare` delimits, unless that leaves nothing. */
  lemma ReadBareIs(json: string, st: nat, e: nat, raw: string)
    requires st <= e <= |json| && ScanBare(json, st) == e && json[st..e] == raw
    ensures TrimRight(raw, ValueBlanks) != [] ==> ReadBare(json, st) == TrimRight(raw, ValueBlanks)
  {
  }

  /** A bare run made of a value and its trailing blanks reads as the value. */
  lemma BareValue(json: string, st: nat, e: nat, value: string, trail: string)
    requires st <= e <= |json| && ScanBare(json, st) == e && json[st..e] == value + trail
    requires value != [] && value[|value| - 1] !in ValueBlanks
    requires forall k :: 0 <= k < |trail| ==> trail[k] in ValueBlanks
    ensures ReadBare(json, st) == value
  {
    ReadBareIs(json, st, e, value + trail);
    TrimRightOf(value, trail, ValueBlanks);
  }

  /**
    A bare value runs to the next ',', '}' or newline and loses its trailing
    blanks.
  */
  lemma ExtractBare(json: string, pre: string, key: string, gap: string, value: string, trail: string, post: string)
    requires json == pre + Needle(key) + ":" + gap + value + trail + post
    requires Find(pre + Needle(key), Needle(key), 0) == Some(|pre|)
    requires ':' !in key
    requires forall k :: 0 <= k < |gap| ==> IsSpace(gap[k])
    requires value != [] && !IsSpace(value[0]) && value[0] != '"'
    requires value[|value| - 1] !in ValueBlanks
    requires forall k :: 0 <= k < |value| ==> value[k] !in BareStops
    requires forall k :: 0 <= k < |trail| ==> trail[k] in ValueBlanks
    requires forall k :: 0 <= k < |trail| ==> trail[k] !in BareStops
    requires post == [] || post[0] in BareStops
    ensures ExtractJsonValue(json, key) == value
  {
    var st, e := BarePositions(json, pre, key, gap, value, trail, post);
    BareBranch(json, key, st);
    BareValue(json, st, e, value, trail);
  }

  lemma ObjectLayout(key: string, value: string)
    ensures "{\"" + key + "\": \"" + value + "\"}" == "{" + Needle(key) + ":" + " " + "\"" + value + "\"" + "}"
  {
  }

  /** The single-field object `{"key": "value"}` gives back its value. */
  lemma ExtractFromObject(json: string, key: string, value: string)
    requires json == "{\"" + key + "\": \"" + value + "\"}"
    requires ':' !in key && '"' !in value
    ensures ExtractJsonValue(json, key) == value
  {
    ObjectLayout(key, value);
    var head := "{" + Needle(key);
    FirstAtWithoutQuotes(head, "{", key);
    ExtractQuoted(json, "{", key, " ", value, "}");
  }
}

=== FILE: multipart.dfy ===
/**
  `ParseMultipartFile`: pulls the file name and the file bytes out of a
  `multipart/form-data` body. It looks for the first `--boundary` marker,
  the first `Content-Disposition:` after it, an optional `filename="..."`,
  the blank line that opens the data, and the next `--boundary` marker,
  then drops the line breaks in front of that marker.

  The parser is written over the fixed header strings it searches for
  (`Headers`); `ParseMultipartFile` is the parser over the source's strings.
  The proofs only use the few facts about those strings that `HeadersOk`
  collects.
*/
module Multipart {
  import opened Wrappers
  import opened Text

  /** The fixed strings the parser searches for. */
  datatype Headers = Headers(disposition: string, filenameKey: string, blankCrlf: string, blankLf: string)

  /** `"Content-Disposition:"`, `filename="`, a CRLF blank line, an LF blank line. */
  const Standard: Headers := Headers("Content-Disposition:", "filename=\"", "\r\n\r\n", "\n\n")

  /** `"--" + boundary`, which opens every part and, followed by `--`, ends the body. */
  function Marker(boundary: string): string {
    "--" + boundary
  }

  /**
    The two out-parameters and the result. The caller passes an empty name
    and an empty vector, so "not assigned" reads as "".
  */
  datatype Upload = Upload(ok: bool, filename: string, data: seq<byte>)

  predicate IsNewline(c: char) {
    c == '\n' || c == '\r'
  }

  /** The loop that moves the data end back over '\n' and '\r', never before `start`. */
  function TrimNewlines(body: string, start: nat, end: nat): (r: nat)
    requires start <= end <= |body|
    ensures start <= r <= end
    ensures forall k :: r <= k < end ==> IsNewline(body[k])
    ensures r == start || !IsNewline(body[r - 1])
    decreases end
  {
    if end > start && IsNewline(body[end - 1]) then TrimNewlines(body, start, end - 1) else end
  }

  /** The text between the first `key` from `disp` and the next '"'. */
  function QuotedAfter(body: string, key: string, disp: nat): (r: Option<string>)
    ensures r.Some? ==> '"' !in r.value
  {
    match Find(body, key, disp)
    case None => None
    case Some(f) =>
      match Find(body, ['"'], f + |key|)
      case None => None
      case Some(e) =>
        FindCharIs(body, '"', f + |key|);
        Some(body[f + |key|..e])
  }

  /** Just after the first CRLF blank line from the disposition, else after the first LF one. */
  function DataStart(body: string, h: Headers, disp: nat): (r: Option<nat>)
    requires disp <= |body|
    ensures r.Some? ==> r.value <= |body|
  {
    match Find(body, h.blankCrlf, disp)
    case Some(i) => Some(i + |h.blankCrlf|)
    case None =>
      match Find(body, h.blankLf, disp)
      case Some(i) => Some(i + |h.blankLf|)
      case None => None
  }

  /**
    The data starts right after a blank line found at or after the
    disposition, the CRLF form first; there is no start exactly when
    neither form follows the disposition.
  */
  lemma DataStartSpec(body: string, h: Headers, disp: nat)
    requires disp <= |body|
    ensures var r := DataStart(body, h, disp);
      && (r.Some? ==>
        || (disp + |h.blankCrlf| <= r.value && MatchesAt(body, h.blankCrlf, r.value - |h.blankCrlf|))
        || (disp + |h.blankLf| <= r.value && MatchesAt(body, h.blankLf, r.value - |h.blankLf|)
            && !Contains(body[disp..], h.blankCrlf)))
      && (r.None? <==> !Contains(body[disp..], h.blankCrlf) && !Contains(body[disp..], h.blankLf))
  {
    FindBack(body, h.blankCrlf, disp);
    FindBack(body, h.blankLf, disp);
  }

  /** A search from `from` succeeds exactly when the suffix from there contains the needle. */
  lemma FindBack(s: string, needle: string, from: nat)
    requires from <= |s|
    ensures Find(s, needle, from).Some? <==> Contains(s[from..], needle)
  {
    match Find(s[from..], needle, 0)
    case Some(p) =>
      FindFrom(s, needle, from, p);
    case None =>
      var t := s[from..];
      forall j | from <= j
        ensures !MatchesAt(s, needle, j)
      {
        if j + |needle| <= |s| {
          assert s[j..j + |needle|] == t[j - from..j - from + |needle|];
          assert !MatchesAt(t, needle, j - from);
        }
      }
  }

  /**
    The bytes from `ds` up to the next marker, without the line breaks in
    front of it; nothing when no marker follows.
  */
  function DataBefore(body: string, m: string, ds: nat): seq<byte>
    requires ds <= |body|
  {
    match Find(body, m, ds)
    case None => []
    case Some(de) => BytesOf(body[ds..TrimNewlines(body, ds, de)])
  }

  /**
    Non-empty data is the bytes of a stretch from `ds` that ends in
    something other than a line break and is followed by the marker.
  */
  lemma DataBeforeSpec(body: string, m: string, ds: nat) returns (j: nat)
    requires ds <= |body|
    ensures DataBefore(body, m, ds) != [] ==>
      && ds < j <= |body|
      && DataBefore(body, m, ds) == BytesOf(body[ds..j])
      && !IsNewline(body[j - 1])
      && Contains(body[j..], m)
  {
    j := ds;
    match Find(body, m, ds)
    case None =>
    case Some(de) =>
      j := TrimNewlines(body, ds, de);
      assert DataBefore(body, m, ds) == BytesOf(body[ds..j]);
      if j > ds {
        MarkerAfter(body, m, j, de);
      } else {
        assert |BytesOf(body[ds..j])| == 0;
      }
  }

  lemma MarkerAfter(body: string, m: string, end: nat, de: nat)
    requires end <= de && MatchesAt(body, m, de)
    ensures Contains(body[end..], m)
  {
    var t := body[end..];
    assert t[de - end..de - end + |m|] == body[de..de + |m|];
    assert MatchesAt(t, m, de - end);
  }

  /** The first disposition header after the first marker, if both occur. */
  function DispositionOf(body: string, boundary: string, h: Headers): (r: Option<nat>)
    ensures r.Some? ==> r.value <= |body|
  {
    var m := Marker(boundary);
    match Find(body, m, 0)
    case None => None
    case Some(s0) =>
      match Find(body, h.disposition, s0 + |m|)
      case None => None
      case Some(disp) =>
        assert MatchesAt(body, h.disposition, disp);
        Some(disp)
  }

  /** The parser over the header strings `h`. */
  function Parse(body: string, boundary: string, h: Headers): (r: Upload)
    ensures r.ok <==> r.data != []
    ensures '"' !in r.filename
  {
    match DispositionOf(body, boundary, h)
    case None => Upload(false, "", [])
    case Some(disp) =>
      var name := match QuotedAfter(body, h.filenameKey, disp) case None => "" case Some(f) => f;
      match DataStart(body, h, disp)
      case None => Upload(false, name, [])
      case Some(ds) =>
        var data := DataBefore(body, Marker(boundary), ds);
        Upload(data != [], name, data)
  }

  /** `ParseMultipartFile(body, boundary, filename, data)`. */
  function ParseMultipartFile(body: string, boundary: string): (r: Upload)
    ensures r.ok <==> r.data != []
    ensures '"' !in r.filename
  {
    Parse(body, boundary, Standard)
  }

  /**
    Without a marker nothing is parsed; a successful parse returns the bytes
    of a stretch of the body that does not end in a line break and is
    followed by the marker.
  */
  lemma ParseSpec(body: string, boundary: string, h: Headers)
    ensures var r := Parse(body, boundary, h);
      && (!Contains(body, Marker(boundary)) ==> r == Upload(false, "", []))
      && (r.ok ==> exists i, j ::
        && 0 <= i < j <= |body|
        && r.data == BytesOf(body[i..j])
        && !IsNewline(body[j - 1])
        && Contains(body[j..], Marker(boundary)))
  {
    var r := Parse(body, boundary, h);
    var m := Marker(boundary);
    var ds := ParseData(body, boundary, h);
    if r.ok {
      var j := DataBeforeSpec(body, m, ds);
      assert 0 <= ds < j <= |body| && r.data == BytesOf(body[ds..j]);
    }
  }

  /** Parsed data always comes from `DataBefore` at some data start. */
  lemma ParseData(body: string, boundary: string, h: Headers) returns (ds: nat)
    ensures var r := Parse(body, boundary, h);
      r.ok ==> ds <= |body| && r.data == DataBefore(body, Marker(boundary), ds)
  {
    ds := 0;
    match DispositionOf(body, boundary, h)
    case None =>
    case Some(disp) =>
      match DataStart(body, h, disp)
      case None =>
      case Some(d) =>
        ds := d;
  }

  /** No disposition header after the first marker: nothing is parsed. */
  lemma NoDisposition(body: string, boundary: string, h: Headers, s0: nat)
    requires Find(body, Marker(boundary), 0) == Some(s0)
    requires !Contains(body[s0 + |Marker(boundary)|..], h.disposition)
    ensures Parse(body, boundary, h) == Upload(false, "", [])
  {
    var m := Marker(boundary);
    NotFoundFrom(body, h.disposition, s0 + |m|);
    DispositionMissing(body, boundary, h, s0);
  }

  lemma DispositionMissing(body: string, boundary: string, h: Headers, s0: nat)
    requires Find(body, Marker(boundary), 0) == Some(s0)
    requires Find(body, h.disposition, s0 + |Marker(boundary)|) == None
    ensures DispositionOf(body, boundary, h) == None
  {
  }

  lemma NotFoundFrom(s: string, needle: string, from: nat)
    requires from <= |s| && !Contains(s[from..], needle)
    ensures Find(s, needle, from) == None
  {
    FindBack(s, needle, from);
  }

  /** The first disposition after the first marker, as the source finds it. */
  predicate DispositionAt(body: string, boundary: string, h: Headers, s0: nat, disp: nat) {
    && Find(body, Marker(boundary), 0) == Some(s0)
    && Find(body, h.disposition, s0 + |Marker(boundary)|) == Some(disp)
  }

  lemma DispositionFound(body: string, boundary: string, h: Headers, s0: nat, disp: nat)
    requires DispositionAt(body, boundary, h, s0, disp)
    ensures disp <= |body| && DispositionOf(body, boundary, h) == Some(disp)
  {
  }

  /** No blank line after the disposition: the call fails with no data. */
  lemma NoBlankLine(body: string, boundary: string, h: Headers, s0: nat, disp: nat)
    requires DispositionAt(body, boundary, h, s0, disp)
    requires disp <= |body| && !Contains(body[disp..], h.blankCrlf) && !Contains(body[disp..], h.blankLf)
    ensures !Parse(body, boundary, h).ok && Parse(body, boundary, h).data == []
  {
    DispositionFound(body, boundary, h, s0, disp);
    DataStartSpec(body, h, disp);
  }

  /** No marker after the data start: the call fails with no data. */
  lemma NoClosingMarker(body: string, boundary: string, h: Headers, s0: nat, disp: nat, ds: nat)
    requires DispositionAt(body, boundary, h, s0, disp)
    requires disp <= |body| && DataStart(body, h, disp) == Some(ds)
    requires !Contains(body[ds..], Marker(boundary))
    ensures !Parse(body, boundary, h).ok && Parse(body, boundary, h).data == []
  {
    DispositionFound(body, boundary, h, s0, disp);
    FindBack(body, Marker(boundary), ds);
  }

  /**
    With the data start found, a successful parse returns exactly the bytes
    from that start up to the next marker, less the line breaks in front
    of the marker.
  */
  lemma ParsedFromDataStart(body: string, boundary: string, h: Headers, s0: nat, disp: nat, ds: nat, de: nat)
    requires DispositionAt(body, boundary, h, s0, disp)
    requires disp <= |body| && DataStart(body, h, disp) == Some(ds)
    requires Find(body, Marker(boundary), ds) == Some(de)
    ensures ds <= de <= |body|
    ensures var r := Parse(body, boundary, h);
      var j := TrimNewlines(body, ds, de);
      && r.data == BytesOf(body[ds..j])
      && (r.ok <==> ds < j)
      && (r.ok ==> !IsNewline(body[j - 1]))
  {
    DispositionFound(body, boundary, h, s0, disp);
    assert MatchesAt(body, Marker(boundary), de);
  }

  /** `ParseSpec` for the source's header strings. */
  lemma ParseMultipartFileSpec(body: string, boundary: string)
    ensures var r := ParseMultipartFile(body, boundary);
      && (!Contains(body, Marker(boundary)) ==> r == Upload(false, "", []))
      && (r.ok ==> exists i, j ::
        && 0 <= i < j <= |body|
        && r.data == BytesOf(body[i..j])
        && !IsNewline(body[j - 1])
        && Contains(body[j..], Marker(boundary)))
  {
    ParseSpec(body, boundary, Standard);
  }

  // ---------------------------------------------------------------------------
  // A well-formed upload parses back to its name and content
  // ---------------------------------------------------------------------------

  /** What the proofs need of the header strings. */
  predicate HeadersOk(h: Headers) {
    && |h.disposition| > 0 && !IsNewline(h.disposition[0])
    && |h.filenameKey| > 0 && h.filenameKey[0] !in h.disposition
    && '\r' !in h.disposition && '\r' !in h.filenameKey
    && |h.blankCrlf| > 0 && h.blankCrlf[0] == '\r'
  }

  lemma StandardOk()
    ensures HeadersOk(Standard)
  {
  }

  /**
    The pieces of a one-part body as browsers and `curl -F` send it: the
    opening marker, the disposition line with `filename="name"`, a blank
    line, the content, and the closing marker.
  */
  function UploadPieces(h: Headers, boundary: string, params: string, name: string, content: string): seq<string> {
    [Marker(boundary), "\r\n", h.disposition, params, h.filenameKey, name, "\"", h.blankCrlf,
     content, "\r\n", Marker(boundary), "--\r\n"]
  }

  function UploadBody(h: Headers, boundary: string, params: string, name: string, content: string): string {
    Concat(UploadPieces(h, boundary, params, name, content))
  }

  /** The first match of a non-empty needle from `lo` is at `p` when its first character does not occur before `p`. */
  predicate Lacks(s: string, lo: nat, hi: nat, c: char) {
    forall k :: lo <= k < hi && k < |s| ==> s[k] != c
  }

  /** Two adjacent stretches without `c` make one. */
  lemma LacksJoin(s: string, a: nat, b: nat, c: nat, ch: char)
    requires a <= b <= c && Lacks(s, a, b, ch) && Lacks(s, b, c, ch)
    ensures Lacks(s, a, c, ch)
  {
  }

  /** A window holding `w` holds no character that `w` lacks. */
  lemma WindowLacks(s: string, a: nat, b: nat, w: string, ch: char)
    requires a + |w| == b <= |s| && s[a..b] == w && ch !in w
    ensures Lacks(s, a, b, ch)
  {
    forall k | a <= k < b
      ensures s[k] != ch
    {
      assert s[k] == w[k - a];
    }
  }

  /** A window of `s` from `a` to `b` that holds `w`: the first match inside `w` is the first from `a`. */
  lemma WindowFind(s: string, a: nat, b: nat, w: string, needle: string, p: nat)
    requires a + |w| == b <= |s| && s[a..b] == w
    requires Find(w, needle, 0) == Some(p) && p + |needle| <= |w|
    ensures Find(s, needle, a) == Some(a + p)
  {
    var rest := s[b..];
    assert s[a..] == w + rest;
    FindInPrefix(w, rest, needle, 0, p);
    FindFrom(s, needle, a, p);
  }

  /** The needle sits between `a` and `b`. */
  lemma MatchAt(s: string, needle: string, a: nat, b: nat)
    requires a + |needle| == b <= |s| && s[a..b] == needle
    ensures MatchesAt(s, needle, a)
  {
  }

  /** The opening marker is found at 0. */
  lemma MarkerFirst(body: string, m: string, o0: nat, o1: nat)
    requires o0 == 0 && o0 + |m| == o1 <= |body| && body[o0..o1] == m
    ensures Find(body, m, 0) == Some(0)
  {
    MatchAt(body, m, o0, o1);
    FindIs(body, m, 0, 0);
  }

  /** After the marker's line break, the disposition header. */
  lemma DispositionAfter(body: string, disp: string, o1: nat, o2: nat, o3: nat)
    requires |disp| > 0 && !IsNewline(disp[0])
    requires o1 + 2 == o2 && o2 + |disp| == o3 <= |body|
    requires body[o1..o2] == "\r\n" && body[o2..o3] == disp
    ensures Find(body, disp, o1) == Some(o2)
  {
    assert body[o1] == '\r' && body[o1 + 1] == '\n' by {
      assert body[o1..o2][0] == body[o1] && body[o1..o2][1] == body[o1 + 1];
    }
    MatchAt(body, disp, o2, o3);
    NoMatchWithoutHead(body, disp, o1, o2);
    FindIs(body, disp, o1, o2);
  }

  /**
    The first match from `lo` is the one inside the window `w` from `a` to
    `b` when the needle's first character does not occur before the window.
  */
  lemma {:induction false} KeyAfterGap(body: string, needle: string, lo: nat, a: nat, b: nat, w: string, p: nat, f: nat)
    requires lo <= a && a + |w| == b <= |body| && 0 < |needle| && p + |needle| <= |w|
    requires Lacks(body, lo, a, needle[0])
    requires body[a..b] == w
    requires Find(w, needle, 0) == Some(p) && f == a + p
    ensures Find(body, needle, lo) == Some(f)
    decreases a - lo
  {
    if lo == a {
      WindowFind(body, a, b, w, needle, p);
    } else {
      KeyAfterGap(body, needle, lo + 1, a, b, w, p, f);
      assert body[lo..lo + |needle|][0] == body[lo];
    }
  }

  /** The first name key after the disposition is the one that ends the parameters. */
  lemma KeyStep(body: string, disp: string, key: string, o2: nat, o3: nat, o5: nat, w: string, p: nat, f: nat)
    requires 0 < |key| && p + |key| <= |w| && key[0] !in disp
    requires o2 + |disp| == o3 && o3 + |w| == o5 && o5 <= |body|
    requires body[o2..o3] == disp && body[o3..o5] == w
    requires Find(w, key, 0) == Some(p) && f == o3 + p
    ensures Find(body, key, o2) == Some(f)
  {
    WindowLacks(body, o2, o3, disp, key[0]);
    KeyAfterGap(body, key, o2, o3, o5, w, p, f);
  }

  /** `QuotedAfter` once both searches are known. */
  lemma QuotedAfterIs(body: string, key: string, disp: nat, f: nat, e: nat)
    requires Find(body, key, disp) == Some(f)
    requires Find(body, ['"'], f + |key|) == Some(e)
    ensures f + |key| <= e <= |body|
    ensures QuotedAfter(body, key, disp) == Some(body[f + |key|..e])
  {
    FindCharIs(body, '"', f + |key|);
  }

  /** The quoted name from `o5` to `o6` right after the first key, which ends at `o5`. */
  lemma NameFromKey(body: string, key: string, o2: nat, f: nat, o5: nat, o6: nat, name: string)
    requires Find(body, key, o2) == Some(f)
    requires f + |key| == o5
    requires o5 + |name| == o6
    requires o6 < |body|
    requires body[o5..o6] == name
    requires body[o6] == '"'
    requires '"' !in name
    ensures QuotedAfter(body, key, o2) == Some(name)
  {
    WindowLacks(body, o5, o6, name, '"');
    FindCharAt(body, '"', o5, o6);
    QuotedAfterIs(body, key, o2, f, o6);
  }

  /** The file name of an upload body. */
  lemma NameStep(body: string, disp: string, key: string, o2: nat, o3: nat, f: nat, o5: nat, o6: nat, w: string, p: nat, name: string)
    requires 0 < |key| && key[0] !in disp
    requires o2 + |disp| == o3 && o3 + |w| == o5 && p + |key| == |w| && f == o3 + p && f + |key| == o5
    requires o5 + |name| == o6 && o6 < |body|
    requires body[o2..o3] == disp && body[o3..o5] == w
    requires body[o5..o6] == name && body[o6] == '"' && '"' !in name
    requires Find(w, key, 0) == Some(p)
    ensures QuotedAfter(body, key, o2) == Some(name)
  {
    KeyStep(body, disp, key, o2, o3, o5, w, p, f);
    NameFromKey(body, key, o2, f, o5, o6, name);
  }

  /** The first match from `lo` is at `p` when the needle's first character does not occur before it. */
  lemma FirstAfterGap(body: string, needle: string, lo: nat, p: nat)
    requires lo <= p && 0 < |needle| && MatchesAt(body, needle, p)
    requires Lacks(body, lo, p, needle[0])
    ensures Find(body, needle, lo) == Some(p)
  {
    NoMatchWithoutHead(body, needle, lo, p);
    FindIs(body, needle, lo, p);
  }

  /** The data of an upload body starts after the blank line that follows the closing quote. */
  lemma BlankStep(body: string, h: Headers, o2: nat, o7: nat, o8: nat)
    requires |h.blankCrlf| > 0 && h.blankCrlf[0] == '\r'
    requires o2 <= o7 && o7 + |h.blankCrlf| == o8 <= |body|
    requires Lacks(body, o2, o7, '\r')
    requires body[o7..o8] == h.blankCrlf
    ensures DataStart(body, h, o2) == Some(o8)
  {
    MatchAt(body, h.blankCrlf, o7, o8);
    FirstAfterGap(body, h.blankCrlf, o2, o7);
  }

  /** The trimming loop stops at `mid` when only line breaks follow it and none precedes it. */
  lemma {:induction false} TrimNewlinesOf(body: string, start: nat, mid: nat, end: nat)
    requires start < mid <= end <= |body|
    requires forall k :: mid <= k < end ==> IsNewline(body[k])
    requires !IsNewline(body[mid - 1])
    ensures TrimNewlines(body, start, end) == mid
    decreases end
  {
    if end > mid {
      TrimNewlinesOf(body, start, mid, end - 1);
    }
  }

  /** The data of an upload body is its content. */
  lemma ContentStep(body: string, m: string, o8: nat, o9: nat, o10: nat, o11: nat, content: string)
    requires o8 + |content| == o9 && o9 + 2 == o10 && o10 + |m| == o11 && o11 <= |body|
    requires body[o8..o9] == content && body[o9..o10] == "\r\n" && body[o10..o11] == m
    requires content != [] && !IsNewline(content[|content| - 1])
    requires Find(content + "\r\n" + m, m, 0) == Some(|content| + 2)
    ensures DataBefore(body, m, o8) == BytesOf(content)
  {
    assert Find(body, m, o8) == Some(o10) by {
      Join(body, o8, o9, o10);
      Join(body, o8, o10, o11);
      WindowFind(body, o8, o11, content + "\r\n" + m, m, |content| + 2);
    }
    assert IsNewline(body[o9]) && IsNewline(body[o9 + 1]) && !IsNewline(body[o9 - 1]) by {
      assert body[o9..o10][0] == body[o9] && body[o9..o10][1] == body[o9 + 1];
      assert body[o8..o9][|content| - 1] == body[o9 - 1];
    }
    TrimNewlinesOf(body, o8, o9, o10);
  }

  /** Adjacent slices join. */
  lemma Join(s: string, a: nat, b: nat, c: nat)
    requires a <= b <= c <= |s|
    ensures s[a..c] == s[a..b] + s[b..c]
  {
  }

  /** The parser's result once each of its searches is known. */
  lemma ParseIs(body: string, boundary: string, h: Headers, disp: nat, name: string, ds: nat, data: seq<byte>)
    requires DispositionOf(body, boundary, h) == Some(disp)
    requires QuotedAfter(body, h.filenameKey, disp) == Some(name)
    requires disp <= |body| && DataStart(body, h, disp) == Some(ds)
    requires DataBefore(body, Marker(boundary), ds) == data
    ensures Parse(body, boundary, h) == Upload(data != [], name, data)
  {
  }

  /** The disposition is found once both searches are known. */
  lemma DispositionIs(body: string, boundary: string, h: Headers, disp: nat)
    requires Find(body, Marker(boundary), 0) == Some(0)
    requires Find(body, h.disposition, |Marker(boundary)|) == Some(disp)
    ensures DispositionOf(body, boundary, h) == Some(disp)
  {
  }

  /** Where the marker, its line break and the disposition sit. */
  lemma MarkerLayout(body: string, h: Headers, boundary: string, params: string, name: string, content: string)
    returns (o0: nat, o1: nat, o2: nat, o3: nat)
    requires body == UploadBody(h, boundary, params, name, content)
    ensures var m := Marker(boundary);
      && o0 == 0 && o0 + |m| == o1 && o1 + 2 == o2 && o2 + |h.disposition| == o3 && o3 <= |body|
      && body[o0..o1] == m && body[o1..o2] == "\r\n" && body[o2..o3] == h.disposition
    ensures o3 == Offset(UploadPieces(h, boundary, params, name, content), 3)
  {
    var ps := UploadPieces(h, boundary, params, name, content);
    PieceAt(ps, 0);
    PieceAt(ps, 1);
    PieceAt(ps, 2);
    o0, o1, o2, o3 := Offset(ps, 0), Offset(ps, 1), Offset(ps, 2), Offset(ps, 3);
  }

  /** Where the parameters, the name key and the name sit. */
  lemma NameLayout(body: string, h: Headers, boundary: string, params: string, name: string, content: string)
    returns (o3: nat, o4: nat, o5: nat, o6: nat)
    requires body == UploadBody(h, boundary, params, name, content)
    ensures o3 + |params| == o4 && o4 + |h.filenameKey| == o5 && o5 + |name| == o6 && o6 <= |body|
    ensures body[o3..o4] == params && body[o4..o5] == h.filenameKey && body[o5..o6] == name
    ensures o3 == Offset(UploadPieces(h, boundary, params, name, content), 3)
    ensures o6 == Offset(UploadPieces(h, boundary, params, name, content), 6)
  {
    var ps := UploadPieces(h, boundary, params, name, content);
    PieceAt(ps, 3);
    PieceAt(ps, 4);
    PieceAt(ps, 5);
    o3, o4, o5, o6 := Offset(ps, 3), Offset(ps, 4), Offset(ps, 5), Offset(ps, 6);
  }

  /** Where the closing quote, the blank line and the content sit. */
  lemma ContentLayout(body: string, h: Headers, boundary: string, params: string, name: string, content: string)
    returns (o6: nat, o7: nat, o8: nat, o9: nat)
    requires body == UploadBody(h, boundary, params, name, content)
    ensures o6 + 1 == o7 && o7 + |h.blankCrlf| == o8 && o8 + |content| == o9 && o9 <= |body|
    ensures body[o6..o7] == "\"" && body[o7..o8] == h.blankCrlf && body[o8..o9] == content
    ensures o6 == Offset(UploadPieces(h, boundary, params, name, content), 6)
    ensures o9 == Offset(UploadPieces(h, boundary, params, name, content), 9)
  {
    var ps := UploadPieces(h, boundary, params, name, content);
    PieceAt(ps, 6);
    PieceAt(ps, 7);
    PieceAt(ps, 8);
    o6, o7, o8, o9 := Offset(ps, 6), Offset(ps, 7), Offset(ps, 8), Offset(ps, 9);
  }

  /** Where the line break and the closing marker sit. */
  lemma CloseLayout(body: string, h: Headers, boundary: string, params: string, name: string, content: string)
    returns (o9: nat, o10: nat, o11: nat)
    requires body == UploadBody(h, boundary, params, name, content)
    ensures o9 + 2 == o10 && o10 + |Marker(boundary)| == o11 && o11 <= |body|
    ensures body[o9..o10] == "\r\n" && body[o10..o11] == Marker(boundary)
    ensures o9 == Offset(UploadPieces(h, boundary, params, name, content), 9)
  {
    var ps := UploadPieces(h, boundary, params, name, content);
    PieceAt(ps, 9);
    PieceAt(ps, 10);
    o9, o10, o11 := Offset(ps, 9), Offset(ps, 10), Offset(ps, 11);
  }

  /**
    The round trip over the positions of the pieces: a body laid out as an
    upload parses to the name and the content.
  */
  lemma RoundTripAt(body: string, h: Headers, boundary: string, params: string, name: string, content: string,
                    o0: nat, o1: nat, o2: nat, o3: nat, o4: nat, o5: nat, o6: nat, o7: nat, o8: nat, o9: nat, o10: nat, o11: nat)
    requires HeadersOk(h)
    requires Find(params + h.filenameKey, h.filenameKey, 0) == Some(|params|)
    requires '\r' !in params && '\r' !in name && '"' !in name
    requires Find(content + "\r\n" + Marker(boundary), Marker(boundary), 0) == Some(|content| + 2)
    requires content != [] && !IsNewline(content[|content| - 1])
    requires var m := Marker(boundary);
      && o0 == 0 && o0 + |m| == o1 && o1 + 2 == o2 && o2 + |h.disposition| == o3
      && o3 + |params| == o4 && o4 + |h.filenameKey| == o5 && o5 + |name| == o6 && o6 + 1 == o7
      && o7 + |h.blankCrlf| == o8 && o8 + |content| == o9 && o9 + 2 == o10 && o10 + |m| == o11
      && o11 <= |body|
      && body[o0..o1] == m && body[o1..o2] == "\r\n" && body[o2..o3] == h.disposition
      && body[o3..o4] == params && body[o4..o5] == h.filenameKey && body[o5..o6] == name
      && body[o6..o7] == "\"" && body[o7..o8] == h.blankCrlf && body[o8..o9] == content
      && body[o9..o10] == "\r\n" && body[o10..o11] == m
    ensures Parse(body, boundary, h) == Upload(true, name, BytesOf(content))
  {
    var m := Marker(boundary);
    assert Find(body, m, 0) == Some(0) by {
      MarkerFirst(body, m, o0, o1);
    }
    assert Find(body, h.disposition, o1) == Some(o2) by {
      DispositionAfter(body, h.disposition, o1, o2, o3);
    }
    assert body[o6] == '"' by {
      assert body[o6..o7][0] == body[o6];
    }
    assert QuotedAfter(body, h.filenameKey, o2) == Some(name) by {
      Join(body, o3, o4, o5);
      NameStep(body, h.disposition, h.filenameKey, o2, o3, o4, o5, o6, params + h.filenameKey, |params|, name);
    }
    assert DataStart(body, h, o2) == Some(o8) by {
      WindowLacks(body, o2, o3, h.disposition, '\r');
      WindowLacks(body, o3, o4, params, '\r');
      WindowLacks(body, o4, o5, h.filenameKey, '\r');
      WindowLacks(body, o5, o6, name, '\r');
      WindowLacks(body, o6, o7, "\"", '\r');
      LacksJoin(body, o2, o3, o4, '\r');
      LacksJoin(body, o2, o4, o5, '\r');
      LacksJoin(body, o2, o5, o6, '\r');
      LacksJoin(body, o2, o6, o7, '\r');
      BlankStep(body, h, o2, o7, o8);
    }
    assert DataBefore(body, m, o8) == BytesOf(content) by {
      ContentStep(body, m, o8, o9, o10, o11, content);
    }
    DispositionIs(body, boundary, h, o2);
    ParseIs(body, boundary, h, o2, name, o8, BytesOf(content));
  }

  /**
    A well-formed one-part upload parses to its file name and its content,
    provided the parameters hold no earlier name key, neither they nor the
    name hold '\r', the name holds no '"', the closing marker does not occur
    earlier in the content, and the content does not itself end in a line
    break.
  */
  lemma UploadRoundTripWith(body: string, h: Headers, boundary: string, params: string, name: string, content: string)
    requires HeadersOk(h)
    requires body == UploadBody(h, boundary, params, name, content)
    requires Find(params + h.filenameKey, h.filenameKey, 0) == Some(|params|)
    requires '\r' !in params && '\r' !in name && '"' !in name
    requires Find(content + "\r\n" + Marker(boundary), Marker(boundary), 0) == Some(|content| + 2)
    requires content != [] && !IsNewline(content[|content| - 1])
    ensures Parse(body, boundary, h) == Upload(true, name, BytesOf(content))
  {
    var o0, o1, o2, o3 := MarkerLayout(body, h, boundary, params, name, content);
    var _, o4, o5, o6 := NameLayout(body, h, boundary, params, name, content);
    var _, o7, o8, o9 := ContentLayout(body, h, boundary, params, name, content);
    var _, o10, o11 := CloseLayout(body, h, boundary, params, name, content);
    RoundTripAt(body, h, boundary, params, name, content, o0, o1, o2, o3, o4, o5, o6, o7, o8, o9, o10, o11);
  }

  /** The round trip for the source's header strings. */
  lemma UploadRoundTrip(body: string, boundary: string, params: string, name: string, content: string)
    requires body == UploadBody(Standard, boundary, params, name, content)
    requires Find(params + "filename=\"", "filename=\"", 0) == Some(|params|)
    requires '\r' !in params && '\r' !in name && '"' !in name
    requires Find(content + "\r\n" + Marker(boundary), Marker(boundary), 0) == Some(|content| + 2)
    requires content != [] && !IsNewline(content[|content| - 1])
    ensures ParseMultipartFile(body, boundary) == Upload(true, name, BytesOf(content))
  {
    StandardOk();
    UploadRoundTripWith(body, Standard, boundary, params, name, content);
  }
}

=== FILE: peer.dfy ===
/**
  `CPeerManager`'s outbound peer table: admission with a cap and duplicate
  rejection, disconnect, cleanup of disconnected entries, the listing of
  connected peers, and the clear on `Stop`. Sockets, threads and the
  network are not modelled: whether `ConnectToPeer` succeeds, and the
  socket it obtains, is the parameter `outcome`.
*/
module Peers {
  import opened Wrappers
  import opened Text

  /** `MAX_OUTBOUND_PEERS`. */
  const MaxOutboundPeers: nat := 8

  /** `CPeerConnection` without its thread. */
  datatype Peer = Peer(address: string, port: int, connected: bool, active: bool, socket: int)

  /** The table and the two control flags of `CPeerManager`. */
  datatype Manager = Manager(peers: seq<Peer>, running: bool, stopRequested: bool)

  /** Some entry has this address and port. */
  predicate Has(peers: seq<Peer>, address: string, port: int) {
    exists i :: 0 <= i < |peers| && peers[i].address == address && peers[i].port == port
  }

  /** No two entries share an address and port. */
  predicate Distinct(peers: seq<Peer>) {
    forall i, j :: 0 <= i < j < |peers| ==>
      !(peers[i].address == peers[j].address && peers[i].port == peers[j].port)
  }

  /** What sequential use of `AddPeer` guarantees: at most eight entries, no duplicates. */
  predicate TableOk(peers: seq<Peer>) {
    |peers| <= MaxOutboundPeers && Distinct(peers)
  }

  /**
    `ConnectToPeer`, effect only: on success (a socket `fd`) one connected,
    active entry is appended; on failure the table is unchanged.
  */
  function ConnectToPeer(peers: seq<Peer>, address: string, port: int, outcome: Option<nat>): (r: (bool, seq<Peer>))
    ensures r.0 <==> outcome.Some?
    ensures r.0 ==> r.1 == peers + [Peer(address, port, true, true, outcome.value)]
    ensures !r.0 ==> r.1 == peers
  {
    match outcome
    case None => (false, peers)
    case Some(fd) => (true, peers + [Peer(address, port, true, true, fd)])
  }

  /** `AddPeer`: refuse when full or already present, otherwise try to connect. */
  function AddPeer(m: Manager, address: string, port: int, outcome: Option<nat>): (r: (bool, Manager))
    ensures r.0 <==> |m.peers| < MaxOutboundPeers && !Has(m.peers, address, port) && outcome.Some?
    ensures r.0 ==> r.1 == m.(peers := m.peers + [Peer(address, port, true, true, outcome.value)])
    ensures !r.0 ==> r.1 == m
  {
    if |m.peers| >= MaxOutboundPeers then (false, m)
    else if Has(m.peers, address, port) then (false, m)
    else
      var (ok, peers) := ConnectToPeer(m.peers, address, port, outcome);
      (ok, m.(peers := peers))
  }

  /** Sequential `AddPeer` calls keep the table within the cap and free of duplicates. */
  lemma AddPeerKeepsTableOk(m: Manager, address: string, port: int, outcome: Option<nat>)
    requires TableOk(m.peers)
    ensures TableOk(AddPeer(m, address, port, outcome).1.peers)
    ensures |AddPeer(m, address, port, outcome).1.peers| <= |m.peers| + 1
  {
    var r := AddPeer(m, address, port, outcome);
    if r.0 {
      var n := |m.peers|;
      var ps := r.1.peers;
      forall i, j | 0 <= i < j < |ps|
        ensures !(ps[i].address == ps[j].address && ps[i].port == ps[j].port)
      {
        if j == n {
          assert ps[i] == m.peers[i];
        } else {
          assert ps[i] == m.peers[i] && ps[j] == m.peers[j];
        }
      }
    }
  }

  /**
    `DisconnectPeer`: a null target changes nothing; otherwise that entry
    becomes inactive and disconnected and an open socket is closed (-1).
  */
  function DisconnectPeer(peers: seq<Peer>, target: Option<nat>): (r: seq<Peer>)
    requires target.Some? ==> target.value < |peers|
    ensures |r| == |peers|
    ensures target.None? ==> r == peers
    ensures target.Some? ==> forall i :: 0 <= i < |peers| && i != target.value ==> r[i] == peers[i]
    ensures target.Some? ==>
      var p := peers[target.value];
      var q := r[target.value];
      && !q.connected && !q.active
      && q.address == p.address && q.port == p.port
      && q.socket == (if p.socket >= 0 then -1 else p.socket)
      && q.socket < 0
  {
    match target
    case None => peers
    case Some(i) =>
      var p := peers[i];
      peers[i := p.(active := false, connected := false, socket := if p.socket >= 0 then -1 else p.socket)]
  }

  /** Disconnecting keeps addresses and ports, hence the table invariant. */
  lemma DisconnectKeepsTableOk(peers: seq<Peer>, target: Option<nat>)
    requires target.Some? ==> target.value < |peers|
    requires TableOk(peers)
    ensures TableOk(DisconnectPeer(peers, target))
  {
    var r := DisconnectPeer(peers, target);
    assert forall i :: 0 <= i < |peers| ==> r[i].address == peers[i].address && r[i].port == peers[i].port;
  }

  /** `CleanupDisconnectedPeers`: `remove_if` of the disconnected entries, order kept. */
  function Cleanup(peers: seq<Peer>): (r: seq<Peer>)
    ensures |r| <= |peers|
    ensures forall i :: 0 <= i < |r| ==> r[i].connected
    ensures forall p :: p in r <==> p in peers && p.connected
  {
    if peers == [] then []
    else if peers[0].connected then [peers[0]] + Cleanup(peers[1..])
    else Cleanup(peers[1..])
  }

  /** Cleanup works piecewise: it keeps the relative order of what it keeps. */
  lemma {:induction false} CleanupAppend(a: seq<Peer>, b: seq<Peer>)
    ensures Cleanup(a + b) == Cleanup(a) + Cleanup(b)
  {
    if a == [] {
      assert a + b == b;
    } else {
      assert (a + b)[1..] == a[1..] + b;
      CleanupAppend(a[1..], b);
    }
  }

  /** Cleanup removes nothing from an all-connected table and is idempotent. */
  lemma {:induction false} CleanupIdempotent(peers: seq<Peer>)
    ensures (forall i :: 0 <= i < |peers| ==> peers[i].connected) ==> Cleanup(peers) == peers
    ensures Cleanup(Cleanup(peers)) == Cleanup(peers)
  {
    if peers != [] {
      CleanupIdempotent(peers[1..]);
      if peers[0].connected {
        assert ([peers[0]] + Cleanup(peers[1..]))[1..] == Cleanup(peers[1..]);
      }
    }
  }

  /** Cleanup keeps the table invariant. */
  lemma {:induction false} CleanupKeepsTableOk(peers: seq<Peer>)
    requires TableOk(peers)
    ensures TableOk(Cleanup(peers))
  {
    if peers != [] {
      DistinctTail(peers);
      CleanupKeepsTableOk(peers[1..]);
      if peers[0].connected {
        var p := peers[0];
        var rest := Cleanup(peers[1..]);
        FirstNotInRest(peers);
        forall k | 0 <= k < |rest|
          ensures !(rest[k].address == p.address && rest[k].port == p.port)
        {
          assert rest[k] in peers[1..];
        }
        DistinctCons(p, rest);
      }
    }
  }

  lemma DistinctTail(peers: seq<Peer>)
    requires Distinct(peers) && peers != []
    ensures Distinct(peers[1..])
  {
    forall i, j | 0 <= i < j < |peers[1..]|
      ensures !(peers[1..][i].address == peers[1..][j].address && peers[1..][i].port == peers[1..][j].port)
    {
      assert peers[1..][i] == peers[i + 1] && peers[1..][j] == peers[j + 1];
    }
  }

  /** In a duplicate-free table no later entry shares the first one's address and port. */
  lemma FirstNotInRest(peers: seq<Peer>)
    requires Distinct(peers) && peers != []
    ensures forall q :: q in peers[1..] ==> !(q.address == peers[0].address && q.port == peers[0].port)
  {
    forall q | q in peers[1..]
      ensures !(q.address == peers[0].address && q.port == peers[0].port)
    {
      var k :| 0 <= k < |peers[1..]| && peers[1..][k] == q;
      assert peers[k + 1] == q;
    }
  }

  /** A new address and port in front of a duplicate-free table keeps it duplicate-free. */
  lemma DistinctCons(p: Peer, rest: seq<Peer>)
    requires Distinct(rest) && !Has(rest, p.address, p.port)
    ensures Distinct([p] + rest)
  {
    var r := [p] + rest;
    forall i, j | 0 <= i < j < |r|
      ensures !(r[i].address == r[j].address && r[i].port == r[j].port)
    {
      assert r[j] == rest[j - 1];
      if i > 0 {
        assert r[i] == rest[i - 1];
      }
    }
  }

  /** `"address:port"`, as `GetConnectedPeers` prints an entry. */
  function Endpoint(p: Peer): string {
    p.address + ":" + Decimal(p.port)
  }

  /** `GetConnectedPeers`: the endpoints of the connected entries, in table order. */
  function GetConnectedPeers(peers: seq<Peer>): (r: seq<string>)
    ensures |r| == |Cleanup(peers)|
    ensures forall i :: 0 <= i < |r| ==> r[i] == Endpoint(Cleanup(peers)[i])
  {
    var live := Cleanup(peers);
    seq(|live|, i requires 0 <= i < |live| => Endpoint(live[i]))
  }

  /** Cleaning the table first does not change the listing. */
  lemma ListingIgnoresCleanup(peers: seq<Peer>)
    ensures GetConnectedPeers(Cleanup(peers)) == GetConnectedPeers(peers)
  {
    CleanupIdempotent(peers);
  }

  /** A successful `AddPeer` appends exactly its endpoint to the listing. */
  lemma ListingAfterAddPeer(m: Manager, address: string, port: int, outcome: Option<nat>)
    requires AddPeer(m, address, port, outcome).0
    ensures GetConnectedPeers(AddPeer(m, address, port, outcome).1.peers)
        == GetConnectedPeers(m.peers) + [address + ":" + Decimal(port)]
  {
    var p := Peer(address, port, true, true, outcome.value);
    var ps := m.peers + [p];
    assert AddPeer(m, address, port, outcome).1.peers == ps;
    assert Cleanup([p]) == [p] by {
      assert [p][1..] == [];
    }
    assert Cleanup(ps) == Cleanup(m.peers) + [p] by {
      CleanupAppend(m.peers, [p]);
    }
  }

  /** With colon-free addresses (IPv4 literals), distinct entries print distinct endpoints. */
  lemma EndpointInjective(p: Peer, q: Peer)
    requires ':' !in p.address && ':' !in q.address
    requires Endpoint(p) == Endpoint(q)
    ensures p.address == q.address && p.port == q.port
  {
    var e := Endpoint(p);
    FirstCharAfter(p.address, ':', Decimal(p.port), e);
    FirstCharAfter(q.address, ':', Decimal(q.port), e);
    DecimalInjective(p.port, q.port);
  }

  /** `GetOutboundPeerCount`. */
  function GetOutboundPeerCount(m: Manager): nat {
    |m.peers|
  }

  /** `IsRunning`. */
  function IsRunning(m: Manager): bool {
    m.running
  }

  /**
    `Stop`: nothing when not running; otherwise the flags flip, every entry
    is deactivated and closed, and the table is cleared.
  */
  function Stop(m: Manager): (r: Manager)
    ensures !m.running ==> r == m
    ensures m.running ==> r.peers == [] && !r.running && r.stopRequested
  {
    if !m.running then m
    else Manager([], false, true)
  }

  /** After `Stop` nothing is listed, nothing is counted, and a second `Stop` changes nothing. */
  lemma StopClears(m: Manager)
    ensures m.running ==> GetOutboundPeerCount(Stop(m)) == 0 && GetConnectedPeers(Stop(m).peers) == []
    ensures Stop(Stop(m)) == Stop(m)
    ensures TableOk(m.peers) ==> TableOk(Stop(m).peers)
  {
  }
}

=== FILE: rest.dfy ===
/**
  The REST server's dispatch: `HandleGET` and `HandlePOST` pick a handler
  by path, and `ProcessRequest` picks the status code from the verb and
  the handler's reply. The replies of the chain, block, data and mining
  handlers are modelled. The insides of the `/transaction` and `/files`
  handlers (floating-point fee parsing, file writing, the clock) are not:
  their outcome, a reply and the transaction they appended to the mempool
  if any, is a parameter.
*/
module Rest {
  import opened Wrappers
  import opened Text
  import opened Transactions
  import opened Blockweave
  import opened Http

  /** The handler a request reaches. */
  datatype Endpoint =
    | GetChain
    | GetBlockByHash(hash: string)
    | GetDataById(txId: string)
    | PostTransaction
    | PostFiles
    | PostMineStart
    | PostMineStop
    | NotFound

  /** What the `/transaction` or `/files` handler did: its reply and the transaction it queued, if any. */
  datatype Posted = Posted(reply: string, added: Option<Tx>)

  /** The status code and the JSON text sent back. */
  datatype Response = Response(status: nat, body: string)

  /** The key every error reply carries, with its quotes. */
  const ErrorKey: string := "\"error\""

  /** `{"error": "<msg>"}`. */
  function ErrorReply(msg: string): string {
    "{" + ErrorKey + ": \"" + msg + "\"}"
  }

  const NotFoundReply: string := ErrorReply("Not found")
  const NotImplementedReply: string := ErrorReply("Not implemented")
  const MethodNotAllowedReply: string := ErrorReply("Method not allowed")
  const MiningStartedReply: string := "{\"status\": \"Mining started\"}"
  const MiningStoppedReply: string := "{\"status\": \"Mining stopped\"}"

  /** `HandleGET`'s routing: `/chain` exactly, then the `/block/` and `/data/` prefixes. */
  function RouteGet(path: string): (e: Endpoint)
    ensures e.GetChain? || e.GetBlockByHash? || e.GetDataById? || e.NotFound?
    ensures e.GetBlockByHash? ==> path == "/block/" + e.hash
    ensures e.GetDataById? ==> path == "/data/" + e.txId
    ensures e.NotFound? <==> path != "/chain" && !StartsWith(path, "/block/") && !StartsWith(path, "/data/")
  {
    FindZeroIsPrefix(path, "/block/");
    FindZeroIsPrefix(path, "/data/");
    if path == "/chain" then GetChain
    else if Find(path, "/block/", 0) == Some(0) then
      assert path == path[..7] + path[7..];
      GetBlockByHash(path[7..])
    else if Find(path, "/data/", 0) == Some(0) then
      assert path == path[..6] + path[6..];
      GetDataById(path[6..])
    else NotFound
  }

  /** `HandlePOST`'s routing: four exact paths. */
  function RoutePost(path: string): (e: Endpoint)
    ensures e.PostTransaction? || e.PostFiles? || e.PostMineStart? || e.PostMineStop? || e.NotFound?
    ensures e.NotFound? <==> path != "/transaction" && path != "/files" && path != "/mine/start" && path != "/mine/stop"
  {
    if path == "/transaction" then PostTransaction
    else if path == "/files" then PostFiles
    else if path == "/mine/start" then PostMineStart
    else if path == "/mine/stop" then PostMineStop
    else NotFound
  }

  /** The path that reaches an endpoint; the inverse of the two routers. */
  function PathOf(e: Endpoint): string
    requires !e.NotFound?
  {
    match e
    case GetChain => "/chain"
    case GetBlockByHash(h) => "/block/" + h
    case GetDataById(id) => "/data/" + id
    case PostTransaction => "/transaction"
    case PostFiles => "/files"
    case PostMineStart => "/mine/start"
    case PostMineStop => "/mine/stop"
  }

  /** Every GET endpoint is reached by its path, and every routed GET path is that endpoint's path. */
  lemma RouteGetInverse(e: Endpoint, path: string)
    ensures e.GetChain? || e.GetBlockByHash? || e.GetDataById? ==> RouteGet(PathOf(e)) == e
    ensures !RouteGet(path).NotFound? ==> PathOf(RouteGet(path)) == path
  {
    if e.GetBlockByHash? {
      var p := PathOf(e);
      assert p[..7] == "/block/" && p[7..] == e.hash;
    } else if e.GetDataById? {
      var p := PathOf(e);
      assert p[1] == 'd';
      assert p[..6] == "/data/" && p[6..] == e.txId;
    }
  }

  /** The same for POST. */
  lemma RoutePostInverse(e: Endpoint, path: string)
    ensures e.PostTransaction? || e.PostFiles? || e.PostMineStart? || e.PostMineStop? ==> RoutePost(PathOf(e)) == e
    ensures !RoutePost(path).NotFound? ==> PathOf(RoutePost(path)) == path
  {
  }

  /** `HandleGetChain`: the mempool size and the mining flag as a small JSON object. */
  function ChainReply(w: Weave): string {
    "{\n  \"mempool_size\": " + NatDecimal(GetMempoolSize(w)) + ",\n  \"mining_enabled\": "
      + (if IsMiningEnabled(w) then "true" else "false") + "\n}"
  }

  /** `HandleGET`. */
  function HandleGet(w: Weave, path: string): string {
    match RouteGet(path)
    case GetChain => ChainReply(w)
    case GetBlockByHash(_) => NotImplementedReply
    case GetDataById(_) => NotImplementedReply
    case _ => NotFoundReply
  }

  /**
    `HandlePOST`: the reply and the weave after the handler. `posted` is
    the outcome of the `/transaction` or `/files` handler.
  */
  function HandlePost(w: Weave, path: string, posted: Posted): (string, Weave) {
    PostHandler(w, RoutePost(path), posted)
  }

  /** The POST handler an endpoint runs: its reply and the weave after it. */
  function PostHandler(w: Weave, e: Endpoint, posted: Posted): (string, Weave) {
    match e
    case PostTransaction => (posted.reply, Queue(w, posted.added))
    case PostFiles => (posted.reply, Queue(w, posted.added))
    case PostMineStart => (MiningStartedReply, StartMining(w))
    case PostMineStop => (MiningStoppedReply, StopMining(w))
    case _ => (NotFoundReply, w)
  }

  /** The mempool append a successful upload handler makes. */
  function Queue(w: Weave, added: Option<Tx>): Weave {
    match added
    case None => w
    case Some(tx) => AddTransaction(w, tx)
  }

  /** 404 when the reply carries an `"error"` key and the words `Not found`, else 200. */
  function ReplyStatus(reply: string): nat {
    if Contains(reply, ErrorKey) && Contains(reply, "Not found") then 404 else 200
  }

  /** `ProcessRequest`: dispatch on the verb; any verb but GET and POST gets 405. */
  function ProcessRequest(w: Weave, q: Request, posted: Posted): (r: (Response, Weave))
    ensures r.0.status in {200, 404, 405}
    ensures r.0.status == 405 <==> q.verb != "GET" && q.verb != "POST"
    ensures r.0.status == 405 ==> r.1 == w
  {
    if q.verb == "GET" then
      var reply := HandleGet(w, q.path);
      (Response(ReplyStatus(reply), reply), w)
    else if q.verb == "POST" then
      var (reply, w2) := HandlePost(w, q.path, posted);
      (Response(ReplyStatus(reply), reply), w2)
    else (Response(405, MethodNotAllowedReply), w)
  }

  // ---------------------------------------------------------------------------
  // The status table
  // ---------------------------------------------------------------------------

  /** A needle cannot occur where its first character never does. */
  lemma AbsentHead(s: string, needle: string)
    requires needle != [] && needle[0] !in s
    ensures !Contains(s, needle)
  {
    forall j | 0 <= j
      ensures !MatchesAt(s, needle, j)
    {
      if j + |needle| <= |s| {
        assert s[j..j + |needle|][0] == s[j];
      }
    }
  }

  /** A piece laid between two others occurs where it was put. */
  lemma InfixMatches(a: string, w: string, b: string, s: string)
    requires s == a + w + b
    ensures MatchesAt(s, w, |a|)
  {
    assert s[|a|..|a| + |w|] == w;
  }

  /** An error reply whose message mentions `Not found` is a 404. */
  lemma ErrorReplyIs404(msg: string, p: nat)
    requires MatchesAt(msg, "Not found", p)
    ensures ReplyStatus(ErrorReply(msg)) == 404
  {
    var s := ErrorReply(msg);
    var head := "{" + ErrorKey + ": \"";
    InfixMatches("{", ErrorKey, ": \"" + msg + "\"}", s);
    InfixMatches(head, msg, "\"}", s);
    assert s[|head| + p..|head| + p + 9] == msg[p..p + 9];
    assert MatchesAt(s, "Not found", |head| + p);
    assert MatchesAt(s, ErrorKey, 1);
  }

  /** The not-found reply is a 404. */
  lemma NotFoundIs404()
    ensures ReplyStatus(NotFoundReply) == 404
  {
    ErrorReplyIs404("Not found", 0);
  }

  /**
    An error reply whose message starts with the only capital N it holds,
    and does not go on as `Not f`, does not mention `Not found`.
  */
  lemma ErrorReplyWithoutNotFound(msg: string)
    requires |msg| >= 5 && msg[0] == 'N' && msg[4] != 'f'
    requires forall k :: 1 <= k < |msg| ==> msg[k] != 'N'
    ensures !Contains(ErrorReply(msg), "Not found")
  {
    var s := ErrorReply(msg);
    var head := "{" + ErrorKey + ": \"";
    var tail := "\"}";
    assert s == head + msg + tail;
    assert forall k :: 0 <= k < |head| ==> head[k] != 'N';
    var n := "Not found";
    forall j | 0 <= j
      ensures !MatchesAt(s, n, j)
    {
      if j + |n| <= |s| {
        if j == |head| {
          assert s[j..j + |n|][4] == s[j + 4] == msg[4];
        } else {
          assert s[j..j + |n|][0] == s[j];
          if j < |head| {
            assert s[j] == head[j];
          } else {
            assert s[j] == msg[j - |head|];
          }
        }
      }
    }
  }

  /** The `Not implemented` reply names no missing route: a 200. */
  lemma NotImplementedIs200()
    ensures ReplyStatus(NotImplementedReply) == 200
  {
    var msg := "Not implemented";
    assert msg[0] == 'N' && msg[4] == 'i';
    assert forall k :: 1 <= k < |msg| ==> msg[k] != 'N';
    ErrorReplyWithoutNotFound(msg);
  }

  /** The chain reply holds no capital N, hence no `Not found`: a 200. */
  lemma ChainIs200(w: Weave)
    ensures ReplyStatus(ChainReply(w)) == 200
  {
    var d := NatDecimal(GetMempoolSize(w));
    assert 'N' !in d by {
      forall k | 0 <= k < |d|
        ensures d[k] != 'N'
      {
        assert IsDigit(d[k]);
      }
    }
    AbsentHead(ChainReply(w), "Not found");
  }

  /** The mining replies are 200s. */
  lemma MiningStartedIs200()
    ensures ReplyStatus(MiningStartedReply) == 200
  {
    AbsentHead(MiningStartedReply, "Not found");
  }

  lemma MiningStoppedIs200()
    ensures ReplyStatus(MiningStoppedReply) == 200
  {
    AbsentHead(MiningStoppedReply, "Not found");
  }

  /**
    The status table: 405 for verbs other than GET and POST; for GET and
    for the mining routes, 404 exactly when no route matches; for
    `/transaction` and `/files`, whatever the handler's reply says.
  */
  lemma StatusTable(w: Weave, q: Request, posted: Posted)
    ensures q.verb == "GET" ==>
      ProcessRequest(w, q, posted).0.status == (if RouteGet(q.path).NotFound? then 404 else 200)
    ensures q.verb == "POST" && !(RoutePost(q.path).PostTransaction? || RoutePost(q.path).PostFiles?) ==>
      ProcessRequest(w, q, posted).0.status == (if RoutePost(q.path).NotFound? then 404 else 200)
    ensures q.verb == "POST" && (RoutePost(q.path).PostTransaction? || RoutePost(q.path).PostFiles?) ==>
      ProcessRequest(w, q, posted).0.status == ReplyStatus(posted.reply)
  {
    if q.verb == "GET" {
      GetStatus(w, q.path);
    } else if q.verb == "POST" {
      PostStatus(w, q.path, posted);
    }
  }

  lemma GetStatus(w: Weave, path: string)
    ensures ReplyStatus(HandleGet(w, path)) == if RouteGet(path).NotFound? then 404 else 200
  {
    match RouteGet(path)
    case GetChain => ChainIs200(w);
    case GetBlockByHash(_) => NotImplementedIs200();
    case GetDataById(_) => NotImplementedIs200();
    case _ => NotFoundIs404();
  }

  lemma PostStatus(w: Weave, path: string, posted: Posted)
    ensures RoutePost(path).NotFound? ==> ReplyStatus(HandlePost(w, path, posted).0) == 404
    ensures RoutePost(path).PostMineStart? || RoutePost(path).PostMineStop? ==>
      ReplyStatus(HandlePost(w, path, posted).0) == 200
    ensures RoutePost(path).PostTransaction? || RoutePost(path).PostFiles? ==>
      HandlePost(w, path, posted).0 == posted.reply
  {
    match RoutePost(path)
    case PostMineStart => MiningStartedIs200();
    case PostMineStop => MiningStoppedIs200();
    case NotFound => NotFoundIs404();
    case _ =>
  }

  /** A queued upload appends its transaction to the mempool and touches nothing else. */
  lemma QueueEffect(w: Weave, added: Option<Tx>)
    ensures Queue(w, added).(mempool := w.mempool) == w
    ensures added.None? ==> Queue(w, added) == w
    ensures added.Some? ==> Queue(w, added).mempool == w.mempool + [added.value]
    ensures Linked(w) ==> Linked(Queue(w, added))
  {
    if added.Some? {
      AddTransactionKeepsLinked(w, added.value);
    }
  }

  /** What a POST handler may do to the weave. */
  lemma PostEffect(w: Weave, e: Endpoint, posted: Posted)
    ensures var w2 := PostHandler(w, e, posted).1;
      w2.(miningEnabled := w.miningEnabled, stopRequested := w.stopRequested, mempool := w.mempool) == w
    ensures var w2 := PostHandler(w, e, posted).1;
      w2.mempool == w.mempool || (posted.added.Some? && w2.mempool == w.mempool + [posted.added.value])
    ensures e.NotFound? ==> PostHandler(w, e, posted).1 == w
  {
    match e
    case PostTransaction => QueueEffect(w, posted.added);
    case PostFiles => QueueEffect(w, posted.added);
    case _ =>
  }

  /** No POST handler breaks the weave's invariants. */
  lemma PostKeepsLinked(w: Weave, e: Endpoint, posted: Posted)
    requires Linked(w)
    ensures Linked(PostHandler(w, e, posted).1)
  {
    match e
    case PostTransaction => QueueEffect(w, posted.added);
    case PostFiles => QueueEffect(w, posted.added);
    case PostMineStart => MiningControl(w);
    case PostMineStop => MiningControl(w);
    case _ =>
  }

  /**
    A request changes the weave only through the mining flags and a mempool
    append of the posted transaction; only the four POST routes change it
    at all, and the weave's invariants survive every request.
  */
  lemma ProcessKeepsChain(w: Weave, q: Request, posted: Posted)
    ensures var w2 := ProcessRequest(w, q, posted).1;
      w2.(miningEnabled := w.miningEnabled, stopRequested := w.stopRequested, mempool := w.mempool) == w
    ensures var w2 := ProcessRequest(w, q, posted).1;
      w2.mempool == w.mempool || (posted.added.Some? && w2.mempool == w.mempool + [posted.added.value])
    ensures q.verb != "POST" || RoutePost(q.path).NotFound? ==> ProcessRequest(w, q, posted).1 == w
    ensures Linked(w) ==> Linked(ProcessRequest(w, q, posted).1)
  {
    if q.verb == "POST" {
      PostEffect(w, RoutePost(q.path), posted);
      if Linked(w) {
        PostKeepsLinked(w, RoutePost(q.path), posted);
      }
    }
  }
}

=== FILE: text.dfy ===
/**
  Character and string primitives of the C++ standard library that the
  ledger's code relies on: `std::string::find`, the `find_first_not_of` /
  `find_last_not_of` trimming idiom, `std::to_string`, `std::string`'s `<`,
  and the "C"-locale `isspace`, `isdigit` and `tolower`.
  Characters stand for the source's `char`; only code points below 256 occur
  in practice, so comparing code points is comparing `unsigned char`s.
*/
module Text {
  import opened Wrappers

  /** An unsigned 8-bit value (`uint8_t`, `unsigned char`). */
  type byte = x: int | 0 <= x < 256

  /** `static_cast<uint8_t>` of a character. */
  function ByteOf(c: char): byte {
    (c as int) % 256
  }

  /** The bytes of a string, one per character, as `for (char c : s) v.push_back(c)` builds them. */
  function BytesOf(s: string): (r: seq<byte>)
    ensures |r| == |s|
    ensures forall i :: 0 <= i < |s| ==> r[i] == ByteOf(s[i])
  {
    seq(|s|, i requires 0 <= i < |s| => ByteOf(s[i]))
  }

  /** `std::isspace` in the "C" locale: space, \t, \n, \v, \f, \r. */
  predicate IsSpace(c: char) {
    c == ' ' || c == '\t' || c == '\n' || c == '\U{000B}' || c == '\U{000C}' || c == '\r'
  }

  /** `std::isdigit`. */
  predicate IsDigit(c: char) {
    '0' <= c <= '9'
  }

  /** `::tolower` in the "C" locale: only 'A'..'Z' change. */
  function ToLower(c: char): (r: char)
    ensures 'A' <= c <= 'Z' ==> 'a' <= r <= 'z' && r as int == c as int + 32
    ensures !('A' <= c <= 'Z') ==> r == c
  {
    if 'A' <= c <= 'Z' then (c as int + 32) as char else c
  }

  /** `std::transform(s.begin(), s.end(), s.begin(), ::tolower)`. */
  function LowerString(s: string): (r: string)
    ensures |r| == |s|
    ensures forall i :: 0 <= i < |s| ==> r[i] == ToLower(s[i])
  {
    seq(|s|, i requires 0 <= i < |s| => ToLower(s[i]))
  }

  // ---------------------------------------------------------------------------
  // std::string::find
  // ---------------------------------------------------------------------------

  /** `needle` occurs in `s` starting at index `i`. */
  predicate MatchesAt(s: string, needle: string, i: int) {
    0 <= i && i + |needle| <= |s| && s[i..i + |needle|] == needle
  }

  /**
    `s.find(needle, from)`: the first index at or after `from` where `needle`
    occurs; `None` plays `std::string::npos`.
  */
  function Find(s: string, needle: string, from: nat): (r: Option<nat>)
    ensures r.Some? ==> from <= r.value && MatchesAt(s, needle, r.value)
    ensures r.Some? ==> forall j :: from <= j < r.value ==> !MatchesAt(s, needle, j)
    ensures r.None? ==> forall j :: from <= j ==> !MatchesAt(s, needle, j)
    decreases |s| - from
  {
    if from + |needle| > |s| then None
    else if s[from..from + |needle|] == needle then Some(from)
    else Find(s, needle, from + 1)
  }

  /** `s.find(needle) != npos`. */
  predicate Contains(s: string, needle: string) {
    Find(s, needle, 0).Some?
  }

  /** The first match after `from` is at `i` when `needle` occurs there and nowhere in between. */
  lemma FindIs(s: string, needle: string, from: nat, i: nat)
    requires from <= i && MatchesAt(s, needle, i)
    requires forall j :: from <= j < i ==> !MatchesAt(s, needle, j)
    ensures Find(s, needle, from) == Some(i)
  {
  }

  /** Splitting at any index and joining again gives the string back. */
  lemma SplitJoin(s: string, x: nat)
    requires x <= |s|
    ensures s[..x] + s[x..] == s
  {
  }

  /** The first match within a prefix that contains it whole is the first match overall. */
  lemma FindInLonger(s: string, needle: string, from: nat, p: nat, x: nat)
    requires p + |needle| <= x <= |s|
    requires Find(s[..x], needle, from) == Some(p)
    ensures Find(s, needle, from) == Some(p)
  {
    SplitJoin(s, x);
    FindInPrefix(s[..x], s[x..], needle, from, p);
  }

  /** Text appended after the first match does not move it. */
  lemma FindInPrefix(s: string, ext: string, needle: string, from: nat, p: nat)
    requires Find(s, needle, from) == Some(p) && p + |needle| <= |s|
    ensures Find(s + ext, needle, from) == Some(p)
  {
    var t := s + ext;
    assert t[p..p + |needle|] == s[p..p + |needle|];
    forall j | from <= j < p
      ensures !MatchesAt(t, needle, j)
    {
      assert !MatchesAt(s, needle, j);
      assert j + |needle| <= |s|;
      assert t[j..j + |needle|] == s[j..j + |needle|];
    }
    FindIs(t, needle, from, p);
  }

  /** Facts about a suffix, read back at their positions in the whole. */
  lemma SliceOfSuffix(s: string, st: nat, rest: string)
    requires st <= |s| && s[st..] == rest
    ensures forall i, j :: 0 <= i <= j <= |rest| ==> s[st + i..st + j] == rest[i..j]
    ensures forall i :: 0 <= i < |rest| ==> s[st + i] == rest[i]
  {
    forall i | 0 <= i < |rest|
      ensures s[st + i] == rest[i]
    {
      assert rest[i] == s[st..][i];
    }
    forall i, j | 0 <= i <= j <= |rest|
      ensures s[st + i..st + j] == rest[i..j]
    {
      var a := s[st + i..st + j];
      var b := rest[i..j];
      forall k | 0 <= k < |a|
        ensures a[k] == b[k]
      {
        assert a[k] == s[st + i + k] && b[k] == rest[i + k];
      }
    }
  }

  /** A search from `from` is a search from 0 in the suffix that starts there, shifted. */
  lemma FindFrom(s: string, needle: string, from: nat, p: nat)
    requires from <= |s| && Find(s[from..], needle, 0) == Some(p)
    ensures Find(s, needle, from) == Some(from + p)
  {
    var t := s[from..];
    forall j | 0 <= j
      ensures MatchesAt(s, needle, from + j) <==> MatchesAt(t, needle, j)
    {
      if from + j + |needle| <= |s| {
        assert s[from + j..from + j + |needle|] == t[j..j + |needle|];
      }
    }
    assert MatchesAt(t, needle, p);
    forall j | from <= j < from + p
      ensures !MatchesAt(s, needle, j)
    {
      assert !MatchesAt(t, needle, j - from);
    }
    FindIs(s, needle, from, from + p);
  }

  /** A stretch with no match in front of the first match from `mid` does not change the result. */
  lemma FindSkip(s: string, needle: string, from: nat, mid: nat, p: nat)
    requires from <= mid && Find(s, needle, mid) == Some(p)
    requires forall j :: from <= j < mid ==> !MatchesAt(s, needle, j)
    ensures Find(s, needle, from) == Some(p)
  {
    FindIs(s, needle, from, p);
  }

  /** A search from `lo` skips a stretch up to `hi` that lacks the needle's first character. */
  lemma {:induction false} FindAcrossGap(s: string, needle: string, lo: nat, hi: nat, p: nat)
    requires lo <= hi && |needle| > 0
    requires forall k :: lo <= k < hi && k < |s| ==> s[k] != needle[0]
    requires Find(s, needle, hi) == Some(p)
    ensures Find(s, needle, lo) == Some(p)
    decreases hi - lo
  {
    if lo < hi {
      FindAcrossGap(s, needle, lo + 1, hi, p);
      if lo + |needle| <= |s| {
        assert s[lo..lo + |needle|][0] == s[lo];
      }
    }
  }

  /** A non-empty needle cannot start where its first character does not occur. */
  lemma NoMatchWithoutHead(s: string, needle: string, lo: nat, hi: nat)
    requires |needle| > 0
    requires forall k :: lo <= k < hi && k < |s| ==> s[k] != needle[0]
    ensures forall j :: lo <= j < hi ==> !MatchesAt(s, needle, j)
  {
    forall j | lo <= j < hi
      ensures !MatchesAt(s, needle, j)
    {
      if j + |needle| <= |s| {
        assert s[j..j + |needle|][0] == s[j];
      }
    }
  }

  /** `s.find(p) == 0`: the form the source uses for "starts with". */
  predicate StartsWith(s: string, p: string) {
    |p| <= |s| && s[..|p|] == p
  }

  /** `find(p) == 0` holds exactly when `s` starts with `p`. */
  lemma FindZeroIsPrefix(s: string, p: string)
    ensures Find(s, p, 0) == Some(0) <==> StartsWith(s, p)
  {
    if StartsWith(s, p) {
      FindIs(s, p, 0, 0);
    }
  }

  /** A one-character needle matches exactly where that character stands. */
  lemma MatchesAtChar(s: string, c: char, i: int)
    ensures MatchesAt(s, [c], i) <==> 0 <= i < |s| && s[i] == c
  {
    if 0 <= i < |s| {
      assert s[i..i + 1] == [s[i]];
    }
  }

  /** `s.find(c, from)` for a character: its first position at or after `from`. */
  lemma FindCharIs(s: string, c: char, from: nat)
    ensures Find(s, [c], from).Some? ==>
      && Find(s, [c], from).value < |s|
      && s[Find(s, [c], from).value] == c
      && forall k :: from <= k < Find(s, [c], from).value ==> s[k] != c
    ensures Find(s, [c], from).None? ==> forall k :: from <= k < |s| ==> s[k] != c
  {
    forall k | 0 <= k < |s|
      ensures MatchesAt(s, [c], k) <==> s[k] == c
    {
      MatchesAtChar(s, c, k);
    }
  }

  /** The first position of a character, stated the other way round. */
  lemma FindCharAt(s: string, c: char, from: nat, p: nat)
    requires from <= p < |s| && s[p] == c
    requires forall k :: from <= k < p ==> s[k] != c
    ensures Find(s, [c], from) == Some(p)
  {
    FindCharIs(s, c, from);
  }

  /** The first `c` of `a + [c] + b` is right after `a` when `a` has none. */
  lemma FirstCharAfter(a: string, c: char, b: string, l: string)
    requires c !in a && l == a + [c] + b
    ensures Find(l, [c], 0) == Some(|a|)
    ensures l[..|a|] == a && l[|a| + 1..] == b
  {
    assert forall k :: 0 <= k < |a| ==> l[k] == a[k];
    FindCharAt(l, c, 0, |a|);
  }

  // ---------------------------------------------------------------------------
  // Strings laid end to end
  // ---------------------------------------------------------------------------

  /** The pieces joined in order. */
  function Concat(ps: seq<string>): (r: string)
    decreases |ps|
  {
    if ps == [] then "" else ps[0] + Concat(ps[1..])
  }

  /** Where piece `k` starts in `Concat(ps)`. */
  function Offset(ps: seq<string>, k: nat): nat
    requires k <= |ps|
  {
    if k == 0 then 0 else Offset(ps, k - 1) + |ps[k - 1]|
  }

  /** Joining two lists of pieces joins their concatenations. */
  lemma {:induction false} ConcatAppend(a: seq<string>, b: seq<string>)
    ensures Concat(a + b) == Concat(a) + Concat(b)
    decreases |a|
  {
    if a == [] {
      assert a + b == b;
    } else {
      assert (a + b)[1..] == a[1..] + b;
      ConcatAppend(a[1..], b);
    }
  }

  /** The start of piece `k` is the length of the pieces before it. */
  lemma {:induction false} OffsetIsLength(ps: seq<string>, k: nat)
    requires k <= |ps|
    ensures Offset(ps, k) == |Concat(ps[..k])|
  {
    if k > 0 {
      OffsetIsLength(ps, k - 1);
      assert ps[..k] == ps[..k - 1] + [ps[k - 1]];
      ConcatAppend(ps[..k - 1], [ps[k - 1]]);
      assert Concat([ps[k - 1]]) == ps[k - 1] + Concat([]);
    }
  }

  /** Piece `k` sits between its offset and the next. */
  lemma PieceAt(ps: seq<string>, k: nat)
    requires k < |ps|
    ensures Offset(ps, k) + |ps[k]| == Offset(ps, k + 1) <= |Concat(ps)|
    ensures Concat(ps)[Offset(ps, k)..Offset(ps, k + 1)] == ps[k]
  {
    var before := Concat(ps[..k]);
    var after := Concat(ps[k + 1..]);
    assert ps == ps[..k] + ps[k..];
    ConcatAppend(ps[..k], ps[k..]);
    assert Concat(ps[k..]) == ps[k] + after by {
      assert ps[k..][1..] == ps[k + 1..];
    }
    OffsetIsLength(ps, k);
    SuffixSplit(Concat(ps), |before|, ps[k], after);
  }

  /** Reading a suffix `x + t` at `a`: `x` sits at `a`, `t` follows it. */
  lemma SuffixSplit(s: string, a: nat, x: string, t: string)
    requires a <= |s| && s[a..] == x + t
    ensures a + |x| <= |s| && s[a..a + |x|] == x && s[a + |x|..] == t
  {
    assert s[a..a + |x|] == s[a..][..|x|];
    assert s[a + |x|..] == s[a..][|x|..];
  }

  // ---------------------------------------------------------------------------
  // Trimming with find_first_not_of / find_last_not_of
  // ---------------------------------------------------------------------------

  /** `s.find_first_not_of(chars)`. */
  function FindFirstNotOf(s: string, chars: string): (r: Option<nat>)
    ensures r.Some? ==> r.value < |s| && s[r.value] !in chars
    ensures r.Some? ==> forall k :: 0 <= k < r.value ==> s[k] in chars
    ensures r.None? ==> forall k :: 0 <= k < |s| ==> s[k] in chars
  {
    if s == [] then None
    else if s[0] !in chars then Some(0)
    else match FindFirstNotOf(s[1..], chars)
      case None => None
      case Some(i) => Some(i + 1)
  }

  /** `s.find_last_not_of(chars)`. */
  function FindLastNotOf(s: string, chars: string): (r: Option<nat>)
    ensures r.Some? ==> r.value < |s| && s[r.value] !in chars
    ensures r.Some? ==> forall k :: r.value < k < |s| ==> s[k] in chars
    ensures r.None? ==> forall k :: 0 <= k < |s| ==> s[k] in chars
  {
    if s == [] then None
    else if s[|s| - 1] !in chars then Some(|s| - 1)
    else FindLastNotOf(s[..|s| - 1], chars)
  }

  /**
    `s.erase(0, s.find_first_not_of(chars))`; with `npos` the whole string
    is erased.
  */
  function TrimLeft(s: string, chars: string): (r: string)
    ensures |r| <= |s| && r == s[|s| - |r|..]
    ensures forall k :: 0 <= k < |s| - |r| ==> s[k] in chars
    ensures r == [] || r[0] !in chars
  {
    match FindFirstNotOf(s, chars)
    case None => []
    case Some(i) => s[i..]
  }

  /**
    `s.erase(s.find_last_not_of(chars) + 1)`; `npos + 1` wraps to 0 in
    `size_t`, so an all-blank string becomes empty.
  */
  function TrimRight(s: string, chars: string): (r: string)
    ensures |r| <= |s| && r == s[..|r|]
    ensures forall k :: |r| <= k < |s| ==> s[k] in chars
    ensures r == [] || r[|r| - 1] !in chars
  {
    match FindLastNotOf(s, chars)
    case None => []
    case Some(i) => s[..i + 1]
  }

  /** Leading then trailing trim, the two-line idiom used for config lines and headers. */
  function Trim(s: string, chars: string): (r: string)
    ensures r == [] || (r[0] !in chars && r[|r| - 1] !in chars)
  {
    TrimRight(TrimLeft(s, chars), chars)
  }

  /** Where the trimmed string sits in the original: everything outside is in `chars`. */
  lemma TrimBounds(s: string, chars: string) returns (i: nat, j: nat)
    ensures i <= j <= |s|
    ensures Trim(s, chars) == s[i..j]
    ensures forall k :: 0 <= k < i ==> s[k] in chars
    ensures forall k :: j <= k < |s| ==> s[k] in chars
  {
    var l := TrimLeft(s, chars);
    i := |s| - |l|;
    var r := TrimRight(l, chars);
    j := i + |r|;
    PrefixOfSuffix(s, i, l, r);
  }

  /** A prefix of a suffix is a slice. */
  lemma PrefixOfSuffix(s: string, i: nat, l: string, r: string)
    requires i <= |s| && l == s[i..] && |r| <= |l| && r == l[..|r|]
    ensures r == s[i..i + |r|]
    ensures forall k :: i + |r| <= k < |s| ==> s[k] == l[k - i]
  {
  }

  /** Trimming only removes characters of `chars` from the two ends. */
  lemma TrimIsInfix(s: string, chars: string)
    ensures exists i, j ::
      && 0 <= i <= j <= |s|
      && Trim(s, chars) == s[i..j]
      && (forall k :: 0 <= k < i ==> s[k] in chars)
      && (forall k :: j <= k < |s| ==> s[k] in chars)
  {
    var i, j := TrimBounds(s, chars);
  }

  /** Cutting off ends made of `chars` keeps every other character. */
  lemma InInfix(s: string, i: nat, j: nat, chars: string, c: char)
    requires i <= j <= |s| && c !in chars
    requires forall k :: 0 <= k < i ==> s[k] in chars
    requires forall k :: j <= k < |s| ==> s[k] in chars
    ensures c in s[i..j] <==> c in s
  {
    if c in s {
      var k :| 0 <= k < |s| && s[k] == c;
      assert s[i..j][k - i] == c;
    }
  }

  /** Trimming never removes a character that is not in `chars`. */
  lemma TrimKeepsOthers(s: string, chars: string, c: char)
    requires c !in chars
    ensures c in Trim(s, chars) <==> c in s
  {
    var i, j := TrimBounds(s, chars);
    InInfix(s, i, j, chars, c);
  }

  /** Trimming leaves nothing exactly when every character is one of `chars`. */
  lemma TrimEmptyIff(s: string, chars: string)
    ensures Trim(s, chars) == [] <==> forall k :: 0 <= k < |s| ==> s[k] in chars
  {
    var i, j := TrimBounds(s, chars);
    if Trim(s, chars) == [] {
      assert i == j;
    }
  }

  /** A leading run of `chars` followed by a character not in `chars` is exactly what `TrimLeft` drops. */
  lemma TrimLeftOf(pre: string, rest: string, chars: string)
    requires forall k :: 0 <= k < |pre| ==> pre[k] in chars
    requires rest == [] || rest[0] !in chars
    ensures TrimLeft(pre + rest, chars) == rest
  {
    var s := pre + rest;
    assert forall k :: 0 <= k < |pre| ==> s[k] == pre[k];
    if rest != [] {
      assert s[|pre|] == rest[0];
    }
    assert s[|pre|..] == rest;
  }

  /** A trailing run of `chars` after a character not in `chars` is exactly what `TrimRight` drops. */
  lemma TrimRightOf(body: string, post: string, chars: string)
    requires forall k :: 0 <= k < |post| ==> post[k] in chars
    requires body == [] || body[|body| - 1] !in chars
    ensures TrimRight(body + post, chars) == body
  {
    var s := body + post;
    assert forall k :: |body| <= k < |s| ==> s[k] == post[k - |body|];
    if body != [] {
      assert s[|body| - 1] == body[|body| - 1];
    }
    assert s[..|body|] == body;
  }

  // ---------------------------------------------------------------------------
  // std::to_string and its inverse
  // ---------------------------------------------------------------------------

  function DigitChar(d: int): char
    requires 0 <= d < 10
  {
    ('0' as int + d) as char
  }

  /** Decimal digits of a natural number, most significant first, no leading zero. */
  function NatDecimal(n: nat): (r: string)
    ensures |r| >= 1
    ensures forall i :: 0 <= i < |r| ==> IsDigit(r[i])
    ensures |r| > 1 ==> r[0] != '0'
    decreases n
  {
    if n < 10 then [DigitChar(n)] else NatDecimal(n / 10) + [DigitChar(n % 10)]
  }

  /** `std::to_string` of a signed integer: a '-' sign for negatives, then the digits. */
  function Decimal(n: int): (r: string)
    ensures |r| >= 1
    ensures n >= 0 ==> forall i :: 0 <= i < |r| ==> IsDigit(r[i])
    ensures n < 0 ==> r[0] == '-' && forall i :: 1 <= i < |r| ==> IsDigit(r[i])
  {
    if n < 0 then "-" + NatDecimal(-n) else NatDecimal(n)
  }

  /** The value of a run of decimal digits. */
  function DigitsValue(s: string): nat
    requires forall i :: 0 <= i < |s| ==> IsDigit(s[i])
  {
    if s == [] then 0
    else
      assert IsDigit(s[|s| - 1]);
      DigitsValue(s[..|s| - 1]) * 10 + (s[|s| - 1] as int - '0' as int)
  }

  /** Reading the digits back recovers the number. */
  lemma {:induction false} NatDecimalRoundTrip(n: nat)
    ensures DigitsValue(NatDecimal(n)) == n
    decreases n
  {
    if n >= 10 {
      NatDecimalRoundTrip(n / 10);
      var r := NatDecimal(n);
      assert r[..|r| - 1] == NatDecimal(n / 10);
    }
  }

  /** Distinct integers render to distinct strings. */
  lemma DecimalInjective(a: int, b: int)
    requires Decimal(a) == Decimal(b)
    ensures a == b
  {
    if a < 0 && b < 0 {
      NegativeDecimal(a);
      NegativeDecimal(b);
    } else if a >= 0 && b >= 0 {
      NatDecimalRoundTrip(a);
      NatDecimalRoundTrip(b);
    }
  }

  /** The digits after the sign of a negative rendering read back as the magnitude. */
  lemma NegativeDecimal(a: int)
    requires a < 0
    ensures DigitsValue(Decimal(a)[1..]) == -a
  {
    var d := NatDecimal(-a);
    DropHead('-', d, Decimal(a));
    NatDecimalRoundTrip(-a);
  }

  lemma DropHead(c: char, s: string, t: string)
    requires t == [c] + s
    ensures t[1..] == s
  {
  }

  // ---------------------------------------------------------------------------
  // std::string operator<
  // ---------------------------------------------------------------------------

  /** Lexicographic comparison: first differing character decides, a proper prefix is smaller. */
  predicate LexLess(a: string, b: string)
    decreases |a|
  {
    if |a| == 0 then |b| > 0
    else if |b| == 0 then false
    else if a[0] != b[0] then a[0] < b[0]
    else LexLess(a[1..], b[1..])
  }

  lemma {:induction false} LexLessIrreflexive(a: string)
    ensures !LexLess(a, a)
    decreases |a|
  {
    if |a| > 0 {
      LexLessIrreflexive(a[1..]);
    }
  }

  lemma {:induction false} LexLessTransitive(a: string, b: string, c: string)
    requires LexLess(a, b) && LexLess(b, c)
    ensures LexLess(a, c)
    decreases |a|
  {
    if |a| > 0 && |b| > 0 && |c| > 0 && a[0] == b[0] && b[0] == c[0] {
      LexLessTransitive(a[1..], b[1..], c[1..]);
    }
  }

  lemma {:induction false} LexLessTotal(a: string, b: string)
    requires a != b
    ensures LexLess(a, b) || LexLess(b, a)
    decreases |a|
  {
    if |a| > 0 && |b| > 0 && a[0] == b[0] {
      assert a == [a[0]] + a[1..];
      assert b == [b[0]] + b[1..];
      LexLessTotal(a[1..], b[1..]);
    }
  }

  lemma {:induction false} LexLessAsymmetric(a: string, b: string)
    requires LexLess(a, b)
    ensures !LexLess(b, a)
    decreases |a|
  {
    if |a| > 0 && |b| > 0 && a[0] == b[0] {
      LexLessAsymmetric(a[1..], b[1..]);
    }
  }
}

=== FILE: transaction.dfy ===
/**
  `CTransaction`: an immutable data-storage record whose id is the content
  hash of its owner, target and creation time. The clock reading
  (`system_clock::now().time_since_epoch().count()`) is the parameter `now`.
*/
module Transactions {
  import opened Text
  import opened ContentHash

  /** `uint64_t`. */
  type u64 = x: int | 0 <= x < 0x1_0000_0000_0000_0000

  /** `int64_t`. */
  type i64 = x: int | -0x8000_0000_0000_0000 <= x < 0x8000_0000_0000_0000

  datatype Tx = Tx(
    id: Hash,
    owner: string,
    target: string,
    data: seq<byte>,
    dataSize: nat,
    reward: u64,
    timestamp: i64)

  /** The string whose hash is a transaction's id. */
  function IdPreimage(owner: string, target: string, timestamp: i64): string {
    owner + target + Decimal(timestamp)
  }

  /**
    The constructor. It accepts every input, empty owner, target and data
    included; the id covers owner, target and time but not the payload.
  */
  function NewTx(sha: Sha256, owner: string, target: string, data: seq<byte>, reward: u64, now: i64): (tx: Tx)
    ensures tx.owner == owner && tx.target == target && tx.data == data
    ensures tx.reward == reward && tx.timestamp == now
    ensures tx.dataSize == |data|
    ensures IsHashString(tx.id.data)
    ensures UnHex(tx.id.data) == sha(IdPreimage(owner, target, now))
  {
    Tx(Of(sha, IdPreimage(owner, target, now)), owner, target, data, |data|, reward, now)
  }

  /** The id does not depend on the payload or the reward. */
  lemma IdIgnoresPayload(sha: Sha256, owner: string, target: string, d1: seq<byte>, d2: seq<byte>, r1: u64, r2: u64, now: i64)
    ensures NewTx(sha, owner, target, d1, r1, now).id == NewTx(sha, owner, target, d2, r2, now).id
  {
  }

  /**
    Two transactions share an id exactly when SHA-256 agrees on their
    owner-target-time strings; with a collision-free hash that means equal
    strings.
  */
  lemma IdEqualIff(sha: Sha256, o1: string, t1: string, d1: seq<byte>, r1: u64, n1: i64,
                   o2: string, t2: string, d2: seq<byte>, r2: u64, n2: i64)
    ensures NewTx(sha, o1, t1, d1, r1, n1).id == NewTx(sha, o2, t2, d2, r2, n2).id
        <==> sha(IdPreimage(o1, t1, n1)) == sha(IdPreimage(o2, t2, n2))
  {
    OfEqualIffDigestsEqual(sha, IdPreimage(o1, t1, n1), IdPreimage(o2, t2, n2));
  }
}

=== FILE: uuid.dfy ===
/**
  `GenerateUUID`: a version-4 UUID string in the layout of section 5.4 of
  RFC 9562, written with `std::hex` (lowercase) from 31 random draws. The
  random device is not modelled: the draws are a parameter, the sixteenth
  from `dis2` (8..11), every other one from `dis` (0..15).
*/
module Uuid {
  import opened ContentHash

  /** Number of draws one identifier consumes. */
  const DrawCount: nat := 31

  /** Index of the draw that picks the variant nibble. */
  const VariantDraw: nat := 15

  /** Length of the text form. */
  const UuidLength: nat := 36

  /** Draws the two uniform distributions can produce, in call order. */
  predicate ValidDraws(draws: seq<int>) {
    |draws| == DrawCount
    && forall i :: 0 <= i < |draws| ==>
         if i == VariantDraw then 8 <= draws[i] <= 11 else 0 <= draws[i] < 16
  }

  /** `ss << std::hex << d` for each draw. */
  function Digits(ds: seq<int>): (r: string)
    requires forall i :: 0 <= i < |ds| ==> 0 <= ds[i] < 16
    ensures |r| == |ds|
    ensures forall i :: 0 <= i < |ds| ==> r[i] == HexDigit(ds[i])
  {
    seq(|ds|, i requires 0 <= i < |ds| => HexDigit(ds[i]))
  }

  /** Where the `k`-th draw is written. */
  function Position(k: nat): (p: nat)
    requires k < DrawCount
    ensures p < UuidLength
  {
    if k < 8 then k
    else if k < 12 then k + 1
    else if k < 15 then k + 3
    else if k < 19 then k + 4
    else k + 5
  }

  /** The variant nibble: one of `8`, `9`, `a`, `b`. */
  predicate IsVariantDigit(c: char) {
    '8' <= c <= '9' || 'a' <= c <= 'b'
  }

  /**
    The shape of the output: 36 characters, '-' at 8, 13, 18 and 23, the
    version digit '4' at 14, a variant digit at 19, lowercase hexadecimal
    digits elsewhere.
  */
  predicate IsUuidV4(u: string) {
    && |u| == UuidLength
    && u[8] == '-' && u[13] == '-' && u[18] == '-' && u[23] == '-'
    && u[14] == '4'
    && IsVariantDigit(u[19])
    && forall i :: 0 <= i < |u| && i != 8 && i != 13 && i != 18 && i != 23 && i != 14 ==> IsHexDigit(u[i])
  }

  /** `GenerateUUID`, with the random draws given. */
  function GenerateUuid(draws: seq<int>): (u: string)
    requires ValidDraws(draws)
    ensures |u| == UuidLength
    ensures forall k :: 0 <= k < DrawCount ==> u[Position(k)] == HexDigit(draws[k])
    ensures IsUuidV4(u)
  {
    var u := Digits(draws[..8]) + "-" + Digits(draws[8..12]) + "-4" + Digits(draws[12..15])
      + "-" + Digits(draws[15..19]) + "-" + Digits(draws[19..]);
    Positions(draws, u);
    Shape(draws, u);
    u
  }

  /** Each draw's digit lands at its position in the concatenation. */
  lemma Positions(draws: seq<int>, u: string)
    requires ValidDraws(draws)
    requires u == Digits(draws[..8]) + "-" + Digits(draws[8..12]) + "-4" + Digits(draws[12..15])
      + "-" + Digits(draws[15..19]) + "-" + Digits(draws[19..])
    ensures |u| == UuidLength
    ensures forall k :: 0 <= k < DrawCount ==> u[Position(k)] == HexDigit(draws[k])
    ensures u[8] == '-' && u[13] == '-' && u[18] == '-' && u[23] == '-' && u[14] == '4'
  {
    forall k | 0 <= k < DrawCount
      ensures u[Position(k)] == HexDigit(draws[k])
    {
      if k < 8 {
        assert draws[..8][k] == draws[k];
      } else if k < 12 {
        assert draws[8..12][k - 8] == draws[k];
      } else if k < 15 {
        assert draws[12..15][k - 12] == draws[k];
      } else if k < 19 {
        assert draws[15..19][k - 15] == draws[k];
      } else {
        assert draws[19..][k - 19] == draws[k];
      }
    }
  }

  /** The fixed characters plus a digit of each draw in its place make the version-4 shape. */
  lemma Shape(draws: seq<int>, u: string)
    requires ValidDraws(draws) && |u| == UuidLength
    requires forall k :: 0 <= k < DrawCount ==> u[Position(k)] == HexDigit(draws[k])
    requires u[8] == '-' && u[13] == '-' && u[18] == '-' && u[23] == '-' && u[14] == '4'
    ensures IsUuidV4(u)
  {
    assert u[19] == HexDigit(draws[15]) by {
      assert Position(15) == 19;
    }
    forall i | 0 <= i < |u| && i != 8 && i != 13 && i != 18 && i != 23 && i != 14
      ensures IsHexDigit(u[i])
    {
      var k := DrawAt(i);
      assert u[Position(k)] == HexDigit(draws[k]);
    }
  }

  /** The draw written at position `i`, for every position that holds one. */
  function DrawAt(i: nat): (k: nat)
    requires i < UuidLength && i != 8 && i != 13 && i != 18 && i != 23 && i != 14
    ensures k < DrawCount && Position(k) == i
  {
    if i < 8 then i
    else if i < 13 then i - 1
    else if i < 18 then i - 3
    else if i < 23 then i - 4
    else i - 5
  }

  /** Reads the draws back from an identifier of the right shape. */
  function ParseUuid(u: string): (draws: seq<int>)
    requires IsUuidV4(u)
    ensures |draws| == DrawCount
  {
    seq(DrawCount, k requires 0 <= k < DrawCount => HexValue(u[Position(k)]))
  }

  /** Reading back the output of the generator gives its draws. */
  lemma ParseGenerated(draws: seq<int>)
    requires ValidDraws(draws)
    ensures ParseUuid(GenerateUuid(draws)) == draws
  {
    var u := GenerateUuid(draws);
    var d := ParseUuid(u);
    forall k | 0 <= k < DrawCount
      ensures d[k] == draws[k]
    {
      HexValueOfDigit(draws[k]);
    }
  }

  /** Every string of the version-4 shape is produced by exactly the draws read back from it. */
  lemma GenerateParsed(u: string)
    requires IsUuidV4(u)
    ensures ValidDraws(ParseUuid(u))
    ensures GenerateUuid(ParseUuid(u)) == u
  {
    var d := ParseUuid(u);
    forall k | 0 <= k < DrawCount
      ensures if k == VariantDraw then 8 <= d[k] <= 11 else 0 <= d[k] < 16
    {
      if k == VariantDraw {
        assert Position(k) == 19;
      } else {
        assert IsHexDigit(u[Position(k)]);
      }
    }
    var g := GenerateUuid(d);
    forall i | 0 <= i < UuidLength
      ensures g[i] == u[i]
    {
      if i != 8 && i != 13 && i != 18 && i != 23 && i != 14 {
        var k := DrawAt(i);
        assert g[Position(k)] == HexDigit(d[k]);
      }
    }
  }
}

=== FILE: weave.dfy ===
/**
  `CBlockweave`: genesis, a hash-indexed block store, the append-only list of
  block hashes in mining order, the tip, a FIFO mempool and the two mining
  control flags. Every public operation is one atomic transition of a `Weave`
  value (the source holds `cs_blockweave` for the whole call).
  The clock, the random recall index and the random nonce draws are
  parameters; SHA-256 is the parameter `sha`.
*/
module Blockweave {
  import opened Wrappers
  import opened Text
  import opened ContentHash
  import opened Transactions
  import opened Blocks

  /** Most transactions one block takes from the mempool. */
  const MaxTxsPerBlock: nat := 10

  /** Miner name of the genesis block. */
  const GenesisMiner: string := "genesis"

  datatype Weave = Weave(
    store: map<string, Block>,
    history: seq<Hash>,
    genesis: Block,
    tip: Block,
    mempool: seq<Tx>,
    miningEnabled: bool,
    stopRequested: bool)

  /** The strings of the hashes in `history`. */
  function Keys(history: seq<Hash>): set<string> {
    set i | 0 <= i < |history| :: history[i].data
  }

  lemma KeysAppend(history: seq<Hash>, h: Hash)
    ensures Keys(history + [h]) == Keys(history) + {h.data}
  {
    var l := history + [h];
    forall k | k in Keys(history)
      ensures k in Keys(l)
    {
      var i :| 0 <= i < |history| && history[i].data == k;
      assert l[i] == history[i];
    }
    assert l[|history|] == h;
  }

  predicate IsGenesis(g: Block) {
    g.height == 0 && g.previous == Zero() && g.txs == [] && g.miner == GenesisMiner
  }

  /**
    The invariants every operation keeps, whatever SHA-256 returns: store
    keys and history agree, history starts at genesis, the tip is the last
    block mined and its height counts the blocks after genesis, and every
    stored block's size field is the size of its own transactions.
  */
  predicate Valid(w: Weave) {
    && |w.history| >= 1
    && w.history[0] == w.genesis.hash
    && w.store.Keys == Keys(w.history)
    && w.tip.hash == w.history[|w.history| - 1]
    && w.tip.hash.data in w.store
    && w.store[w.tip.hash.data] == w.tip
    && w.tip.height == |w.history| - 1
    && IsGenesis(w.genesis)
    && (forall k :: k in w.store ==> SizeConsistent(w.store[k]))
  }

  /**
    The chain-shaped invariant, which also needs every mined hash to be new
    (SHA-256 collision freedom): history has no repeats, the block stored
    under `history[i]` carries that hash and height `i`, and each block
    names its predecessor in history as `previous`.
  */
  predicate Linked(w: Weave) {
    && Valid(w)
    && w.genesis.hash.data in w.store
    && w.store[w.genesis.hash.data] == w.genesis
    && (forall i :: 0 <= i < |w.history| ==>
          w.store[w.history[i].data].hash == w.history[i] && w.store[w.history[i].data].height == i)
    && (forall i :: 0 < i < |w.history| ==> w.store[w.history[i].data].previous == w.history[i - 1])
    && (forall i, j :: 0 <= i < j < |w.history| ==> w.history[i] != w.history[j])
  }

  /** The genesis block before mining. */
  function GenesisTemplate(now: i64): Block {
    NewBlock(Zero(), 0, GenesisMiner, now)
  }

  /** The constructor: mine the genesis block and make it the whole weave. */
  function Init(sha: Sha256, now: i64, draws: seq<int>): (w: Weave)
    requires ValidDraws(draws) && Finishes(GenesisTemplate(now), sha, draws)
    ensures w.history == [w.genesis.hash]
    ensures w.store == map[w.genesis.hash.data := w.genesis]
    ensures w.tip == w.genesis
    ensures IsGenesis(w.genesis) && w.genesis.recall == Zero() && Accepts(w.genesis.hash)
    ensures w.mempool == [] && !w.miningEnabled && !w.stopRequested
    ensures Linked(w)
  {
    var g := Mine(GenesisTemplate(now), sha, draws);
    Weave(map[g.hash.data := g], [g.hash], g, g, [], false, false)
  }

  /**
    `SelectRecallBlock`: the genesis hash up to height 1, otherwise the
    history entry at the random index `idx` (`uniform_int_distribution(0, size - 1)`).
  */
  function SelectRecall(w: Weave, height: int, idx: nat): (r: Hash)
    requires idx < |w.history|
    ensures height <= 1 ==> r == w.genesis.hash
    ensures height > 1 ==> r in w.history
  {
    if height <= 1 then w.genesis.hash else w.history[idx]
  }

  /** Under the invariant every recall choice names a block already in the weave. */
  lemma RecallIsStored(w: Weave, height: int, idx: nat)
    requires Valid(w) && idx < |w.history|
    ensures SelectRecall(w, height, idx) in w.history
    ensures SelectRecall(w, height, idx).data in w.store
  {
    var r := SelectRecall(w, height, idx);
    if height <= 1 {
      assert r == w.history[0];
    } else {
      assert r == w.history[idx];
    }
  }

  /** `AddTransaction`: the transaction joins the mempool tail. */
  function AddTransaction(w: Weave, tx: Tx): (r: Weave)
    ensures r.mempool == w.mempool + [tx]
    ensures r.(mempool := w.mempool) == w
  {
    w.(mempool := w.mempool + [tx])
  }

  /** `min(mempool.size(), 10)`. */
  function Drained(w: Weave): (n: nat)
    ensures n <= |w.mempool| && n <= MaxTxsPerBlock
    ensures n == |w.mempool| || n == MaxTxsPerBlock
  {
    if |w.mempool| < MaxTxsPerBlock then |w.mempool| else MaxTxsPerBlock
  }

  /** The new block as `MineBlock` builds it, before the proof of work. */
  function Assemble(w: Weave, miner: string, now: i64, idx: nat): (b: Block)
    requires idx < |w.history|
  {
    var blank := NewBlock(w.tip.hash, w.tip.height + 1, miner, now);
    var filled := AddAll(blank, w.mempool[..Drained(w)]);
    SetRecall(filled, SelectRecall(w, filled.height, idx))
  }

  /**
    The commit half of `MineBlock`: store the block under its hash, append
    the hash to history, make the block the tip and drop the first `n`
    pending transactions.
  */
  function Commit(w: Weave, b: Block, n: nat): (r: Weave)
    requires n <= |w.mempool|
    ensures r.history == w.history + [b.hash] && r.tip == b
    ensures b.hash.data in r.store && r.store[b.hash.data] == b
    ensures forall k :: k in w.store && k != b.hash.data ==> k in r.store && r.store[k] == w.store[k]
    ensures r.mempool == w.mempool[n..]
    ensures r.genesis == w.genesis
    ensures r.miningEnabled == w.miningEnabled && r.stopRequested == w.stopRequested
  {
    w.(store := w.store[b.hash.data := b],
       history := w.history + [b.hash],
       tip := b,
       mempool := w.mempool[n..])
  }

  /** Committing a size-consistent block one above the tip keeps `Valid`. */
  lemma CommitKeepsValid(w: Weave, b: Block, n: nat)
    requires Valid(w) && n <= |w.mempool|
    requires b.height == w.tip.height + 1 && SizeConsistent(b)
    ensures Valid(Commit(w, b, n))
  {
    var r := Commit(w, b, n);
    KeysAppend(w.history, b.hash);
    assert r.store.Keys == w.store.Keys + {b.hash.data};
    assert r.history[0] == w.history[0];
    forall k | k in r.store
      ensures SizeConsistent(r.store[k])
    {
      if k != b.hash.data {
        assert r.store[k] == w.store[k];
      }
    }
  }

  /**
    Committing a block that names the tip as `previous`, sits one above it
    and carries a hash not yet in the store keeps `Linked`.
  */
  lemma CommitKeepsLinked(w: Weave, b: Block, n: nat)
    requires Linked(w) && n <= |w.mempool|
    requires b.height == w.tip.height + 1 && SizeConsistent(b)
    requires b.previous == w.tip.hash && b.hash.data !in w.store
    ensures Linked(Commit(w, b, n))
  {
    CommitKeepsValid(w, b, n);
    var r := Commit(w, b, n);
    assert r.genesis.hash == w.history[0];
    assert r.store[r.genesis.hash.data] == r.genesis by {
      assert w.history[0].data in Keys(w.history);
    }
    CommitKeepsPositions(w, b, n);
    CommitKeepsDistinct(w, b, n);
  }

  /** After the commit every history entry still names the block at its position, and its predecessor. */
  lemma CommitKeepsPositions(w: Weave, b: Block, n: nat)
    requires Linked(w) && n <= |w.mempool|
    requires b.height == w.tip.height + 1
    requires b.previous == w.tip.hash && b.hash.data !in w.store
    ensures var r := Commit(w, b, n);
      forall i :: 0 <= i < |r.history| ==>
        r.store[r.history[i].data].hash == r.history[i] && r.store[r.history[i].data].height == i
    ensures var r := Commit(w, b, n);
      forall i :: 0 < i < |r.history| ==> r.store[r.history[i].data].previous == r.history[i - 1]
  {
    CommitKeepsOldEntries(w, b, n);
    var r := Commit(w, b, n);
    var m := |w.history|;
    assert r.history[m] == b.hash;
    forall i | 0 <= i < |r.history|
      ensures r.store[r.history[i].data].hash == r.history[i] && r.store[r.history[i].data].height == i
    {
      if i < m {
        assert r.history[i] == w.history[i];
      }
    }
    forall i | 0 < i < |r.history|
      ensures r.store[r.history[i].data].previous == r.history[i - 1]
    {
      if i < m {
        assert r.history[i] == w.history[i] && r.history[i - 1] == w.history[i - 1];
      } else {
        assert r.history[i - 1] == w.history[m - 1];
      }
    }
  }

  /** A hash that is not yet a key keeps history free of repeats. */
  lemma CommitKeepsDistinct(w: Weave, b: Block, n: nat)
    requires Linked(w) && n <= |w.mempool|
    requires b.hash.data !in w.store
    ensures var r := Commit(w, b, n);
      forall i, j :: 0 <= i < j < |r.history| ==> r.history[i] != r.history[j]
  {
    var r := Commit(w, b, n);
    var m := |w.history|;
    forall i, j | 0 <= i < j < |r.history|
      ensures r.history[i] != r.history[j]
    {
      if j == m {
        assert w.history[i].data in Keys(w.history);
      } else {
        assert r.history[i] == w.history[i] && r.history[j] == w.history[j];
      }
    }
  }

  /** A commit under a new hash leaves every earlier history entry and its stored block as they were. */
  lemma CommitKeepsOldEntries(w: Weave, b: Block, n: nat)
    requires Valid(w) && n <= |w.mempool|
    requires b.hash.data !in w.store
    ensures forall i :: 0 <= i < |w.history| ==>
      && Commit(w, b, n).history[i] == w.history[i]
      && w.history[i].data in w.store
      && Commit(w, b, n).store[w.history[i].data] == w.store[w.history[i].data]
  {
    var r := Commit(w, b, n);
    forall i | 0 <= i < |w.history|
      ensures r.history[i] == w.history[i]
      ensures w.history[i].data in w.store
      ensures r.store[w.history[i].data] == w.store[w.history[i].data]
    {
      assert w.history[i].data in Keys(w.history);
    }
  }

  /**
    `MineBlock`: a no-op on an empty mempool; otherwise build a block on the
    tip from the first `min(N, 10)` pending transactions, pick a recall
    hash, mine, and commit the block as the new tip.
  */
  function MineBlock(w: Weave, sha: Sha256, miner: string, now: i64, idx: nat, draws: seq<int>): (r: Weave)
    requires idx < |w.history| && ValidDraws(draws)
    requires w.mempool != [] ==> Finishes(Assemble(w, miner, now, idx), sha, draws)
    ensures w.mempool == [] ==> r == w
    ensures w.mempool != [] ==> r == Commit(w, r.tip, Drained(w))
    ensures w.mempool != [] ==>
      && r.tip.previous == w.tip.hash
      && r.tip.height == w.tip.height + 1
      && r.tip.miner == miner
      && r.tip.timestamp == now
      && r.tip.txs == w.mempool[..Drained(w)]
      && SizeConsistent(r.tip)
      && Accepts(r.tip.hash)
      && (r.tip.height <= 1 ==> r.tip.recall == w.genesis.hash)
      && (r.tip.height > 1 ==> r.tip.recall in w.history)
    ensures w.mempool != [] ==>
      && r.tip.recall == SelectRecall(w, r.tip.height, idx)
      && r.tip.hash == Of(sha, Preimage(r.tip) + r.tip.nonce)
  {
    if w.mempool == [] then w
    else
      var b := Assemble(w, miner, now, idx);
      var m := Mine(b, sha, draws);
      PreimageDeterminedByContent(m, b);
      Commit(w, m, Drained(w))
  }

  /** The draining law: with N pending, the block takes the first min(N, 10) and the rest stay in order. */
  lemma DrainingLaw(w: Weave, sha: Sha256, miner: string, now: i64, idx: nat, draws: seq<int>)
    requires idx < |w.history| && ValidDraws(draws)
    requires w.mempool != [] ==> Finishes(Assemble(w, miner, now, idx), sha, draws)
    ensures var r := MineBlock(w, sha, miner, now, idx, draws);
      var n := if |w.mempool| < 10 then |w.mempool| else 10;
      && (w.mempool != [] ==> r.tip.txs == w.mempool[..n] && |r.tip.txs| == n)
      && r.mempool == w.mempool[n..]
      && |r.mempool| == |w.mempool| - n
      && w.mempool == (if w.mempool == [] then [] else r.tip.txs) + r.mempool
  {
    var r := MineBlock(w, sha, miner, now, idx, draws);
    if w.mempool != [] {
      var n := Drained(w);
      assert r.tip.txs == w.mempool[..n] && r.mempool == w.mempool[n..];
      SplitAt(w.mempool, r.tip.txs, r.mempool, n);
    }
  }

  /** A sequence is its first `n` elements followed by the rest. */
  lemma SplitAt<T>(s: seq<T>, a: seq<T>, b: seq<T>, n: nat)
    requires n <= |s| && a == s[..n] && b == s[n..]
    ensures s == a + b && |a| == n && |b| == |s| - n
  {
  }

  /** `MineBlock` keeps the store/history/tip invariant and never lowers the tip. */
  lemma MineBlockKeepsValid(w: Weave, sha: Sha256, miner: string, now: i64, idx: nat, draws: seq<int>)
    requires Valid(w)
    requires idx < |w.history| && ValidDraws(draws)
    requires w.mempool != [] ==> Finishes(Assemble(w, miner, now, idx), sha, draws)
    ensures Valid(MineBlock(w, sha, miner, now, idx, draws))
    ensures |MineBlock(w, sha, miner, now, idx, draws).history| >= |w.history|
    ensures MineBlock(w, sha, miner, now, idx, draws).tip.height >= w.tip.height
  {
    if w.mempool != [] {
      var r := MineBlock(w, sha, miner, now, idx, draws);
      CommitKeepsValid(w, r.tip, Drained(w));
    }
  }

  /**
    With a collision-free hash (the new block's hash is not already a key),
    `MineBlock` also keeps the chain linkage: heights count positions and
    each block's `previous` is the hash before it.
  */
  lemma MineBlockKeepsLinked(w: Weave, sha: Sha256, miner: string, now: i64, idx: nat, draws: seq<int>)
    requires Linked(w)
    requires idx < |w.history| && ValidDraws(draws)
    requires w.mempool != [] ==> Finishes(Assemble(w, miner, now, idx), sha, draws)
    requires w.mempool != [] ==> MineBlock(w, sha, miner, now, idx, draws).tip.hash.data !in w.store
    ensures Linked(MineBlock(w, sha, miner, now, idx, draws))
  {
    if w.mempool != [] {
      var r := MineBlock(w, sha, miner, now, idx, draws);
      CommitKeepsLinked(w, r.tip, Drained(w));
    }
  }

  /** `GetBlock`: the stored block for a hash, or nothing. */
  function GetBlock(w: Weave, h: Hash): (r: Option<Block>)
    ensures r.Some? <==> h.data in w.store
    ensures r.Some? ==> r.value == w.store[h.data]
  {
    if h.data in w.store then Some(w.store[h.data]) else None
  }

  /** After a commit the new block is found by its hash and every other hash finds what it found before. */
  lemma GetBlockAfterCommit(w: Weave, b: Block, n: nat, h: Hash)
    requires n <= |w.mempool|
    ensures GetBlock(Commit(w, b, n), b.hash) == Some(b)
    ensures h != b.hash ==> GetBlock(Commit(w, b, n), h) == GetBlock(w, h)
  {
  }

  /** After `MineBlock`, the new block is found by its hash and every other hash finds what it found before. */
  lemma GetBlockAfterMine(w: Weave, sha: Sha256, miner: string, now: i64, idx: nat, draws: seq<int>, h: Hash)
    requires idx < |w.history| && ValidDraws(draws)
    requires w.mempool != []
    requires Finishes(Assemble(w, miner, now, idx), sha, draws)
    ensures var r := MineBlock(w, sha, miner, now, idx, draws);
      && GetBlock(r, r.tip.hash) == Some(r.tip)
      && (h != r.tip.hash ==> GetBlock(r, h) == GetBlock(w, h))
  {
    var r := MineBlock(w, sha, miner, now, idx, draws);
    GetBlockAfterCommit(w, r.tip, Drained(w), h);
  }

  /** Every hash in history names a stored block (what `GetData` relies on). */
  predicate HistoryStored(store: map<string, Block>, history: seq<Hash>) {
    forall i :: 0 <= i < |history| ==> history[i].data in store
  }

  /** All mined transactions, in history order then transaction order. */
  function Chain(store: map<string, Block>, history: seq<Hash>): seq<Tx>
    requires HistoryStored(store, history)
  {
    if history == [] then []
    else Chain(store, history[..|history| - 1]) + store[history[|history| - 1].data].txs
  }

  lemma {:induction false} ChainAppend(store: map<string, Block>, a: seq<Hash>, b: seq<Hash>)
    requires HistoryStored(store, a) && HistoryStored(store, b)
    ensures HistoryStored(store, a + b)
    ensures Chain(store, a + b) == Chain(store, a) + Chain(store, b)
    decreases |b|
  {
    assert HistoryStored(store, a + b) by {
      forall i | 0 <= i < |a + b|
        ensures (a + b)[i].data in store
      {
        if i >= |a| {
          assert (a + b)[i] == b[i - |a|];
        }
      }
    }
    if b == [] {
      assert a + b == a;
    } else {
      var b' := b[..|b| - 1];
      var last := b[|b| - 1];
      assert HistoryStored(store, b');
      assert (a + b)[..|a + b| - 1] == a + b';
      assert (a + b)[|a + b| - 1] == last;
      ChainAppend(store, a, b');
      calc {
        Chain(store, a + b);
        Chain(store, a + b') + store[last.data].txs;
        Chain(store, a) + Chain(store, b') + store[last.data].txs;
        Chain(store, a) + Chain(store, b);
      }
    }
  }

  /** No transaction in `txs` has this id. */
  predicate NoId(txs: seq<Tx>, id: Hash) {
    forall k :: 0 <= k < |txs| ==> txs[k].id != id
  }

  /** The payload of the first transaction with this id, or empty. */
  function DataOf(txs: seq<Tx>, id: Hash): (r: seq<byte>)
    ensures NoId(txs, id) ==> r == []
    ensures forall k :: 0 <= k < |txs| && txs[k].id == id && NoId(txs[..k], id) ==> r == txs[k].data
  {
    if txs == [] then []
    else if txs[0].id == id then txs[0].data
    else
      var rest := DataOf(txs[1..], id);
      assert forall k :: 1 <= k < |txs| ==> txs[1..][k - 1] == txs[k] && txs[1..][..k - 1] == txs[1..k];
      rest
  }

  /**
    `GetData`: scan history in order and each block's transactions in order;
    return the first payload whose transaction has this id, else empty.
  */
  method GetData(w: Weave, id: Hash) returns (data: seq<byte>)
    requires HistoryStored(w.store, w.history)
    ensures data == DataOf(Chain(w.store, w.history), id)
  {
    var i := 0;
    while i < |w.history|
      invariant 0 <= i <= |w.history|
      invariant HistoryStored(w.store, w.history[..i])
      invariant NoId(Chain(w.store, w.history[..i]), id)
    {
      var block := w.store[w.history[i].data];
      var j := 0;
      while j < |block.txs|
        invariant 0 <= j <= |block.txs|
        invariant NoId(block.txs[..j], id)
      {
        if block.txs[j].id == id {
          FoundInChain(w.store, w.history, i, j, id);
          return block.txs[j].data;
        }
        j := j + 1;
      }
      assert block.txs[..j] == block.txs;
      NotInBlock(w.store, w.history, i, id);
      i := i + 1;
    }
    assert w.history[..i] == w.history;
    return [];
  }

  /** The first match of the scan is the first match in the chain. */
  lemma FoundInChain(store: map<string, Block>, history: seq<Hash>, i: nat, j: nat, id: Hash)
    requires HistoryStored(store, history) && i < |history|
    requires HistoryStored(store, history[..i]) && NoId(Chain(store, history[..i]), id)
    requires j < |store[history[i].data].txs|
    requires NoId(store[history[i].data].txs[..j], id) && store[history[i].data].txs[j].id == id
    ensures DataOf(Chain(store, history), id) == store[history[i].data].txs[j].data
  {
    var txs := store[history[i].data].txs;
    var before := Chain(store, history[..i]);
    var after := Chain(store, history[i + 1..]);
    ChainSplit(store, history, i);
    assert !NoId(txs, id);
    DataOfConcat(before, txs, id);
    DataOfConcat(before + txs, after, id);
  }

  /** A block scanned without a match extends the match-free prefix of the chain. */
  lemma NotInBlock(store: map<string, Block>, history: seq<Hash>, i: nat, id: Hash)
    requires HistoryStored(store, history) && i < |history|
    requires HistoryStored(store, history[..i]) && NoId(Chain(store, history[..i]), id)
    requires NoId(store[history[i].data].txs, id)
    ensures HistoryStored(store, history[..i + 1]) && NoId(Chain(store, history[..i + 1]), id)
  {
    assert history[..i + 1][..i] == history[..i];
    assert history[..i + 1][i] == history[i];
    var c := Chain(store, history[..i + 1]);
    var before := Chain(store, history[..i]);
    var txs := store[history[i].data].txs;
    assert c == before + txs;
    forall m | 0 <= m < |c|
      ensures c[m].id != id
    {
      if m >= |before| {
        assert c[m] == txs[m - |before|];
      } else {
        assert c[m] == before[m];
      }
    }
  }

  /** History position `i` contributes its block's transactions right after those of earlier positions. */
  lemma ChainSplit(store: map<string, Block>, history: seq<Hash>, i: nat)
    requires HistoryStored(store, history) && i < |history|
    ensures HistoryStored(store, history[..i]) && HistoryStored(store, history[i + 1..])
    ensures Chain(store, history)
         == Chain(store, history[..i]) + store[history[i].data].txs + Chain(store, history[i + 1..])
  {
    assert HistoryStored(store, history[..i + 1]);
    assert HistoryStored(store, history[i + 1..]);
    assert history == history[..i + 1] + history[i + 1..];
    ChainAppend(store, history[..i + 1], history[i + 1..]);
    assert history[..i + 1][..i] == history[..i];
  }

  /** Committing a block appends its transactions to the chain of mined transactions. */
  lemma ChainAfterCommit(w: Weave, b: Block, n: nat)
    requires Valid(w) && n <= |w.mempool|
    ensures var r := Commit(w, b, n);
      && HistoryStored(r.store, r.history)
      && HistoryStored(r.store, w.history)
      && Chain(r.store, r.history) == Chain(r.store, w.history) + b.txs
  {
    var r := Commit(w, b, n);
    forall i | 0 <= i < |w.history|
      ensures w.history[i].data in r.store
    {
      assert w.history[i].data in Keys(w.history);
    }
    assert r.history[..|r.history| - 1] == w.history;
  }

  /**
    Searching a concatenation: the second part is searched only when the
    first holds no transaction with the id.
  */
  lemma DataOfConcat(a: seq<Tx>, c: seq<Tx>, id: Hash)
    ensures NoId(a + c, id) <==> NoId(a, id) && NoId(c, id)
    ensures NoId(a, id) ==> DataOf(a + c, id) == DataOf(c, id)
    ensures !NoId(a, id) ==> DataOf(a + c, id) == DataOf(a, id)
  {
    var s := a + c;
    if NoId(a, id) {
      if NoId(c, id) {
        forall m | 0 <= m < |s|
          ensures s[m].id != id
        {
          if m >= |a| {
            assert s[m] == c[m - |a|];
          }
        }
      } else {
        var m :| 0 <= m < |c| && c[m].id == id;
        var k := FirstWithId(c, id, m);
        assert s[|a| + k] == c[k];
        var before := s[..|a| + k];
        assert NoId(before, id) by {
          forall q | 0 <= q < |before|
            ensures before[q].id != id
          {
            if q >= |a| {
              assert before[q] == c[..k][q - |a|];
            } else {
              assert before[q] == a[q];
            }
          }
        }
      }
    } else {
      var m :| 0 <= m < |a| && a[m].id == id;
      var k := FirstWithId(a, id, m);
      assert s[k] == a[k] && s[..k] == a[..k];
    }
  }

  /** Either no transaction in `txs` has the id, or the first one that does carries `d`. */
  predicate FirstPayloadIs(txs: seq<Tx>, id: Hash, d: seq<byte>) {
    NoId(txs, id) || DataOf(txs, id) == d
  }

  /**
    If every block along the history either lacks the id or has `d` as its
    first payload for it, so does the whole chain.
  */
  lemma {:induction false} ChainFirstPayload(store: map<string, Block>, history: seq<Hash>, id: Hash, d: seq<byte>)
    requires HistoryStored(store, history)
    requires forall i :: 0 <= i < |history| ==> FirstPayloadIs(store[history[i].data].txs, id, d)
    ensures FirstPayloadIs(Chain(store, history), id, d)
    decreases |history|
  {
    if history != [] {
      var front := history[..|history| - 1];
      var last := store[history[|history| - 1].data].txs;
      forall i | 0 <= i < |front|
        ensures FirstPayloadIs(store[front[i].data].txs, id, d)
      {
        assert front[i] == history[i];
      }
      ChainFirstPayload(store, front, id, d);
      DataOfConcat(Chain(store, front), last, id);
    }
  }

  /** A block of a match-free chain holds no match either. */
  lemma NoIdInBlock(store: map<string, Block>, history: seq<Hash>, i: nat, id: Hash)
    requires HistoryStored(store, history) && i < |history|
    requires NoId(Chain(store, history), id)
    ensures NoId(store[history[i].data].txs, id)
  {
    ChainSplit(store, history, i);
    var before := Chain(store, history[..i]);
    var txs := store[history[i].data].txs;
    forall m | 0 <= m < |txs|
      ensures txs[m].id != id
    {
      assert Chain(store, history)[|before| + m] == txs[m];
    }
  }

  /**
    Committing a block whose first payload for `id` is `d` onto a chain
    with no transaction of that id leaves a chain whose first payload for
    `id`, if any, is `d`, even if the block's hash overwrites a stored one.
  */
  lemma CommitFirstPayload(w: Weave, b: Block, n: nat, id: Hash, d: seq<byte>)
    requires Valid(w) && n <= |w.mempool|
    requires HistoryStored(w.store, w.history) && NoId(Chain(w.store, w.history), id)
    requires FirstPayloadIs(b.txs, id, d)
    ensures var r := Commit(w, b, n);
      && HistoryStored(r.store, r.history)
      && FirstPayloadIs(Chain(r.store, r.history), id, d)
  {
    var r := Commit(w, b, n);
    ChainAfterCommit(w, b, n);
    forall i | 0 <= i < |r.history|
      ensures FirstPayloadIs(r.store[r.history[i].data].txs, id, d)
    {
      if i < |w.history| && w.history[i].data != b.hash.data {
        assert r.history[i] == w.history[i];
        NoIdInBlock(w.store, w.history, i, id);
      } else if i == |w.history| {
        assert r.history[i] == b.hash;
      } else {
        assert r.history[i] == w.history[i];
      }
    }
    ChainFirstPayload(r.store, r.history, id, d);
  }

  /**
    Round trip: the first pending transaction with a given id, among those
    `MineBlock` drains, is found by that id afterwards, provided no block
    already mined holds a transaction with that id. No assumption is made
    about the new block's hash.
  */
  lemma MinedDataRetrievable(w: Weave, sha: Sha256, miner: string, now: i64, idx: nat, draws: seq<int>, tx: Tx, k: nat)
    requires Valid(w)
    requires idx < |w.history| && ValidDraws(draws)
    requires w.mempool != []
    requires Finishes(Assemble(w, miner, now, idx), sha, draws)
    requires k < Drained(w) && w.mempool[k] == tx && NoId(w.mempool[..k], tx.id)
    requires HistoryStored(w.store, w.history) && NoId(Chain(w.store, w.history), tx.id)
    ensures var r := MineBlock(w, sha, miner, now, idx, draws);
      && HistoryStored(r.store, r.history)
      && DataOf(Chain(r.store, r.history), tx.id) == tx.data
  {
    var r := MineBlock(w, sha, miner, now, idx, draws);
    CommittedDataFound(w, r.tip, Drained(w), tx, k);
  }

  /** `MinedDataRetrievable` for any block that takes the first `n` pending transactions. */
  lemma CommittedDataFound(w: Weave, b: Block, n: nat, tx: Tx, k: nat)
    requires Valid(w) && n <= |w.mempool| && b.txs == w.mempool[..n]
    requires k < n && w.mempool[k] == tx && NoId(w.mempool[..k], tx.id)
    requires HistoryStored(w.store, w.history) && NoId(Chain(w.store, w.history), tx.id)
    ensures var r := Commit(w, b, n);
      && HistoryStored(r.store, r.history)
      && DataOf(Chain(r.store, r.history), tx.id) == tx.data
  {
    var r := Commit(w, b, n);
    assert b.txs[k] == tx && b.txs[..k] == w.mempool[..k];
    assert DataOf(b.txs, tx.id) == tx.data;
    CommitFirstPayload(w, b, n, tx.id, tx.data);
    ChainAfterCommit(w, b, n);
    DataOfConcat(Chain(r.store, w.history), b.txs, tx.id);
  }

  /** Some index at or before `bound` is the first carrying this id. */
  lemma {:induction false} FirstWithId(txs: seq<Tx>, id: Hash, bound: nat) returns (k: nat)
    requires bound < |txs| && txs[bound].id == id
    ensures k <= bound && txs[k].id == id && NoId(txs[..k], id)
    decreases bound
  {
    if NoId(txs[..bound], id) {
      k := bound;
    } else {
      var m :| 0 <= m < bound && txs[..bound][m].id == id;
      k := FirstWithId(txs, id, m);
    }
  }

  /** `StartMining`: enabled, no stop request; chain state untouched. */
  function StartMining(w: Weave): (r: Weave)
    ensures r.miningEnabled && !r.stopRequested
    ensures r.(miningEnabled := w.miningEnabled, stopRequested := w.stopRequested) == w
  {
    w.(miningEnabled := true, stopRequested := false)
  }

  /** `StopMining`: stop requested, disabled; chain state untouched. */
  function StopMining(w: Weave): (r: Weave)
    ensures !r.miningEnabled && r.stopRequested
    ensures r.(miningEnabled := w.miningEnabled, stopRequested := w.stopRequested) == w
  {
    w.(miningEnabled := false, stopRequested := true)
  }

  function IsMiningEnabled(w: Weave): bool {
    w.miningEnabled
  }

  function ShouldStopMining(w: Weave): bool {
    w.stopRequested
  }

  function GetMempoolSize(w: Weave): nat {
    |w.mempool|
  }

  /**
    The control flags form the Idle/Mining machine: starting gives
    "enabled, not stopping", stopping gives "disabled, stopping", and the
    last call wins whatever came before; neither touches the chain.
  */
  lemma MiningControl(w: Weave)
    ensures IsMiningEnabled(StartMining(w)) && !ShouldStopMining(StartMining(w))
    ensures !IsMiningEnabled(StopMining(w)) && ShouldStopMining(StopMining(w))
    ensures StartMining(StopMining(w)) == StartMining(w)
    ensures StopMining(StartMining(w)) == StopMining(w)
    ensures Linked(w) ==> Linked(StartMining(w)) && Linked(StopMining(w))
    ensures GetMempoolSize(StartMining(w)) == GetMempoolSize(StopMining(w)) == GetMempoolSize(w)
  {
  }

  /** `AddTransaction` grows the mempool by one and keeps every invariant. */
  lemma AddTransactionKeepsLinked(w: Weave, tx: Tx)
    ensures GetMempoolSize(AddTransaction(w, tx)) == GetMempoolSize(w) + 1
    ensures Valid(w) ==> Valid(AddTransaction(w, tx))
    ensures Linked(w) ==> Linked(AddTransaction(w, tx))
  {
  }

  /** The size of one or two transactions is the sum of their payload sizes. */
  lemma PairSizes(a: Tx, b: Tx)
    ensures SumSizes([a]) == a.dataSize
    ensures SumSizes([a, b]) == a.dataSize + b.dataSize
  {
    assert [a, b][..1] == [a];
    assert [a][..0] == [];
  }

  /** After the first block is mined, the chain of mined transactions is that block's. */
  lemma FirstBlockChain(w: Weave, r: Weave, b: Block, n: nat)
    requires Valid(w) && n <= |w.mempool| && |w.history| == 1 && w.genesis.txs == []
    requires w.store == map[w.history[0].data := w.genesis]
    requires r == Commit(w, b, n)
    ensures HistoryStored(r.store, r.history)
    ensures Chain(r.store, r.history) == b.txs || Chain(r.store, r.history) == b.txs + b.txs
  {
    ChainAfterCommit(w, b, n);
    var g := w.history[0];
    var prefix := Chain(r.store, w.history);
    assert prefix == r.store[g.data].txs by {
      assert w.history == [g];
      assert w.history[..0] == [];
    }
    if g.data != b.hash.data {
      assert r.store[g.data] == w.genesis;
      assert prefix == [];
    } else {
      assert prefix == b.txs;
    }
  }

  /** The first transaction of a chain is found by its id. */
  lemma FoundFirst(c: seq<Tx>, tx: Tx)
    requires c != [] && c[0] == tx
    ensures DataOf(c, tx.id) == tx.data
  {
    assert NoId(c[..0], tx.id);
  }

  /** Two stores that agree on every hash along a history give the same chain. */
  lemma {:induction false} ChainSameBlocks(s1: map<string, Block>, s2: map<string, Block>, history: seq<Hash>)
    requires HistoryStored(s1, history) && HistoryStored(s2, history)
    requires forall i :: 0 <= i < |history| ==> s1[history[i].data] == s2[history[i].data]
    ensures Chain(s1, history) == Chain(s2, history)
    decreases |history|
  {
    if history != [] {
      var front := history[..|history| - 1];
      forall i | 0 <= i < |front|
        ensures front[i].data in s1 && front[i].data in s2 && s1[front[i].data] == s2[front[i].data]
      {
        assert front[i] == history[i];
      }
      ChainSameBlocks(s1, s2, front);
    }
  }

  /** Committing a block under a new hash appends its transactions to the old chain. */
  lemma FreshCommitChain(w: Weave, b: Block, n: nat)
    requires Valid(w) && n <= |w.mempool| && b.hash.data !in w.store
    ensures HistoryStored(w.store, w.history)
    ensures var r := Commit(w, b, n);
      && HistoryStored(r.store, r.history)
      && Chain(r.store, r.history) == Chain(w.store, w.history) + b.txs
  {
    var r := Commit(w, b, n);
    ChainAfterCommit(w, b, n);
    forall i | 0 <= i < |w.history|
      ensures w.history[i].data in w.store && r.store[w.history[i].data] == w.store[w.history[i].data]
    {
      assert w.history[i].data in Keys(w.history);
    }
    ChainSameBlocks(r.store, w.store, w.history);
  }

  /** A fresh weave with two pending transactions. */
  lemma FreshWithTwo(sha: Sha256, t0: i64, genesisDraws: seq<int>, a: Tx, b: Tx, w: Weave)
    requires ValidDraws(genesisDraws) && Finishes(GenesisTemplate(t0), sha, genesisDraws)
    requires w == AddTransaction(AddTransaction(Init(sha, t0, genesisDraws), a), b)
    ensures Valid(w) && w.mempool == [a, b]
    ensures |w.history| == 1 && w.genesis.txs == [] && w.tip.height == 0
    ensures w.store == map[w.history[0].data := w.genesis]
  {
  }

  /** Mining a mempool of at most ten transactions takes them all into one block. */
  lemma MineAll(w: Weave, sha: Sha256, miner: string, now: i64, idx: nat, draws: seq<int>, r: Weave)
    requires Valid(w) && w.mempool != [] && |w.mempool| <= MaxTxsPerBlock
    requires idx < |w.history| && ValidDraws(draws) && Finishes(Assemble(w, miner, now, idx), sha, draws)
    requires r == MineBlock(w, sha, miner, now, idx, draws)
    ensures Drained(w) == |w.mempool|
    ensures r == Commit(w, r.tip, Drained(w))
    ensures r.tip.txs == w.mempool && r.mempool == []
    ensures r.tip.height == w.tip.height + 1 && SizeConsistent(r.tip)
    ensures Valid(r)
  {
    TakeAll(w.mempool, Drained(w));
    MineBlockKeepsValid(w, sha, miner, now, idx, draws);
  }

  lemma TakeAll<T>(s: seq<T>, n: nat)
    requires n == |s|
    ensures s[..n] == s && s[n..] == []
  {
  }

  /** The three payloads of the program's demonstration run. */
  const FirstMessage: string := "Hello, permanent storage!"
  const SecondMessage: string := "This data will last forever on the blockweave"
  const ThirdMessage: string := "Another piece of permanent data"

  /**
    The first half of the demonstration run: on a fresh weave Alice sends
    Bob the first message with reward 100, Bob sends Alice the second with
    reward 150, and one block is mined. The block sits at height 1, holds
    both transactions in order with 25 + 45 payload bytes, empties the
    mempool, and the chain of mined transactions starts with Alice's.
  */
  lemma DemoFirstBlock(sha: Sha256, t0: i64, genesisDraws: seq<int>, alice: string, bob: string, miner: string,
                       t1: i64, t2: i64, tx1: Tx, tx2: Tx, w1: Weave,
                       now1: i64, idx1: nat, draws1: seq<int>, r1: Weave)
    requires ValidDraws(genesisDraws) && Finishes(GenesisTemplate(t0), sha, genesisDraws)
    requires tx1 == NewTx(sha, alice, bob, BytesOf(FirstMessage), 100, t1)
    requires tx2 == NewTx(sha, bob, alice, BytesOf(SecondMessage), 150, t2)
    requires w1 == AddTransaction(AddTransaction(Init(sha, t0, genesisDraws), tx1), tx2)
    requires idx1 < |w1.history| && ValidDraws(draws1) && Finishes(Assemble(w1, miner, now1, idx1), sha, draws1)
    requires r1 == MineBlock(w1, sha, miner, now1, idx1, draws1)
    ensures r1.tip.height == 1 && r1.tip.txs == [tx1, tx2] && r1.tip.cumulativeSize == 70
    ensures r1.tip.recall == r1.genesis.hash && r1.mempool == [] && |r1.history| == 2
    ensures Valid(r1) && HistoryStored(r1.store, r1.history)
    ensures Chain(r1.store, r1.history) != [] && Chain(r1.store, r1.history)[0] == tx1
  {
    FreshWithTwo(sha, t0, genesisDraws, tx1, tx2, w1);
    MineAll(w1, sha, miner, now1, idx1, draws1, r1);
    PairSizes(tx1, tx2);
    FirstBlockChain(w1, r1, r1.tip, Drained(w1));
  }

  /**
    The demonstration run of the program's entry point: the first block as
    in `DemoFirstBlock`, then Alice sends Bob the third message with reward
    200 and a second block is mined, then the first transaction's payload
    is read back by its id. The second block's hash is assumed new (the
    collision freedom `Linked` also relies on); with that, the read-back
    finds the first message even when the third transaction shares its id
    (same sender, target and clock tick count).
  */
  lemma DemoRun(sha: Sha256, t0: i64, genesisDraws: seq<int>, alice: string, bob: string, miner: string,
                t1: i64, t2: i64, tx1: Tx, tx2: Tx, w1: Weave,
                now1: i64, idx1: nat, draws1: seq<int>, r1: Weave,
                t3: i64, tx3: Tx, w2: Weave, now2: i64, idx2: nat, draws2: seq<int>, r2: Weave)
    requires ValidDraws(genesisDraws) && Finishes(GenesisTemplate(t0), sha, genesisDraws)
    requires tx1 == NewTx(sha, alice, bob, BytesOf(FirstMessage), 100, t1)
    requires tx2 == NewTx(sha, bob, alice, BytesOf(SecondMessage), 150, t2)
    requires w1 == AddTransaction(AddTransaction(Init(sha, t0, genesisDraws), tx1), tx2)
    requires idx1 < |w1.history| && ValidDraws(draws1) && Finishes(Assemble(w1, miner, now1, idx1), sha, draws1)
    requires r1 == MineBlock(w1, sha, miner, now1, idx1, draws1)
    requires tx3 == NewTx(sha, alice, bob, BytesOf(ThirdMessage), 200, t3)
    requires w2 == AddTransaction(r1, tx3)
    requires idx2 < |w2.history| && ValidDraws(draws2) && Finishes(Assemble(w2, miner, now2, idx2), sha, draws2)
    requires r2 == MineBlock(w2, sha, miner, now2, idx2, draws2)
    requires r2.tip.hash.data !in w2.store
    ensures r2.tip.height == 2 && r2.tip.txs == [tx3] && r2.tip.cumulativeSize == 31
    ensures r2.tip.previous == r1.tip.hash && |r2.history| == 3 && r2.mempool == []
    ensures HistoryStored(r2.store, r2.history)
    ensures DataOf(Chain(r2.store, r2.history), tx1.id) == BytesOf(FirstMessage)
  {
    assert tx3.dataSize == 31 && tx1.data == BytesOf(FirstMessage);
    DemoFirstBlock(sha, t0, genesisDraws, alice, bob, miner, t1, t2, tx1, tx2, w1, now1, idx1, draws1, r1);
    assert |r1.history| == 2;
    DemoSecondBlock(sha, miner, tx1, r1, tx3, w2, now2, idx2, draws2, r2);
  }

  /**
    The second half of the demonstration run, from any valid weave of
    height 1 with an empty mempool whose chain starts with `tx1`: one more
    transaction and one more block (under a new hash) leave `tx1`'s
    payload as the first found for its id.
  */
  lemma DemoSecondBlock(sha: Sha256, miner: string, tx1: Tx, r1: Weave,
                        tx3: Tx, w2: Weave, now2: i64, idx2: nat, draws2: seq<int>, r2: Weave)
    requires Valid(r1) && r1.mempool == [] && r1.tip.height == 1
    requires HistoryStored(r1.store, r1.history)
    requires Chain(r1.store, r1.history) != [] && Chain(r1.store, r1.history)[0] == tx1
    requires w2 == AddTransaction(r1, tx3)
    requires idx2 < |w2.history| && ValidDraws(draws2) && Finishes(Assemble(w2, miner, now2, idx2), sha, draws2)
    requires r2 == MineBlock(w2, sha, miner, now2, idx2, draws2)
    requires r2.tip.hash.data !in w2.store
    ensures r2.tip.height == 2 && r2.tip.txs == [tx3] && r2.tip.cumulativeSize == tx3.dataSize
    ensures r2.tip.previous == r1.tip.hash && r2.history == r1.history + [r2.tip.hash]
    ensures r2.mempool == [] && |r2.history| == |r1.history| + 1
    ensures HistoryStored(r2.store, r2.history)
    ensures DataOf(Chain(r2.store, r2.history), tx1.id) == tx1.data
  {
    MineOneMore(sha, miner, r1, tx3, w2, now2, idx2, draws2, r2);
    FreshBlockData(r1, tx1, w2, r2);
  }

  /** Mining a single pending transaction on a valid weave. */
  lemma MineOneMore(sha: Sha256, miner: string, r1: Weave, tx: Tx, w2: Weave,
                    now2: i64, idx2: nat, draws2: seq<int>, r2: Weave)
    requires Valid(r1) && r1.mempool == []
    requires w2 == AddTransaction(r1, tx)
    requires idx2 < |w2.history| && ValidDraws(draws2) && Finishes(Assemble(w2, miner, now2, idx2), sha, draws2)
    requires r2 == MineBlock(w2, sha, miner, now2, idx2, draws2)
    ensures Valid(w2) && r2 == Commit(w2, r2.tip, 1)
    ensures r2.tip.height == r1.tip.height + 1 && r2.tip.txs == [tx] && r2.tip.cumulativeSize == tx.dataSize
    ensures r2.tip.previous == r1.tip.hash && r2.history == r1.history + [r2.tip.hash]
    ensures r2.mempool == [] && |r2.history| == |r1.history| + 1
  {
    AddTransactionKeepsLinked(r1, tx);
    assert w2.mempool == [tx];
    MineAll(w2, sha, miner, now2, idx2, draws2, r2);
    PairSizes(tx, tx);
  }

  /** A block committed under a new hash after a chain that starts with `tx1` keeps `tx1`'s payload first. */
  lemma FreshBlockData(r1: Weave, tx1: Tx, w2: Weave, r2: Weave)
    requires Valid(w2) && w2.store == r1.store && w2.history == r1.history && w2.mempool != []
    requires HistoryStored(r1.store, r1.history)
    requires Chain(r1.store, r1.history) != [] && Chain(r1.store, r1.history)[0] == tx1
    requires r2 == Commit(w2, r2.tip, 1) && r2.tip.hash.data !in w2.store
    ensures HistoryStored(r2.store, r2.history)
    ensures DataOf(Chain(r2.store, r2.history), tx1.id) == tx1.data
  {
    FreshCommitChain(w2, r2.tip, 1);
    var c := Chain(r2.store, r2.history);
    assert c == Chain(r1.store, r1.history) + r2.tip.txs;
    FoundFirst(c, tx1);
  }
}

=== FILE: wrappers.dfy ===
/** Failure-compatible wrapper used for the source's "not found" and error returns. */
module Wrappers {

  /** The conventional Some/None datatype, used in place of `npos`, `nullptr` or a thrown error. */
  datatype Option<+T> = None | Some(value: T) {

    /** Returns the value encapsulated in Some or a default value if None */
    function GetOr(default: T): T {
      match this
      case Some(v) => v
      case None => default
    }
  }
}
